=== FILE: README.md ===
# Estate Refurbishment Dashboard — derived-state model

A Dafny model of the data core of the Estate Refurbishment Dashboard. The dashboard loads an
estate's refurbishment projects from an Excel workbook. A workbook holds these sheets:

- Projects;
- Tasks;
- Contractors;
- HealthAndSafety;
- ProjectContractors.

The dashboard keeps the loaded records in one global store. It derives every panel it shows
from that store:

- the programme tab: spend variance, top risks, contractor usage, H&S hotspots and the H&S
  risk heatmap;
- the chart panel: projects by site and by asset type, tasks by assignee, the timeline and the
  contractor trade radar;
- the projects tab: the filtered project list, the selected project's detail with its
  phase columns and H&S summary, and the click and filter handlers.

The modules follow the program's files:

| module | models |
|---|---|
| `State` | `assets/js/state.js`: the `Store` class with its fields, setters, queries and the two status cycles |
| `ExcelService` | `assets/js/excelService.js`: row normalisation of the five sheets, with the imperative loops proved equal to a functional `Load` |
| `ProgrammeView` | `assets/js/programmeView.js`: the five programme panels |
| `Charts`, `ChartObject` | `assets/js/charts.js`: the chart data and the `charts` object of chart slots |
| `ProjectsView` | `assets/js/projectsView.js`: list, detail, clicks and filter changes |
| `Wrappers`, `Seqs`, `Text`, `JsValues`, `Groups`, `Entities` | the JavaScript semantics these rely on (see below) and the record types |

The JavaScript semantics:

- truthiness and `||`;
- `Number()`, with NaN as `None`;
- `trim` and ASCII `toLowerCase`;
- `Array.prototype.filter`, `find`, `findIndex`, `slice` and `reduce`;
- the stable `sort`;
- `Set`s and `Map`s in insertion order;
- the own-key order of plain objects: array-index keys ascending, then the other keys in
  creation order.

## Model

| member | source | states |
|---|---|---|
| `State.LevelWeight` | assets/js/state.js:109-123 | the shared weight of `riskWeight` and `hsSeverityWeight`: 3, 2, 1 exactly for "high", "medium", "low" in any case, 0 for anything else |
| `State.HighInAnyCase` | assets/js/state.js:117-123 | weight 3 is given exactly to the spellings of "high" in any letter case |
| `State.IndexOf` | assets/js/state.js:56 | `indexOf`: -1 exactly when absent, otherwise the first position holding the value |
| `State.AdvanceAt` | assets/js/state.js:54-66 | over distinct values a click moves one place forward, and from the last back to the first |
| `State.CycleReturns` | assets/js/state.js:54-66 | going once round such a cycle returns to the start, whatever the start |
| `State.ClickCycles` | assets/js/state.js:54-66 | the status click over distinct values is such a cycle |
| `State.NextTaskStatus` | assets/js/state.js:54-59 | Not Started → In Progress → Done → Not Started; an unknown status counts as the first and becomes "In Progress" |
| `State.NextProjectStatus` | assets/js/state.js:61-66 | Planned → In Progress → Completed → Planned; an unknown status becomes "In Progress" |
| `State.TaskCycleOfThree` | assets/js/state.js:54-59 | three clicks from a known task status return to it |
| `State.ProjectCycleOfThree` | assets/js/state.js:61-66 | three clicks from a known project status return to it |
| `State.RoundPercent` | assets/js/state.js:49 | the progress percentage is at most 100 and 0 with no tasks; otherwise it is the exact ratio `100c/t` rounded to the nearest integer, halves up (the double-precision error of the division is not modelled, see "Left out") |
| `State.EntryFor` | assets/js/state.js:90-105 | a contractor entry carries the link's fields, joined with the first contractor of that id, or empty strings and not preferred when there is none |
| `State.Store.constructor` | assets/js/state.js:6-10 | the store starts with no projects, no selection and empty lists |
| `State.Store.SetProjects` | assets/js/state.js:12-17 | the projects are replaced; the first project is selected only when the list is non-empty and nothing (or id 0) was selected; nothing else changes |
| `State.Store.SetSelectedProject` | assets/js/state.js:19-21 | the selection becomes the given id; nothing else changes |
| `State.Store.GetSelectedProject` | assets/js/state.js:23-25 | a project of the store with the selected id, the first one; `None` exactly when no project has that id |
| `State.Store.GetFilteredProjects` | assets/js/state.js:27-32 | a subsequence of the projects keeping exactly those passing both the status and the site filter, each as often as stored |
| `State.Store.FilteredAllIsEverything` | assets/js/state.js:27-32 | "all"/"all" keeps every project |
| `State.Store.GetFilteredProjectsForProgramme` | assets/js/state.js:34-39 | "all" returns the projects themselves, otherwise exactly the projects of that site in order |
| `State.Store.ProgrammeFilterAgrees` | assets/js/state.js:27-39 | the programme filter equals the projects filter with status "all" |
| `State.Store.ComputeStats` | assets/js/state.js:41-52 | the project count, the number of all tasks, the number of Done tasks (never more than the tasks) and the rounded percentage |
| `State.Store.CycleTaskStatus` | assets/js/state.js:54-59 | only the addressed task's status advances; every other task, project and field is unchanged |
| `State.Store.CycleProjectStatus` | assets/js/state.js:61-66 | only the addressed project's status advances |
| `State.Store.SetContractors` | assets/js/state.js:68-70 | the list is replaced, a missing list becoming empty; nothing else changes |
| `State.Store.SetHSWarnings` | assets/js/state.js:72-74 | the same for the H&S warnings |
| `State.Store.SetProjectContractorLinks` | assets/js/state.js:76-78 | the same for the project-contractor links |
| `State.Store.GetWarningsForProject` | assets/js/state.js:80-82 | exactly the warnings whose project id is the given id, in order |
| `State.Store.GetProjectContractorLinks` | assets/js/state.js:84-86 | exactly the links of the given project, in order |
| `State.Store.GetContractorsForProject` | assets/js/state.js:88-107 | one joined entry per link of the project, in link order, each of that project |
| `JsValues.TextOr` | assets/js/excelService.js:35-44 | `v || fallback`: the cell's text when it is truthy (never empty), otherwise the fallback |
| `JsValues.NumberOrZero` | assets/js/excelService.js:45-48 | `Number(v) || 0`: the number, or 0 for NaN |
| `JsValues.NonZeroNumber` | assets/js/excelService.js:31-32 | an id is kept exactly when `Number` gives a number other than 0 |
| `JsValues.TrimmedOrEmpty` | assets/js/excelService.js:82-89 | `(v || "").trim()`: throws exactly on a truthy cell that is not text; a text cell gives its own text trimmed, a falsy cell gives "" |
| `JsValues.NumberOfIntegerText` | assets/js/excelService.js:56-59 | the decimal text of an integer reads back as that integer |
| `JsValues.BlankTextIsZero` | assets/js/excelService.js:31-32 | a blank text id is 0 and the row is dropped |
| `Text.IntRoundTrip` | assets/js/excelService.js:59 | parsing the decimal text of an integer gives the integer back |
| `ExcelService.ProjectFromRow` | assets/js/excelService.js:33-52 | a project record carries the row's id and no tasks; every text column is the cell's text when the cell is truthy and otherwise "" ("Planned" for Status); every money column is `Number(cell)`, or 0 for NaN |
| `ExcelService.KeptIdsOfRows` | assets/js/excelService.js:30-32 | an id is kept exactly when some row carries it |
| `ExcelService.ProjectMapOf` | assets/js/excelService.js:29-53 | the map holds exactly the kept ids, each with a project of that id and no tasks yet |
| `ExcelService.LastWriteWins` | assets/js/excelService.js:33 | the last row with a given id is the one kept |
| `ExcelService.BuildProjectMap` | assets/js/excelService.js:29-53 | the rows loop builds that map, and its keys in creation order |
| `ExcelService.TaskFromRow` | assets/js/excelService.js:58-65 | a task id is `${pid}-${title}`; title, phase, assignee, due date and status are each the cell's text when truthy, otherwise "", "Pre", "", "" and "Not Started" |
| `ExcelService.TaskIdNamesProject` | assets/js/excelService.js:59 | the first part of a task id reads back as its project id |
| `ExcelService.TasksForRows` | assets/js/excelService.js:55-66 | every attached task comes from a row naming that project |
| `ExcelService.AttachTasks` | assets/js/excelService.js:55-66 | the task loop keeps the map's keys and appends to each project the tasks of its rows, in row order |
| `ExcelService.ProjectKeys` | assets/js/excelService.js:68 | `Object.values` lists each kept id once, every one a key of the map |
| `ExcelService.ProjectsOf` | assets/js/excelService.js:68 | one project per listed key, built from the last row of that id, with its tasks attached |
| `ExcelService.ProjectIdsDistinct` | assets/js/excelService.js:29-68 | no id appears twice among the loaded projects |
| `ExcelService.ProjectIdsKept` | assets/js/excelService.js:29-68 | a project is loaded exactly when some row carries its non-zero id |
| `ExcelService.ProjectsInIdOrder` | assets/js/excelService.js:68 | projects with array-index ids come first, in ascending id order |
| `ExcelService.TrimField` | assets/js/excelService.js:82-89 | `.trim()` throws exactly on a truthy non-text cell, naming the column; otherwise the result is that column's text trimmed, or "" when the cell is missing or falsy |
| `ExcelService.TrimAll` | assets/js/excelService.js:80-90 | the object literal succeeds exactly when no column throws; otherwise the error is one of the columns' |
| `ExcelService.CollectOk` | assets/js/excelService.js:75-91 | the sheet loop completes exactly when no kept row's record throws |
| `ExcelService.CollectKeeps` | assets/js/excelService.js:75-91 | when it completes, one record per kept row, built from that row and id, in row order |
| `ExcelService.CollectStopsAtError` | assets/js/excelService.js:75-91 | the first error of the loop is the one thrown |
| `ExcelService.CollectRows` | assets/js/excelService.js:75-91 | the imperative loop computes exactly the functional collection |
| `ExcelService.PreferredOfBool` | assets/js/excelService.js:78-79 | a boolean cell is preferred exactly when true |
| `ExcelService.PreferredOfNumber` | assets/js/excelService.js:78-79 | a number cell is preferred exactly when it is 1 |
| `ExcelService.ContractorFromRow` | assets/js/excelService.js:76-90 | a contractor record: throws exactly on a non-text text column; otherwise the id, the parsed preferred flag, and name, company, trade, phone, email, accreditations and notes each the trimmed text of its own column ("" when empty) |
| `ExcelService.WarningFromRow` | assets/js/excelService.js:100-112 | an H&S record: throws exactly on a non-text text column; project id as `Number` gives it (NaN and 0 kept); warning type, description, severity, location, control measures and notes each the trimmed text of its own column ("" when empty) |
| `ExcelService.LinkFromRow` | assets/js/excelService.js:121-127 | a link record: missing or NaN ids become 0; role and notes each the trimmed text of its own column ("" when empty) |
| `ExcelService.LinkRows` | assets/js/excelService.js:121-127 | the map converts every row in order, until one throws |
| `ExcelService.LinksOf` | assets/js/excelService.js:121-127 | the filter keeps exactly the links with three positive ids, in order |
| `ExcelService.Load` | assets/js/excelService.js:19-135 | a missing Projects or Tasks sheet throws; otherwise loading succeeds exactly when no optional sheet throws; a missing optional sheet gives an empty list |
| `ExcelService.LoadedContractors` | assets/js/excelService.js:71-92 | the loaded contractors are one record per kept row, in row order |
| `ExcelService.LoadedWarnings` | assets/js/excelService.js:95-114 | the loaded warnings are one record per kept row, in row order |
| `ExcelService.LoadedLinksValid` | assets/js/excelService.js:117-128 | every loaded link has three positive ids |
| `ExcelService.LoadData` | assets/js/excelService.js:19-135 | the imperative loader returns exactly what `Load` says |
| `Groups.CountBy` | assets/js/charts.js:48-54 | a `counts[k]++` loop counts each key as often as it occurs, keys in creation order |
| `Groups.GroupDistinct` | assets/js/programmeView.js:79-87 | a `Map` of `Set`s loop holds each key's distinct values, keys in insertion order |
| `Groups.GroupList` | assets/js/programmeView.js:137-145 | an object-of-arrays loop holds under each key its elements in order |
| `Groups.ListGroupsHold` | assets/js/programmeView.js:137-145 | the groups hold exactly the keys touched, each with its elements in order |
| `Groups.DistinctGroupsHold` | assets/js/programmeView.js:79-87 | each group holds exactly the values seen under its key, once each |
| `ProgrammeView.IdsOfMembers` | assets/js/programmeView.js:71 | an id is in the set exactly when a shown project has it |
| `ProgrammeView.SpendVariance` | assets/js/programmeView.js:15-27 | over, under or on budget as projected spend compares with budget; budget plus signed variance is the projected spend |
| `ProgrammeView.TopRisks` | assets/js/programmeView.js:34-62 | the message exactly when nothing is shown; otherwise min(5, n) cards sorted by risk, highest first |
| `ProgrammeView.TopRisksAreRiskiest` | assets/js/programmeView.js:43-45 | the cards are a sub-multiset of the shown projects, and no project left out is riskier than a card |
| `ProgrammeView.TopRisksKeepOrder` | assets/js/programmeView.js:43-45 | among projects of equal risk, the cards are the first ones in input order |
| `ProgrammeView.UsageCountsProjects` | assets/js/programmeView.js:78-93 | a contractor's usage is the number of distinct shown projects among its links; 0 exactly when none is shown |
| `ProgrammeView.RankedRows` | assets/js/programmeView.js:89-96 | the rows with usage above 0, as a permutation of those rows, sorted by usage, highest first |
| `ProgrammeView.ContractorUsage` | assets/js/programmeView.js:64-121 | "no data" exactly when contractors or links are empty; "none assigned" only when no contractor is used; otherwise 1 to 8 cards sorted by usage, highest first, each a used contractor with its usage |
| `ProgrammeView.ContractorUsageIsTop` | assets/js/programmeView.js:91-104 | the cards are `min(8, used)` rows taken from the used contractors, and no used contractor left out has a higher project count than a card |
| `ProgrammeView.ContractorRowsKeepOrder` | assets/js/programmeView.js:95-96 | rows of equal usage keep the contractors' order |
| `ProgrammeView.RenderContractors` | assets/js/programmeView.js:64-121 | the imperative panel equals `ContractorUsage` of the shown projects |
| `ProgrammeView.UsageCardName` | assets/js/programmeView.js:110 | name, then company, then "–": never empty |
| `ProgrammeView.HighestSeverity` | assets/js/programmeView.js:155-159 | a warning of the list of maximal weight, and the first such |
| `ProgrammeView.WarningTypesOf` | assets/js/programmeView.js:164 | the distinct non-empty warning types, exactly those that occur, in the order of their first warning |
| `ProgrammeView.HotspotFor` | assets/js/programmeView.js:149-171 | no entry exactly when the project is not shown or its highest severity is below Medium; otherwise the project, that severity and the types |
| `ProgrammeView.PresentMembers` | assets/js/programmeView.js:172 | `.filter(Boolean)` keeps exactly the entries that are not `null` |
| `ProgrammeView.CollectedHotspots` | assets/js/programmeView.js:148-172 | a hotspot is collected exactly when some key produces it |
| `ProgrammeView.WarningKeysGrouped` | assets/js/programmeView.js:137-148 | every listed key has a non-empty group of that project's warnings |
| `ProgrammeView.FoundHotspotsValid` | assets/js/programmeView.js:148-172 | every hotspot is High or Medium, for a shown project, with distinct non-empty types |
| `ProgrammeView.RankHotspots` | assets/js/programmeView.js:173-174 | exactly `min(5, found)` cards, sorted by severity, drawn from the found hotspots |
| `ProgrammeView.RankHotspotsAreTop` | assets/js/programmeView.js:173-174 | the cards are a sub-multiset of the found hotspots, and no hotspot left out outweighs a card |
| `ProgrammeView.HotspotsComplete` | assets/js/programmeView.js:137-172 | every shown warning of weight 2 or more yields a found hotspot for its project |
| `ProgrammeView.FoundHotspotWarning` | assets/js/programmeView.js:137-172 | every found hotspot has a shown warning of weight 2 or more for its project |
| `ProgrammeView.NoHotspotsFound` | assets/js/programmeView.js:137-172 | no hotspot is found exactly when no shown warning weighs 2 or more |
| `ProgrammeView.Hotspots` | assets/js/programmeView.js:123-195 | the "nothing loaded" message exactly when there are no warnings; the "none found" message exactly when warnings exist but no shown warning is High or Medium; otherwise 1 to 5 valid cards, highest severity first |
| `ProgrammeView.HotspotCardMeaning` | assets/js/programmeView.js:137-171 | a card's severity is the first highest among its project's shown warnings, its types their distinct types |
| `ProgrammeView.HotspotsKeepOrder` | assets/js/programmeView.js:173 | hotspots of equal severity keep their `Object.keys` order |
| `ProgrammeView.RenderHotspots` | assets/js/programmeView.js:123-195 | the imperative panel equals `Hotspots` of the shown projects |
| `ProgrammeView.RenderHeatmap` | assets/js/programmeView.js:197-242 | the message exactly when there are no warnings; otherwise each cell counts the shown warnings of its level in any case |
| `ProgrammeView.HeatmapBounded` | assets/js/programmeView.js:211-222 | the three cells together never count more than the shown warnings |
| `Charts.Destroy` | assets/js/charts.js:8-10 | a destroyed slot holds no live chart; an empty slot stays empty |
| `Charts.ListedKeys` | assets/js/charts.js:48-54 | the labels are distinct, are exactly the keys, and their counts add up to the number of keys |
| `Charts.ReadCounters` | assets/js/charts.js:48-56 | reading the counts object gives the labels in own-key order and each label's count |
| `Charts.CountsChartFacts` | assets/js/charts.js:48-56 | distinct labels, exactly the keys seen, each with its positive number of occurrences, totalling the keys |
| `Charts.ChartOfCounts` | assets/js/charts.js:48-56 | the chart read from the counters is the count chart of the keys |
| `Charts.KeysOfEvery` | assets/js/charts.js:49-52 | the keys the loop touches are the labels of all elements in order |
| `Charts.CountChart` | assets/js/charts.js:46-58 | the counting loop builds the count chart of the labels |
| `Charts.CountAssignees` | assets/js/charts.js:151-165 | the nested task loop builds the assignee chart |
| `Charts.CountEach` | assets/js/charts.js:155-158 | the inner loop extends the counts by one project's tasks |
| `Charts.SiteChartCountsProjects` | assets/js/charts.js:46-58 | site labels are distinct, "Unknown" for a missing site, each counting its projects; counts total the projects |
| `Charts.AssetTypeChartCountsProjects` | assets/js/charts.js:105-117 | the same for asset types |
| `Charts.AssigneeChartCountsTasks` | assets/js/charts.js:151-165 | assignee labels ("Unassigned" for none) count every task once; counts total the tasks |
| `Charts.TimelineBarsOrdered` | assets/js/charts.js:222-229 | the bars are a permutation of the projects with both dates, in ascending start order |
| `Charts.TimelineKeepsTies` | assets/js/charts.js:229 | projects with the same start keep their input order |
| `Charts.BarColours` | assets/js/charts.js:235 | one palette index per bar, cycling through 5; neighbouring bars never share a colour |
| `Charts.TimelineChart` | assets/js/charts.js:212-237 | no chart exactly when no project has both dates |
| `Charts.TradesGrouped` | assets/js/charts.js:303-313 | each trade groups between one project and as many as its links |
| `Charts.RadarCountsProjects` | assets/js/charts.js:303-316 | distinct trades ("Other" for an unknown contractor or empty trade), exactly the trades of the links, so none exactly when there are no links; each counts its distinct projects |
| `ChartObject.ChartSlots.constructor` | assets/js/charts.js:6 | every slot starts empty |
| `ChartObject.ChartSlots.UpdateSiteChart` | assets/js/charts.js:46-58 | the site slot holds the live site chart; other slots are unchanged |
| `ChartObject.ChartSlots.UpdateAssetChart` | assets/js/charts.js:105-117 | the asset slot holds the live asset chart; other slots are unchanged |
| `ChartObject.ChartSlots.UpdateAssigneeChart` | assets/js/charts.js:151-165 | the resource slot holds the live assignee chart; other slots are unchanged |
| `ChartObject.ChartSlots.UpdateTimelineChart` | assets/js/charts.js:212-237 | the old chart is destroyed and, when some project has dates, replaced by the live timeline |
| `ChartObject.ChartSlots.UpdateContractorRadarChart` | assets/js/charts.js:293-317 | the old chart is destroyed and, when there are links, replaced by the live radar |
| `ChartObject.ChartSlots.UpdateAllCharts` | assets/js/charts.js:384-390 | all five slots hold the charts of the current data |
| `ChartObject.ChartSlots.RefreshChartsOnThemeChange` | assets/js/charts.js:365-381 | every slot is rebuilt from scratch; no slot is left holding a destroyed chart |
| `ProjectsView.ProjectList` | assets/js/projectsView.js:36-45 | the "No projects match this filter." message exactly when nothing is filtered; otherwise one card per filtered project |
| `ProjectsView.ProjectListMarksSelection` | assets/js/projectsView.js:29-80 | the message exactly when nothing matches; otherwise one card per filtered project in order, marked exactly when its id is selected, at most one with distinct ids |
| `ProjectsView.MarkedIffListed` | assets/js/projectsView.js:44 | some card is marked exactly when a listed project has the selected id |
| `ProjectsView.Reselect` | assets/js/projectsView.js:305-310 | the selection is kept when the filtered list holds it, else the first filtered project, else nothing |
| `ProjectsView.ReselectLandsInList` | assets/js/projectsView.js:305-310 | the new selection is in a non-empty list, none for an empty list, and reselecting again changes nothing |
| `ProjectsView.FilterChangeAsWritten` | assets/js/projectsView.js:301-311 | the handler as written draws the list with the selection from before the change; the detail shows a loaded project |
| `ProjectsView.StaleHighlightAsWritten` | assets/js/projectsView.js:303-311 | an input for which the list marks no card while the detail shows a project |
| `ProjectsView.StaleHighlightWhenSelectionDropped` | assets/js/projectsView.js:303-311 | whenever the filter drops the selected project and leaves some project, the handler as written marks no card while the detail shows the first filtered project |
| `ProjectsView.FilterChangeKeepsHighlight` | assets/js/projectsView.js:301-321 | with the list drawn after reselecting, the card of the detail's project is marked, and an empty list shows no detail |
| `ProjectsView.OnFilterChange` | assets/js/projectsView.js:301-321 | the selection is reselected, nothing else in the store changes, and the screen is the corrected one |
| `ProjectsView.ClickCard` | assets/js/projectsView.js:72-76 | the clicked id is selected, nothing else changes, and the list is redrawn with it |
| `ProjectsView.ClickedCardMarked` | assets/js/projectsView.js:44-76 | the clicked card is marked and, with distinct ids, it is the only one |
| `ProjectsView.ClickTaskStatus` | assets/js/projectsView.js:239-246 | only that task of the selected project advances its status |
| `ProjectsView.ClickStatusPill` | assets/js/projectsView.js:126-132 | the same project stays selected, with only its status advanced |
| `ProjectsView.SameIdsSameIndex` | assets/js/state.js:23-25 | changing anything but ids leaves the selected project at its index |
| `ProjectsView.BucketPhases` | assets/js/projectsView.js:209-212 | the bucketing loop gives the Pre, During and Post tasks, each in order |
| `ProjectsView.ColumnsPartition` | assets/js/projectsView.js:209-216 | the three columns and the tasks of other phases partition the tasks; a task is in a column exactly when of its phase |
| `ProjectsView.DetailHighestSeverity` | assets/js/projectsView.js:135-146 | none exactly when there are no warnings; otherwise the first warning of highest weight |
| `ProjectsView.HsSummaryOf` | assets/js/projectsView.js:148-170 | the "none recorded" message exactly when there are no warnings; otherwise the badge is the highest severity, "N/A" when that is empty, above the type lines |
| `Seqs.DedupFirstOrder` | assets/js/projectsView.js:154 | `[...new Set(xs)]` lists each value at its first appearance: of two listed values, the earlier one occurs in `xs` before the later one first does |
| `Seqs.DedupFilterFirstOrder` | assets/js/programmeView.js:164 | `[...new Set(xs.filter(f))]` lists the passing values in the order they first appear in `xs` |
| `ProjectsView.SummaryLines` | assets/js/projectsView.js:154-159 | at most 3 lines, one per distinct non-empty type in order of first appearance, each with the first location of that type |
| `ProjectsView.ContractorLabel` | assets/js/projectsView.js:281 | name, then company, then "Contractor": never empty |
| `ProjectsView.RenderSelectedProject` | assets/js/projectsView.js:82-299 | the empty state exactly when no project has the selected id; otherwise that project, its H&S summary, phase columns and contractor labels |

## Left out

- Reading the file and the XLSX decoding (`assets/js/excelService.js:6-17` and `25-26`) are left
  out. The model starts from decoded rows: column to cell.
- `main.js` and `ui.js` are not part of this model. Neither is any DOM work: `innerHTML`, element
  lookups, CSS classes, badge-class helpers, `formatMoney` and `formatDate`. The `if (!canvas)` and
  `if (!container) return;` early exits are left out too: elements are assumed present.
- Chart.js options, `chartColors()` and the theme colours are left out. A chart is modelled as its
  labels and data, or its bars and palette indices.
- Dates are not parsed. The timeline takes the start instant of each project as a parameter
  `startMs`. Durations and the NaN comparison of invalid dates are not modelled.
- Numbers are integers: fractions, exponents, hexadecimal and `Infinity` are not modelled. NaN is
  `None`.
- Project and task text columns that hold a number or boolean are kept as their display string.
  The source keeps the raw value.
- `toLowerCase` is modelled for ASCII letters only.
- Keys inherited from `Object.prototype` are not modelled. In the source they collide with the
  `counts` and `phases` objects (`counts["__proto__"]`, `phases["toString"]`).
- Object identity and aliasing are not modelled. A status click addresses a project, or a task of
  a project, by its index in the store. The source mutates the shared object.
- Module-level globals (`projects`, `contractors`, ...) become fields of `Store` or parameters of
  the view functions.
- Object keys are modelled as the ids themselves. The round trip `Number(String(id))` that
  `Object.keys` makes is not modelled.
- `ProjectsView.RenderSelectedProject`: of the contractors section only each entry's label is
  modelled. The role, the company/trade line, the notes and the preferred badge are not.
- `State.RoundPercent`: the rounding is done on the exact ratio. The source divides and multiplies
  in double precision before `Math.round`, so at some exact halves it rounds down where the model
  rounds up: for 57 of 200 tasks the source computes 28.499999999999996 and shows 28, and the model
  shows 29. `State.Store.ComputeStats` inherits this.
- `ProgrammeView.SpendVariance`: the money formatting of the variance is not modelled.
- `ProgrammeView.TopRisks`: the risk summary text and badge of each card are not modelled.

## Findings

| source | as written | input that shows it | evidently intended | confidence | as-written member | corrected member |
|---|---|---|---|---|---|---|
| assets/js/projectsView.js:303-311 (and 314-322) | the filter handlers redraw the project list before they reselect the project, so the list marks the old selection | projects 1 ("Active") and 2 ("Complete"), project 1 selected, status filter set to "Complete": the list shows project 2 unmarked while the detail shows project 2; in general, any filter that drops the selected project and leaves another (`ProjectsView.StaleHighlightWhenSelectionDropped`) | redraw the list after reselecting, so the card of the shown project is marked | not executed | `ProjectsView.StaleHighlightAsWritten` | `ProjectsView.FilterChangeKeepsHighlight` |

=== FILE: chart_object.dfy ===
/**
 * The module-level `charts` object of the dashboard: one slot per chart, each holding
 * `null` or the chart last built. Every update destroys the chart it replaces; the
 * timeline and radar updates return early, leaving the destroyed chart in its slot,
 * when they have nothing to plot.
 */
module ChartObject {
  import opened Entities
  import opened State
  import opened Groups
  import opened Charts

  /** The module-level `charts` object: one slot per chart. */
  class ChartSlots {
    var site: Slot
    var asset: Slot
    var resource: Slot
    var timeline: Slot
    var contractorRadar: Slot

    /** `{ site: null, asset: null, resource: null, timeline: null, contractorRadar: null }`. */
    constructor()
      ensures site == Empty && asset == Empty && resource == Empty
      ensures timeline == Empty && contractorRadar == Empty
    {
      site, asset, resource, timeline, contractorRadar := Empty, Empty, Empty, Empty, Empty;
    }

    /** `updateChartsProjectsBySite`: count projects per site and replace the site chart. */
    method UpdateSiteChart(projects: seq<Project>)
      modifies this
      ensures site == Live(SiteChart(projects))
      ensures asset == old(asset) && resource == old(resource)
      ensures timeline == old(timeline) && contractorRadar == old(contractorRadar)
    {
      var c := CountChart(projects, SiteLabel);
      site := Destroy(site);
      site := Live(c);
    }

    /** `updateChartsProjectsByAssetType`: count projects per asset type and replace the asset chart. */
    method UpdateAssetChart(projects: seq<Project>)
      modifies this
      ensures asset == Live(AssetTypeChart(projects))
      ensures site == old(site) && resource == old(resource)
      ensures timeline == old(timeline) && contractorRadar == old(contractorRadar)
    {
      var c := CountChart(projects, AssetTypeLabel);
      asset := Destroy(asset);
      asset := Live(c);
    }

    /** `updateChartsTasksByAssignee`: count every task of every project per assignee and replace the resource chart. */
    method UpdateAssigneeChart(projects: seq<Project>)
      modifies this
      ensures resource == Live(AssigneeChart(projects))
      ensures site == old(site) && asset == old(asset)
      ensures timeline == old(timeline) && contractorRadar == old(contractorRadar)
    {
      var c := CountAssignees(projects);
      resource := Destroy(resource);
      resource := Live(c);
    }

    /**
     * `updateTimelineChart`: the old chart is destroyed first, and when no project has
     * both dates the function returns early, so the slot keeps the destroyed chart.
     */
    method UpdateTimelineChart(projects: seq<Project>, startMs: Project -> int)
      modifies this
      ensures TimelineChart(projects, startMs).None? ==> timeline == Destroy(old(timeline))
      ensures TimelineChart(projects, startMs).Some? ==> timeline == Live(TimelineChart(projects, startMs).value)
      ensures site == old(site) && asset == old(asset)
      ensures resource == old(resource) && contractorRadar == old(contractorRadar)
    {
      timeline := Destroy(timeline);
      var bars := TimelineBars(projects, startMs);
      if bars == [] {
        return;
      }
      timeline := Live(Timeline(bars, BarColours(|bars|)));
    }

    /**
     * `updateContractorRadarChart`: the old chart is destroyed first; the links loop fills
     * `usageByTrade`; with no trades the function returns early and the slot keeps the destroyed chart.
     */
    method UpdateContractorRadarChart(contractors: seq<Contractor>, links: seq<Link>)
      modifies this
      ensures contractorRadar == if links == [] then Destroy(old(contractorRadar)) else Live(RadarChart(contractors, links))
      ensures site == old(site) && asset == old(asset)
      ensures resource == old(resource) && timeline == old(timeline)
    {
      contractorRadar := Destroy(contractorRadar);
      var usage, trades := GroupDistinct(links, All, TradeOf(contractors), LinkProjectId);
      RadarCountsProjects(contractors, links);
      TradesGrouped(contractors, links);
      var data := seq(|trades|, i requires 0 <= i < |trades| => |usage[trades[i]]|);
      if |trades| == 0 {
        return;
      }
      contractorRadar := Live(Counts(trades, data));
    }

    /** `updateAllCharts`: every chart from the same projects, contractors and links. */
    method UpdateAllCharts(projects: seq<Project>, contractors: seq<Contractor>, links: seq<Link>, startMs: Project -> int)
      modifies this
      ensures site == Live(SiteChart(projects)) && asset == Live(AssetTypeChart(projects))
      ensures resource == Live(AssigneeChart(projects))
      ensures TimelineChart(projects, startMs).None? ==> timeline == Destroy(old(timeline))
      ensures TimelineChart(projects, startMs).Some? ==> timeline == Live(TimelineChart(projects, startMs).value)
      ensures contractorRadar == if links == [] then Destroy(old(contractorRadar)) else Live(RadarChart(contractors, links))
    {
      UpdateSiteChart(projects);
      UpdateAssetChart(projects);
      UpdateAssigneeChart(projects);
      UpdateTimelineChart(projects, startMs);
      UpdateContractorRadarChart(contractors, links);
    }

    /**
     * `refreshChartsOnThemeChange`: destroy every chart, reset every slot to `null`, then
     * rebuild. Unlike `updateAllCharts`, no slot is left holding a destroyed chart.
     */
    method RefreshChartsOnThemeChange(projects: seq<Project>, contractors: seq<Contractor>, links: seq<Link>, startMs: Project -> int)
      modifies this
      ensures site == Live(SiteChart(projects)) && asset == Live(AssetTypeChart(projects))
      ensures resource == Live(AssigneeChart(projects))
      ensures TimelineChart(projects, startMs).None? ==> timeline == Empty
      ensures TimelineChart(projects, startMs).Some? ==> timeline == Live(TimelineChart(projects, startMs).value)
      ensures contractorRadar == if links == [] then Empty else Live(RadarChart(contractors, links))
      ensures !site.Destroyed? && !asset.Destroyed? && !resource.Destroyed?
      ensures !timeline.Destroyed? && !contractorRadar.Destroyed?
    {
      site, asset, resource := Destroy(site), Destroy(asset), Destroy(resource);
      timeline, contractorRadar := Destroy(timeline), Destroy(contractorRadar);
      site, asset, resource, timeline, contractorRadar := Empty, Empty, Empty, Empty, Empty;
      assert Destroy(Empty) == Empty;
      UpdateAllCharts(projects, contractors, links, startMs);
    }
  }
}

=== FILE: charts.dfy ===
/**
 * What the five charts plot, and the module-level `charts` object holding them.
 * Each count chart is a `counts[label]++` loop whose labels are listed in
 * `Object.keys` order; the trade radar is a `Map` of `Set`s of project ids; the
 * timeline is a filtered, stably sorted copy of the projects. A chart is reduced
 * to the data it is given (labels, values, bar colours); drawing is not modelled.
 */
module Charts {
  import opened Wrappers
  import opened Seqs
  import opened Entities
  import opened State
  import opened Groups
  import opened JsValues

  /** The data a chart is built from. */
  datatype ChartData =
    | Counts(labels: seq<string>, data: seq<nat>)
    | Timeline(bars: seq<Project>, colours: seq<nat>)

  /** A slot of the `charts` object: `null`, a live chart, or a chart that was destroyed but is still referenced. */
  datatype Slot = Empty | Live(chart: ChartData) | Destroyed(chart: ChartData)

  /** `destroyIfExists(chart)` / `if (chart) chart.destroy()`. */
  function Destroy(s: Slot): (r: Slot)
    ensures !r.Live?
    ensures s.Empty? <==> r.Empty?
    ensures !s.Empty? ==> r.chart == s.chart
  {
    match s
    case Empty => Empty
    case Live(c) => Destroyed(c)
    case Destroyed(c) => Destroyed(c)
  }

  // ---- Count charts ----

  /** The chart of a finished `counts` object: `Object.keys(counts)` and `Object.values(counts)`. */
  function CountsChart(keys: seq<string>): ChartData {
    var labels := OwnKeys(Dedup(keys), StringKeyIndex);
    Counts(labels, Tally(labels, keys))
  }

  /** Listing distinct keys in `Object.keys` order gives each key once, and their tallies add up to the keys counted. */
  lemma ListedKeys<K(!new)>(keys: seq<K>, index: K -> Option<nat>)
    ensures var labels := OwnKeys(Dedup(keys), index);
      && Distinct(labels)
      && (forall l :: l in labels <==> l in keys)
      && Sum(Tally(labels, keys)) == |keys|
  {
    var d := Dedup(keys);
    var labels := OwnKeys(d, index);
    DistinctByMultiset(d, labels);
    assert forall l :: l in labels <==> l in keys by {
      forall l ensures l in labels <==> l in keys {
        assert l in labels <==> l in multiset(labels);
        assert l in d <==> l in multiset(d);
      }
    }
    TallySum(labels, keys);
  }

  /** `Object.keys(counts)` and `Object.values(counts)` of a finished `counts` object: the keys touched, listed, and their tallies. */
  method ReadCounters<K(==,!new)>(counts: map<K, nat>, order: seq<K>, ghost keys: seq<K>, index: K -> Option<nat>)
    returns (labels: seq<K>, data: seq<nat>)
    requires Counted(counts, order, keys)
    ensures labels == OwnKeys(Dedup(keys), index)
    ensures data == Tally(labels, keys)
  {
    labels := OwnKeys(order, index);
    data := CounterValues(counts, order, keys, labels);
  }

  /** The counters of `labels`, a rearrangement of the keys touched, are their tallies. */
  method CounterValues<K(==,!new)>(counts: map<K, nat>, ghost order: seq<K>, ghost keys: seq<K>, labels: seq<K>)
    returns (data: seq<nat>)
    requires Counted(counts, order, keys)
    requires multiset(labels) == multiset(order)
    ensures data == Tally(labels, keys)
  {
    assert forall i :: 0 <= i < |labels| ==> labels[i] in counts by {
      forall i | 0 <= i < |labels| ensures labels[i] in counts {
        assert labels[i] in multiset(order);
      }
    }
    data := seq(|labels|, i requires 0 <= i < |labels| => counts[labels[i]]);
    assert data == Tally(labels, keys) by {
      var t := Tally(labels, keys);
      forall i | 0 <= i < |labels| ensures data[i] == t[i] {
        assert counts[labels[i]] == multiset(keys)[labels[i]];
      }
    }
  }

  /** Every key is one label, labels are distinct, each value counts its label, and the values add up to the keys counted. */
  lemma CountsChartFacts(keys: seq<string>)
    ensures var c := CountsChart(keys);
      && |c.labels| == |c.data|
      && Distinct(c.labels)
      && (forall l :: l in c.labels <==> l in keys)
      && (forall i :: 0 <= i < |c.labels| ==> c.data[i] == multiset(keys)[c.labels[i]] && c.data[i] > 0)
      && Sum(c.data) == |keys|
  {
    ListedKeys(keys, StringKeyIndex);
    var labels := CountsChart(keys).labels;
    forall i | 0 <= i < |labels| ensures multiset(keys)[labels[i]] > 0 {
      assert labels[i] in keys;
    }
  }

  /** Reads a finished `counts` object out as a chart. */
  method ChartOfCounts(counts: map<string, nat>, order: seq<string>, ghost keys: seq<string>) returns (c: ChartData)
    requires Counted(counts, order, keys)
    ensures c == CountsChart(keys)
  {
    var labels, data := ReadCounters(counts, order, keys, StringKeyIndex);
    c := Counts(labels, data);
  }

  /** `p.site || "Unknown"`. */
  function SiteLabel(p: Project): string {
    if p.site != "" then p.site else "Unknown"
  }

  /** `p.assetType || "Unknown"`. */
  function AssetTypeLabel(p: Project): string {
    if p.assetType != "" then p.assetType else "Unknown"
  }

  /** `t.assignee || "Unassigned"`. */
  function AssigneeLabel(t: Task): string {
    if t.assignee != "" then t.assignee else "Unassigned"
  }

  /** The label of each element, in order. */
  function Labels<T, K>(s: seq<T>, labelOf: T -> K): (r: seq<K>)
    ensures |r| == |s|
  {
    seq(|s|, i requires 0 <= i < |s| => labelOf(s[i]))
  }

  lemma LabelsSnoc<T, K>(s: seq<T>, x: T, labelOf: T -> K)
    ensures Labels(s + [x], labelOf) == Labels(s, labelOf) + [labelOf(x)]
  {
  }

  /** A loop that accepts every element touches each element's key once, in order. */
  lemma {:induction false} KeysOfEvery<T, K>(s: seq<T>, labelOf: T -> K)
    ensures KeysOf(s, All, labelOf) == Labels(s, labelOf)
  {
    if s != [] {
      var front := s[..|s| - 1];
      KeysOfEvery(front, labelOf);
      assert Labels(s, labelOf) == Labels(front, labelOf) + [labelOf(s[|s| - 1])];
    }
  }

  function SiteChart(projects: seq<Project>): ChartData {
    CountsChart(Labels(projects, SiteLabel))
  }

  function AssetTypeChart(projects: seq<Project>): ChartData {
    CountsChart(Labels(projects, AssetTypeLabel))
  }

  function AssigneeChart(projects: seq<Project>): ChartData {
    CountsChart(Labels(AllTasks(projects), AssigneeLabel))
  }

  /** A `counts[label]++` loop over `s`, then the chart of the counters. */
  method CountChart<T>(s: seq<T>, labelOf: T -> string) returns (c: ChartData)
    ensures c == CountsChart(Labels(s, labelOf))
  {
    var counts, order := CountBy(s, All, labelOf);
    KeysOfEvery(s, labelOf);
    assert Counted(counts, order, Labels(s, labelOf));
    c := ChartOfCounts(counts, order, Labels(s, labelOf));
  }

  /** The loop over every project and, inside it, every phase task, then the chart of the counters. */
  method CountAssignees(projects: seq<Project>) returns (c: ChartData)
    ensures c == AssigneeChart(projects)
  {
    var counts: map<string, nat>, order: seq<string> := map[], [];
    for i := 0 to |projects|
      invariant Counted(counts, order, Labels(AllTasks(projects[..i]), AssigneeLabel))
    {
      counts, order := CountEach(counts, order, AllTasks(projects[..i]), projects[i].phaseTasks, AssigneeLabel);
      AllTasksStep(projects, i);
    }
    WholePrefix([], projects);
    c := ChartOfCounts(counts, order, Labels(AllTasks(projects), AssigneeLabel));
  }

  /** `s.forEach(x => counts[labelOf(x)] = (counts[labelOf(x)] || 0) + 1)`, continuing from the counters of `before`. */
  method CountEach<T, K(==,!new)>(counts0: map<K, nat>, order0: seq<K>, ghost before: seq<T>, s: seq<T>, labelOf: T -> K)
    returns (counts: map<K, nat>, order: seq<K>)
    requires Counted(counts0, order0, Labels(before, labelOf))
    ensures Counted(counts, order, Labels(before + s, labelOf))
  {
    counts, order := counts0, order0;
    WholePrefix(before, s);
    for j := 0 to |s|
      invariant Counted(counts, order, Labels(before + s[..j], labelOf))
    {
      ghost var keys := Labels(before + s[..j], labelOf);
      var k := labelOf(s[j]);
      PrefixSnoc(before, s, j);
      LabelsSnoc(before + s[..j], s[j], labelOf);
      CountStep(counts, order, keys, k);
      counts, order := Bump(counts, order, k);
    }
  }

  /** Each project is counted once, under its site or "Unknown". */
  lemma SiteChartCountsProjects(projects: seq<Project>)
    ensures var c := SiteChart(projects);
      && Distinct(c.labels) && |c.data| == |c.labels|
      && (forall i :: 0 <= i < |c.labels| ==> c.data[i] == multiset(Labels(projects, SiteLabel))[c.labels[i]])
      && Sum(c.data) == |projects|
  {
    CountsChartFacts(Labels(projects, SiteLabel));
  }

  /** Each project is counted once, under its asset type or "Unknown". */
  lemma AssetTypeChartCountsProjects(projects: seq<Project>)
    ensures var c := AssetTypeChart(projects);
      && Distinct(c.labels) && |c.data| == |c.labels|
      && (forall i :: 0 <= i < |c.labels| ==> c.data[i] == multiset(Labels(projects, AssetTypeLabel))[c.labels[i]])
      && Sum(c.data) == |projects|
  {
    CountsChartFacts(Labels(projects, AssetTypeLabel));
  }

  /** Each task of each project is counted once, under its assignee or "Unassigned". */
  lemma AssigneeChartCountsTasks(projects: seq<Project>)
    ensures var c := AssigneeChart(projects);
      && Distinct(c.labels) && |c.data| == |c.labels|
      && (forall i :: 0 <= i < |c.labels| ==> c.data[i] == multiset(Labels(AllTasks(projects), AssigneeLabel))[c.labels[i]])
      && Sum(c.data) == |AllTasks(projects)|
  {
    CountsChartFacts(Labels(AllTasks(projects), AssigneeLabel));
  }

  // ---- Timeline ----

  /** The palette `datasetColors` has five entries. */
  const PaletteSize: nat := 5

  /** `p.startDate && p.endDate`. */
  function HasDates(p: Project): bool {
    p.startDate != "" && p.endDate != ""
  }

  /** `(a, b) => a.start - b.start` sorts ascending: as a descending sort on the negated start. */
  function EarlierFirst<U>(startMs: U -> int): U -> int {
    (p: U) => 0 - startMs(p)
  }

  /**
   * The bars of the timeline: the projects with both dates, ordered by start with ties
   * in input order. `startMs` stands for `new Date(p.startDate + "T00:00:00")`.
   */
  function TimelineBars(projects: seq<Project>, startMs: Project -> int): seq<Project> {
    StableSortDesc(Filter(HasDates, projects), EarlierFirst(startMs))
  }

  /** The bars are exactly the projects with both dates, each once, earliest start first. */
  lemma TimelineBarsOrdered(projects: seq<Project>, startMs: Project -> int)
    ensures var r := TimelineBars(projects, startMs);
      && multiset(r) == multiset(Filter(HasDates, projects))
      && (forall p :: p in r <==> p in projects && HasDates(p))
      && (forall i, j :: 0 <= i < j < |r| ==> startMs(r[i]) <= startMs(r[j]))
  {
    var kept := Filter(HasDates, projects);
    var r := TimelineBars(projects, startMs);
    assert forall p :: p in r <==> p in multiset(kept);
  }

  /** Sorting by start never reorders two elements with the same start. */
  lemma SortByStartKeepsTies<U(!new)>(s: seq<U>, startMs: U -> int, start: int)
    ensures Filter(KeyIs(startMs, start), StableSortDesc(s, EarlierFirst(startMs))) == Filter(KeyIs(startMs, start), s)
  {
    var key := EarlierFirst(startMs);
    SortKeepsKeyClasses(s, key, 0 - start);
    SameKeySameStart(s, StableSortDesc(s, key), startMs, key, start);
  }

  /** Keeping the order of equal negated starts is keeping the order of equal starts. */
  lemma SameKeySameStart<U(!new)>(s: seq<U>, r: seq<U>, startMs: U -> int, key: U -> int, start: int)
    requires multiset(r) == multiset(s)
    requires forall x :: x in s ==> key(x) == 0 - startMs(x)
    requires Filter(KeyIs(key, 0 - start), r) == Filter(KeyIs(key, 0 - start), s)
    ensures Filter(KeyIs(startMs, start), r) == Filter(KeyIs(startMs, start), s)
  {
    var sameStart, sameKey := KeyIs(startMs, start), KeyIs(key, 0 - start);
    assert forall x :: x in r ==> x in multiset(s);
    FilterCongruent(sameStart, sameKey, r);
    FilterCongruent(sameStart, sameKey, s);
  }

  /** Projects with the same start keep their input order. */
  lemma TimelineKeepsTies(projects: seq<Project>, startMs: Project -> int, start: int)
    ensures Filter(KeyIs(startMs, start), TimelineBars(projects, startMs))
         == Filter(KeyIs(startMs, start), Filter(HasDates, projects))
  {
    SortByStartKeepsTies(Filter(HasDates, projects), startMs, start);
  }

  /** `datasetColors[idx % datasetColors.length]`: neighbouring bars never share a colour. */
  function BarColours(n: nat): (r: seq<nat>)
    ensures |r| == n
    ensures forall i :: 0 <= i < n ==> r[i] < PaletteSize && r[i] == i % PaletteSize
    ensures forall i :: 0 <= i < n - 1 ==> r[i] != r[i + 1]
  {
    seq(n, i requires 0 <= i < n => i % PaletteSize)
  }

  /** The timeline chart, or `None` when no project has both dates (no chart is built). */
  function TimelineChart(projects: seq<Project>, startMs: Project -> int): (r: Option<ChartData>)
    ensures r.None? <==> forall p :: p in projects ==> !HasDates(p)
  {
    var bars := TimelineBars(projects, startMs);
    TimelineBarsOrdered(projects, startMs);
    assert bars != [] ==> bars[0] in bars;
    if bars == [] then None else Some(Timeline(bars, BarColours(|bars|)))
  }

  // ---- Contractor trade radar ----

  /** `contractors.find(c => c.contractorId === link.contractorId)?.trade || "Other"`. */
  function TradeOf(contractors: seq<Contractor>): Link -> string {
    (l: Link) =>
      match Find(contractors, HasContractorId(l.contractorId))
      case None => "Other"
      case Some(c) => if c.trade != "" then c.trade else "Other"
  }

  function LinkProjectId(l: Link): int {
    l.projectId
  }

  /** The `usageByTrade` map: trade to the distinct project ids of its links. */
  function TradeUsage(contractors: seq<Contractor>, links: seq<Link>): map<string, seq<int>> {
    DistinctGroups(links, All, TradeOf(contractors), LinkProjectId)
  }

  /** `Array.from(usageByTrade.keys())`: trades in the order their first link appears. */
  function Trades(contractors: seq<Contractor>, links: seq<Link>): seq<string> {
    Dedup(KeysOf(links, All, TradeOf(contractors)))
  }

  /** Every trade listed has a non-empty set of projects, no larger than its number of links. */
  lemma TradesGrouped(contractors: seq<Contractor>, links: seq<Link>)
    ensures var usage, trades := TradeUsage(contractors, links), Trades(contractors, links);
      forall i :: 0 <= i < |trades| ==> (trades[i] in usage && 1 <= |usage[trades[i]]| &&
        |usage[trades[i]]| <= multiset(KeysOf(links, All, TradeOf(contractors)))[trades[i]])
  {
    var key := TradeOf(contractors);
    var trades := Trades(contractors, links);
    forall i | 0 <= i < |trades|
      ensures var usage := TradeUsage(contractors, links);
        trades[i] in usage && 1 <= |usage[trades[i]]| &&
        |usage[trades[i]]| <= multiset(KeysOf(links, All, key))[trades[i]]
    {
      GroupOfTouchedKey(links, All, key, LinkProjectId, trades[i]);
    }
  }

  /** The radar chart, or `None` when there are no trades (no chart is built). */
  function RadarChart(contractors: seq<Contractor>, links: seq<Link>): ChartData {
    var usage, trades := TradeUsage(contractors, links), Trades(contractors, links);
    TradesGrouped(contractors, links);
    Counts(trades, seq(|trades|, i requires 0 <= i < |trades| => |usage[trades[i]]|))
  }

  /**
   * A trade's value is the number of distinct projects among the links whose contractor
   * has that trade (a missing contractor or an empty trade is "Other"); it is at least 1
   * and at most the number of such links; and there are trades iff there are links.
   */
  lemma RadarCountsProjects(contractors: seq<Contractor>, links: seq<Link>)
    ensures var c := RadarChart(contractors, links);
      && |c.labels| == |c.data|
      && Distinct(c.labels)
      && (c.labels == [] <==> links == [])
      && (forall t :: t in c.labels <==> t in Labels(links, TradeOf(contractors)))
      && forall i :: 0 <= i < |c.labels| ==>
           && 1 <= c.data[i] <= multiset(Labels(links, TradeOf(contractors)))[c.labels[i]]
           && c.data[i] == |Dedup(ValuesWithKey(links, All, TradeOf(contractors), LinkProjectId, c.labels[i]))|
  {
    var key := TradeOf(contractors);
    KeysOfEvery(links, key);
    var trades := Trades(contractors, links);
    if links != [] {
      assert Labels(links, key)[0] in trades;
    }
    forall i | 0 <= i < |trades|
      ensures var usage := TradeUsage(contractors, links);
        && trades[i] in usage
        && usage[trades[i]] == Dedup(ValuesWithKey(links, All, key, LinkProjectId, trades[i]))
        && 1 <= |usage[trades[i]]| <= multiset(Labels(links, key))[trades[i]]
    {
      GroupOfTouchedKey(links, All, key, LinkProjectId, trades[i]);
    }
  }
}

=== FILE: entities.dfy ===
/**
 * The records the dashboard works on, as the row normaliser builds them.
 * Money is in whole units; text cells keep their display string.
 */
module Entities {
  import opened Wrappers

  datatype Task = Task(
    id: string,
    phase: string,
    title: string,
    assignee: string,
    due: string,
    status: string)

  datatype Project = Project(
    id: int,
    name: string,
    assetType: string,
    assetName: string,
    site: string,
    buildingOrArea: string,
    status: string,
    startDate: string,
    endDate: string,
    owner: string,
    leadUser: string,
    currentSpend: int,
    projectedSpend: int,
    budget: int,
    baselineEstimate: int,
    riskRating: string,
    riskSummary: string,
    phaseTasks: seq<Task>)

  datatype Contractor = Contractor(
    contractorId: int,
    name: string,
    company: string,
    trade: string,
    phone: string,
    email: string,
    accreditations: string,
    preferred: bool,
    notes: string)

  /** An H&S warning; `projectId` is `Number(ProjectID)`, so NaN (`None`) and 0 are possible. */
  datatype HsWarning = HsWarning(
    id: int,
    projectId: Option<int>,
    warningType: string,
    description: string,
    severity: string,
    location: string,
    controlMeasures: string,
    notes: string)

  datatype Link = Link(
    linkId: int,
    projectId: int,
    contractorId: int,
    role: string,
    notes: string)

  /** A link of a project joined with the contractor it names. */
  datatype ContractorEntry = ContractorEntry(
    linkId: int,
    projectId: int,
    role: string,
    notes: string,
    contractorId: int,
    name: string,
    company: string,
    trade: string,
    phone: string,
    email: string,
    accreditations: string,
    preferred: bool)
}

=== FILE: excel_service.dfy ===
/**
 * The row normaliser of `loadDataFromExcel`: decoded sheet rows in, projects (with
 * their tasks), contractors, H&S warnings and project-contractor links out.
 */
module ExcelService {
  import opened Wrappers
  import opened Text
  import opened Seqs
  import opened JsValues
  import opened Entities

  /**
   * Why a load stops: the Projects or Tasks sheet is absent, or `.trim()` was called
   * on a truthy cell that is not text (a TypeError naming the column).
   */
  datatype LoadError = MissingSheet | NotText(column: string)

  /** The decoded sheets of the workbook; an absent sheet is `None`. */
  datatype Workbook = Workbook(
    projects: Option<seq<Row>>,
    tasks: Option<seq<Row>>,
    contractors: Option<seq<Row>>,
    healthAndSafety: Option<seq<Row>>,
    projectContractors: Option<seq<Row>>)

  datatype Loaded = Loaded(
    projects: seq<Project>,
    contractors: seq<Contractor>,
    hsWarnings: seq<HsWarning>,
    projectContractorLinks: seq<Link>)

  /** `Number(row[column])` when the row is kept, that is when it is neither 0 nor NaN. */
  function RowId(row: Row, column: string): Option<int> {
    NonZeroNumber(Get(row, column))
  }

  // ---- Projects ----

  /** One project record: text columns default to "" (status to "Planned"), numbers to 0. */
  function ProjectFromRow(row: Row, id: int): (p: Project)
    ensures p.id == id && p.phaseTasks == []
    ensures IsTextOr(Get(row, "Name"), "", p.name)
    ensures IsTextOr(Get(row, "AssetType"), "", p.assetType)
    ensures IsTextOr(Get(row, "AssetName"), "", p.assetName)
    ensures IsTextOr(Get(row, "Site"), "", p.site)
    ensures IsTextOr(Get(row, "BuildingOrArea"), "", p.buildingOrArea)
    ensures IsTextOr(Get(row, "Status"), "Planned", p.status) && p.status != ""
    ensures IsTextOr(Get(row, "StartDate"), "", p.startDate)
    ensures IsTextOr(Get(row, "EndDate"), "", p.endDate)
    ensures IsTextOr(Get(row, "Owner"), "", p.owner)
    ensures IsTextOr(Get(row, "LeadUser"), "", p.leadUser)
    ensures IsNumberOrZero(Get(row, "CurrentSpend"), p.currentSpend)
    ensures IsNumberOrZero(Get(row, "ProjectedSpend"), p.projectedSpend)
    ensures IsNumberOrZero(Get(row, "Budget"), p.budget)
    ensures IsNumberOrZero(Get(row, "BaselineEstimate"), p.baselineEstimate)
    ensures IsTextOr(Get(row, "RiskRating"), "", p.riskRating)
    ensures IsTextOr(Get(row, "RiskSummary"), "", p.riskSummary)
  {
    Project(
      id,
      TextOr(Get(row, "Name"), ""),
      TextOr(Get(row, "AssetType"), ""),
      TextOr(Get(row, "AssetName"), ""),
      TextOr(Get(row, "Site"), ""),
      TextOr(Get(row, "BuildingOrArea"), ""),
      TextOr(Get(row, "Status"), "Planned"),
      TextOr(Get(row, "StartDate"), ""),
      TextOr(Get(row, "EndDate"), ""),
      TextOr(Get(row, "Owner"), ""),
      TextOr(Get(row, "LeadUser"), ""),
      NumberOrZero(Get(row, "CurrentSpend")),
      NumberOrZero(Get(row, "ProjectedSpend")),
      NumberOrZero(Get(row, "Budget")),
      NumberOrZero(Get(row, "BaselineEstimate")),
      TextOr(Get(row, "RiskRating"), ""),
      TextOr(Get(row, "RiskSummary"), ""),
      [])
  }

  /** The ids of the kept project rows, in row order, repeated as often as rows repeat them. */
  function KeptIds(rows: seq<Row>): (r: seq<int>)
    ensures forall k :: k in r ==> k != 0
  {
    if rows == [] then []
    else KeptIds(rows[..|rows| - 1]) + match RowId(rows[|rows| - 1], "ID") case Some(k) => [k] case None => []
  }

  /** An id is kept iff some row carries it. */
  lemma {:induction false} KeptIdsOfRows(rows: seq<Row>, k: int)
    ensures k in KeptIds(rows) <==> exists i :: 0 <= i < |rows| && RowId(rows[i], "ID") == Some(k)
  {
    if rows != [] {
      var front := rows[..|rows| - 1];
      KeptIdsOfRows(front, k);
      assert forall i :: 0 <= i < |front| ==> front[i] == rows[i];
    }
  }

  /** `projectMap` after the rows loop: each kept id holds the project of the last row with that id. */
  function ProjectMapOf(rows: seq<Row>): (m: map<int, Project>)
    ensures forall k :: k in m <==> k in KeptIds(rows)
    ensures forall k :: k in m ==> m[k].id == k && m[k].phaseTasks == []
  {
    if rows == [] then map[]
    else
      var m := ProjectMapOf(rows[..|rows| - 1]);
      match RowId(rows[|rows| - 1], "ID")
      case None => m
      case Some(k) => m[k := ProjectFromRow(rows[|rows| - 1], k)]
  }

  /** A later row with the same id replaces the earlier one: the last row with id `k` is the one kept. */
  lemma {:induction false} LastWriteWins(rows: seq<Row>, i: nat, k: int)
    requires i < |rows| && RowId(rows[i], "ID") == Some(k)
    requires forall j :: i < j < |rows| ==> RowId(rows[j], "ID") != Some(k)
    ensures k in ProjectMapOf(rows) && ProjectMapOf(rows)[k] == ProjectFromRow(rows[i], k)
  {
    var front := rows[..|rows| - 1];
    if i < |rows| - 1 {
      assert forall j :: i < j < |front| ==> front[j] == rows[j];
      LastWriteWins(front, i, k);
    }
  }

  lemma BuildStep(rows: seq<Row>, i: nat)
    requires i < |rows|
    ensures var prefix, id := rows[..i], RowId(rows[i], "ID");
      && ProjectMapOf(rows[..i + 1]) == (if id.Some? then ProjectMapOf(prefix)[id.value := ProjectFromRow(rows[i], id.value)] else ProjectMapOf(prefix))
      && Dedup(KeptIds(rows[..i + 1])) == (if id.None? || id.value in ProjectMapOf(prefix) then Dedup(KeptIds(prefix)) else Dedup(KeptIds(prefix)) + [id.value])
  {
    assert rows[..i + 1][..i] == rows[..i];
    var id := RowId(rows[i], "ID");
    var ks := KeptIds(rows[..i]);
    if id.Some? {
      assert KeptIds(rows[..i + 1]) == ks + [id.value];
      assert (ks + [id.value])[..|ks|] == ks;
    } else {
      assert KeptIds(rows[..i + 1]) == ks;
    }
  }

  /**
   * The `forEach` over the project rows, writing `projectMap[id]`. `order` is the order
   * in which the keys were first created, which a later overwrite does not change.
   */
  method BuildProjectMap(rows: seq<Row>) returns (m: map<int, Project>, order: seq<int>)
    ensures m == ProjectMapOf(rows)
    ensures order == Dedup(KeptIds(rows))
  {
    m, order := map[], [];
    var i := 0;
    while i < |rows|
      invariant 0 <= i <= |rows|
      invariant m == ProjectMapOf(rows[..i])
      invariant order == Dedup(KeptIds(rows[..i]))
    {
      BuildStep(rows, i);
      var id := RowId(rows[i], "ID");
      if id.Some? {
        if id.value !in m {
          order := order + [id.value];
        }
        m := m[id.value := ProjectFromRow(rows[i], id.value)];
      }
      i := i + 1;
    }
    assert rows[..i] == rows;
  }

  // ---- Tasks ----

  /** One task record; its id is `${pid}-${title}`. */
  function TaskFromRow(row: Row, pid: int): (t: Task)
    ensures t.id == IntToString(pid) + "-" + t.title
    ensures IsTextOr(Get(row, "Title"), "", t.title)
    ensures IsTextOr(Get(row, "Phase"), "Pre", t.phase) && t.phase != ""
    ensures IsTextOr(Get(row, "Assignee"), "", t.assignee)
    ensures IsTextOr(Get(row, "DueDate"), "", t.due)
    ensures IsTextOr(Get(row, "Status"), "Not Started", t.status) && t.status != ""
  {
    var title := TextOr(Get(row, "Title"), "");
    Task(
      IntToString(pid) + "-" + title,
      TextOr(Get(row, "Phase"), "Pre"),
      title,
      TextOr(Get(row, "Assignee"), ""),
      TextOr(Get(row, "DueDate"), ""),
      TextOr(Get(row, "Status"), "Not Started"))
  }

  /** A task id is the project id's decimal text, a "-" and the title; that first part reads back as the project id. */
  lemma TaskIdNamesProject(row: Row, pid: int)
    ensures var id := TaskFromRow(row, pid).id;
      |IntToString(pid)| < |id| && id[|IntToString(pid)|] == '-' &&
      ToNumber(Some(Text(id[..|IntToString(pid)|]))) == Some(pid)
  {
    var id := TaskFromRow(row, pid).id;
    assert id[..|IntToString(pid)|] == IntToString(pid);
    NumberOfIntegerText(pid);
  }

  /** The tasks attached to project `pid`: those of the rows whose `Number(ProjectID)` is `pid`, in row order. */
  function TasksFor(rows: seq<Row>, pid: int): (ts: seq<Task>)
    ensures |ts| <= |rows|
  {
    if rows == [] then []
    else
      TasksFor(rows[..|rows| - 1], pid)
      + if RowId(rows[|rows| - 1], "ProjectID") == Some(pid) then [TaskFromRow(rows[|rows| - 1], pid)] else []
  }

  /** Every attached task belongs to a row that names the project. */
  lemma {:induction false} TasksForRows(rows: seq<Row>, pid: int, t: Task)
    requires t in TasksFor(rows, pid)
    ensures exists i :: 0 <= i < |rows| && RowId(rows[i], "ProjectID") == Some(pid) && t == TaskFromRow(rows[i], pid)
  {
    var front := rows[..|rows| - 1];
    if t in TasksFor(front, pid) {
      TasksForRows(front, pid, t);
      var i :| 0 <= i < |front| && RowId(front[i], "ProjectID") == Some(pid) && t == TaskFromRow(front[i], pid);
      assert front[i] == rows[i];
    } else {
      assert t == TaskFromRow(rows[|rows| - 1], pid);
    }
  }

  /**
   * The `forEach` over the task rows, pushing onto `projectMap[pid].phaseTasks`. Rows with
   * a 0 or NaN project id, or an id with no project, are skipped.
   */
  method AttachTasks(m0: map<int, Project>, rows: seq<Row>) returns (m: map<int, Project>)
    ensures m.Keys == m0.Keys
    ensures forall k :: k in m ==> m[k] == m0[k].(phaseTasks := m0[k].phaseTasks + TasksFor(rows, k))
  {
    m := m0;
    var j := 0;
    while j < |rows|
      invariant 0 <= j <= |rows|
      invariant m.Keys == m0.Keys
      invariant forall k :: k in m ==> m[k] == m0[k].(phaseTasks := m0[k].phaseTasks + TasksFor(rows[..j], k))
    {
      assert rows[..j + 1][..j] == rows[..j];
      var pid := RowId(rows[j], "ProjectID");
      if pid.Some? && pid.value in m {
        var p := m[pid.value];
        m := m[pid.value := p.(phaseTasks := p.phaseTasks + [TaskFromRow(rows[j], pid.value)])];
      }
      j := j + 1;
    }
    assert rows[..j] == rows;
  }

  /** Every key of the own-key order is a key of the project map. */
  lemma KeysInMap(rows: seq<Row>, keys: seq<int>)
    requires multiset(keys) == multiset(Dedup(KeptIds(rows)))
    ensures forall k :: k in keys ==> k in ProjectMapOf(rows)
  {
    forall k | k in keys ensures k in ProjectMapOf(rows) {
      assert k in multiset(Dedup(KeptIds(rows)));
    }
  }

  /** The keys of `projectMap` in the order `Object.values` lists them. */
  function ProjectKeys(rows: seq<Row>): (keys: seq<int>)
    ensures multiset(keys) == multiset(Dedup(KeptIds(rows)))
    ensures forall k :: k in keys ==> k in ProjectMapOf(rows)
  {
    var keys := OwnKeys(Dedup(KeptIds(rows)), IntKeyIndex);
    KeysInMap(rows, keys);
    keys
  }

  /** `Object.values(projectMap)` once the tasks are attached. */
  function ProjectsOf(projRows: seq<Row>, taskRows: seq<Row>): (ps: seq<Project>)
    ensures |ps| == |ProjectKeys(projRows)|
    ensures forall i :: 0 <= i < |ps| ==> ps[i].id == ProjectKeys(projRows)[i]
    ensures forall i :: 0 <= i < |ps| ==> ps[i].phaseTasks == TasksFor(taskRows, ps[i].id)
    ensures forall i :: 0 <= i < |ps| ==> ps[i] == ProjectMapOf(projRows)[ps[i].id].(phaseTasks := TasksFor(taskRows, ps[i].id))
  {
    var m := ProjectMapOf(projRows);
    var keys := ProjectKeys(projRows);
    seq(|keys|, i requires 0 <= i < |keys| => m[keys[i]].(phaseTasks := TasksFor(taskRows, keys[i])))
  }

  /** No id appears twice among the loaded projects. */
  lemma ProjectIdsDistinct(projRows: seq<Row>, taskRows: seq<Row>)
    ensures var ps := ProjectsOf(projRows, taskRows);
      forall i, j :: 0 <= i < j < |ps| ==> ps[i].id != ps[j].id
  {
    var keys := ProjectKeys(projRows);
    DistinctByMultiset(Dedup(KeptIds(projRows)), keys);
  }

  /** A project with id `k` is loaded iff some Projects row has `Number(ID) == k` and `k != 0`. */
  lemma ProjectIdsKept(projRows: seq<Row>, taskRows: seq<Row>, k: int)
    ensures var ps := ProjectsOf(projRows, taskRows);
      (exists i :: 0 <= i < |ps| && ps[i].id == k) <==>
      (exists r :: 0 <= r < |projRows| && RowId(projRows[r], "ID") == Some(k))
  {
    var ps := ProjectsOf(projRows, taskRows);
    var keys := ProjectKeys(projRows);
    KeyIffKept(projRows, keys, k);
    KeptIdsOfRows(projRows, k);
    if k in keys {
      var i :| 0 <= i < |keys| && keys[i] == k;
      assert ps[i].id == k;
    }
  }

  lemma KeyIffKept(rows: seq<Row>, keys: seq<int>, k: int)
    requires multiset(keys) == multiset(Dedup(KeptIds(rows)))
    ensures k in keys <==> k in KeptIds(rows)
  {
    assert k in keys <==> k in multiset(keys);
    assert k in Dedup(KeptIds(rows)) <==> k in multiset(Dedup(KeptIds(rows)));
  }

  /**
   * `Object.values` lists integer keys that are array indices (0 to 2^32 - 2) first, in
   * ascending order; so when every id is a positive index the projects come in ascending id order.
   */
  lemma ProjectsInIdOrder(projRows: seq<Row>, taskRows: seq<Row>)
    ensures var ps := ProjectsOf(projRows, taskRows);
      forall i, j :: 0 <= i < j < |ps| && IntKeyIndex(ps[j].id).Some? ==>
        IntKeyIndex(ps[i].id).Some? && ps[i].id < ps[j].id
  {
    var ps := ProjectsOf(projRows, taskRows);
    var keys := ProjectKeys(projRows);
    KeysAscending(projRows);
    assert forall i :: 0 <= i < |ps| ==> ps[i].id == keys[i];
  }

  lemma KeysAscending(rows: seq<Row>)
    ensures var keys := ProjectKeys(rows);
      forall i, j :: 0 <= i < j < |keys| && IntKeyIndex(keys[j]).Some? ==>
        IntKeyIndex(keys[i]).Some? && keys[i] < keys[j]
  {
    var d := Dedup(KeptIds(rows));
    var keys := OwnKeys(d, IntKeyIndex);
    assert keys == ProjectKeys(rows);
    DistinctByMultiset(d, keys);
    forall i, j | 0 <= i < j < |keys| && IntKeyIndex(keys[j]).Some?
      ensures IntKeyIndex(keys[i]).Some? && keys[i] < keys[j]
    {
      assert IntKeyIndex(keys[i]).Some? && IntKeyIndex(keys[i]).value <= IntKeyIndex(keys[j]).value;
      assert keys[i] != keys[j];
    }
  }

  // ---- Trimmed text columns ----

  /** `.trim()` throws on this column: the cell is truthy but is not text. */
  predicate NotTextCell(row: Row, column: string) {
    Truthy(Get(row, column)) && !Get(row, column).value.Text?
  }

  /** `(row[column] || "").trim()`. */
  function TrimField(row: Row, column: string): (r: Result<string, LoadError>)
    ensures r.Err? <==> NotTextCell(row, column)
    ensures r.Err? ==> r.error == NotText(column)
    ensures r.Ok? ==> Trimmed(r.value)
    ensures r.Ok? ==> IsTrimmedOf(Get(row, column), r.value)
  {
    match TrimmedOrEmpty(Get(row, column))
    case None => Err(NotText(column))
    case Some(s) => Ok(s)
  }

  /**
   * The trimmed text columns of one record, evaluated left to right as the object
   * literal does: the first column whose `.trim()` throws ends the evaluation.
   */
  function TrimAll(row: Row, columns: seq<string>): (r: Result<seq<string>, LoadError>)
    ensures r.Ok? <==> forall i :: 0 <= i < |columns| ==> !NotTextCell(row, columns[i])
    ensures r.Ok? ==> (|r.value| == |columns| &&
                       forall i :: 0 <= i < |columns| ==> TrimField(row, columns[i]) == Ok(r.value[i]))
    ensures r.Err? ==> exists i :: (0 <= i < |columns| && r.error == NotText(columns[i]) &&
                                    NotTextCell(row, columns[i]) && forall j :: 0 <= j < i ==> !NotTextCell(row, columns[j]))
  {
    if columns == [] then Ok([])
    else
      var first :- TrimField(row, columns[0]);
      var rest :- TrimAll(row, columns[1..]);
      Ok([first] + rest)
  }

  // ---- Contractors and H&S warnings ----

  /** The rows a loop keeps: `Number(row[column])` is neither 0 nor NaN. */
  function IdKept(column: string): Row -> bool {
    (row: Row) => RowId(row, column).Some?
  }

  /** The id of a kept row (0 stands in for the ids of rows that are skipped). */
  function KeptId(row: Row, column: string): int {
    match RowId(row, column)
    case Some(k) => k
    case None => 0
  }

  /**
   * A `forEach` that skips rows whose id is 0 or NaN and pushes one record per other
   * row; a record whose construction throws stops the whole load. See `CollectOk` and
   * `CollectKeeps` for what it keeps.
   */
  function Collect<T>(rows: seq<Row>, column: string, build: (Row, int) -> Result<T, LoadError>): (r: Result<seq<T>, LoadError>)
    ensures r.Ok? ==> |r.value| <= |rows|
  {
    if rows == [] then Ok([])
    else
      var row := rows[|rows| - 1];
      var acc :- Collect(rows[..|rows| - 1], column, build);
      match RowId(row, column)
      case None => Ok(acc)
      case Some(id) =>
        var x :- build(row, id);
        Ok(acc + [x])
  }

  /** The loop completes iff no kept row's record throws. */
  lemma {:induction false} CollectOk<T>(rows: seq<Row>, column: string, build: (Row, int) -> Result<T, LoadError>)
    ensures Collect(rows, column, build).Ok? <==>
      forall i :: 0 <= i < |rows| && RowId(rows[i], column).Some? ==> build(rows[i], KeptId(rows[i], column)).Ok?
  {
    if rows != [] {
      var front := rows[..|rows| - 1];
      CollectOk(front, column, build);
      assert forall i :: 0 <= i < |front| ==> front[i] == rows[i];
    }
  }

  /** When it completes, the loop holds one record per kept row, built from that row, in row order. */
  lemma {:induction false} CollectKeeps<T>(rows: seq<Row>, column: string, build: (Row, int) -> Result<T, LoadError>)
    requires Collect(rows, column, build).Ok?
    ensures var r, kept := Collect(rows, column, build).value, Filter(IdKept(column), rows);
      |r| == |kept| && forall i :: 0 <= i < |kept| ==> build(kept[i], KeptId(kept[i], column)) == Ok(r[i])
  {
    if rows != [] {
      var front, row := rows[..|rows| - 1], rows[|rows| - 1];
      CollectLast(rows, column, build);
      CollectKeeps(front, column, build);
      assert rows == front + [row];
      FilterSnoc(IdKept(column), front, row);
      var r, rf := Collect(rows, column, build).value, Collect(front, column, build).value;
      var kept, keptF := Filter(IdKept(column), rows), Filter(IdKept(column), front);
      if RowId(row, column).Some? {
        assert kept == keptF + [row] && r == rf + [build(row, KeptId(row, column)).value];
        forall i | 0 <= i < |kept| ensures build(kept[i], KeptId(kept[i], column)) == Ok(r[i]) {
          if i < |keptF| {
            assert kept[i] == keptF[i] && r[i] == rf[i];
          }
        }
      } else {
        assert kept == keptF && r == rf;
      }
    }
  }

  /** The last row adds its record, if it is kept, to what the loop held before it. */
  lemma CollectLast<T>(rows: seq<Row>, column: string, build: (Row, int) -> Result<T, LoadError>)
    requires rows != [] && Collect(rows, column, build).Ok?
    ensures var front, row := rows[..|rows| - 1], rows[|rows| - 1];
      && Collect(front, column, build).Ok?
      && (RowId(row, column).None? ==> Collect(rows, column, build).value == Collect(front, column, build).value)
      && (RowId(row, column).Some? ==>
            && build(row, KeptId(row, column)).Ok?
            && Collect(rows, column, build).value == Collect(front, column, build).value + [build(row, KeptId(row, column)).value])
  {
  }

  /** Once a prefix of the rows throws, the whole loop throws the same error. */
  lemma {:induction false} CollectStopsAtError<T>(rows: seq<Row>, n: nat, column: string, build: (Row, int) -> Result<T, LoadError>)
    requires n <= |rows| && Collect(rows[..n], column, build).Err?
    ensures Collect(rows, column, build) == Collect(rows[..n], column, build)
    decreases |rows| - n
  {
    if n < |rows| {
      var front := rows[..|rows| - 1];
      assert front[..n] == rows[..n];
      CollectStopsAtError(front, n, column, build);
    } else {
      assert rows[..n] == rows;
    }
  }

  /** The loop of the Contractors and HealthAndSafety sheets. */
  method CollectRows<T>(rows: seq<Row>, column: string, build: (Row, int) -> Result<T, LoadError>) returns (r: Result<seq<T>, LoadError>)
    ensures r == Collect(rows, column, build)
  {
    var acc: seq<T> := [];
    var i := 0;
    while i < |rows|
      invariant 0 <= i <= |rows|
      invariant Collect(rows[..i], column, build) == Ok(acc)
    {
      assert rows[..i + 1][..i] == rows[..i];
      var id := RowId(rows[i], column);
      if id.Some? {
        var x := build(rows[i], id.value);
        if x.Err? {
          CollectStopsAtError(rows, i + 1, column, build);
          return Err(x.error);
        }
        acc := acc + [x.value];
      }
      i := i + 1;
    }
    assert rows[..i] == rows;
    return Ok(acc);
  }

  /** `(row.Preferred || "").toString().trim().toLowerCase()` is "yes", "true" or "1". */
  function Preferred(v: Option<Cell>): bool {
    var text := if Truthy(v) then ToText(v.value) else "";
    ToLower(Trim(text)) in {"yes", "true", "1"}
  }

  /** A boolean cell is preferred iff it is true. */
  lemma PreferredOfBool(b: bool)
    ensures Preferred(Some(Bool(b))) == b
  {
    if b {
      TrimKeepsTrimmed("true");
      assert ToLower("true") == "true";
    } else {
      assert Trim("") == "";
    }
  }

  /** A number cell is preferred iff it is 1. */
  lemma PreferredOfNumber(n: int)
    ensures Preferred(Some(Num(n))) == (n == 1)
  {
    if n == 0 {
      assert Trim("") == "";
    } else {
      PlainIntText(n);
      IntTextIsOne(n);
    }
  }

  /** Trimming and lower-casing the decimal text of an integer leave it as it is. */
  lemma PlainIntText(n: int)
    ensures ToLower(Trim(IntToString(n))) == IntToString(n)
  {
    IntToStringTrimmed(n);
    TrimKeepsTrimmed(IntToString(n));
    LowerIntToString(n);
  }

  lemma IntTextIsOne(n: int)
    ensures IntToString(n) in {"yes", "true", "1"} <==> n == 1
  {
    var s := IntToString(n);
    IntRoundTrip(n);
    if n == 1 {
      assert s == "1";
    }
    if s == "1" {
      assert ParseIntLiteral("1") == Some(1);
    }
  }

  lemma LowerIntToString(n: int)
    ensures ToLower(IntToString(n)) == IntToString(n)
  {
    var s := IntToString(n);
    if n < 0 {
      assert s == "-" + NatToString(-n);
      assert forall k :: 1 <= k < |s| ==> s[k] == NatToString(-n)[k - 1];
    }
    assert forall k :: 0 <= k < |s| ==> LowerChar(s[k]) == s[k];
  }

  const ContractorTextColumns: seq<string> := ["Name", "Company", "Trade", "Phone", "Email", "Accreditations", "Notes"]

  /** One contractor record: every text column trimmed, `preferred` parsed from its text. */
  function ContractorFromRow(row: Row, id: int): (r: Result<Contractor, LoadError>)
    ensures r.Err? <==> exists c :: c in ContractorTextColumns && NotTextCell(row, c)
    ensures r.Ok? ==> r.value.contractorId == id && r.value.preferred == Preferred(Get(row, "Preferred"))
    ensures r.Ok? ==> var c := r.value;
      Trimmed(c.name) && Trimmed(c.company) && Trimmed(c.trade) && Trimmed(c.phone) &&
      Trimmed(c.email) && Trimmed(c.accreditations) && Trimmed(c.notes)
    ensures r.Ok? ==> var c := r.value;
      && IsTrimmedOf(Get(row, "Name"), c.name)
      && IsTrimmedOf(Get(row, "Company"), c.company)
      && IsTrimmedOf(Get(row, "Trade"), c.trade)
      && IsTrimmedOf(Get(row, "Phone"), c.phone)
      && IsTrimmedOf(Get(row, "Email"), c.email)
      && IsTrimmedOf(Get(row, "Accreditations"), c.accreditations)
      && IsTrimmedOf(Get(row, "Notes"), c.notes)
  {
    var preferred := Preferred(Get(row, "Preferred"));
    var v :- TrimAll(row, ContractorTextColumns);
    Ok(Contractor(id, v[0], v[1], v[2], v[3], v[4], v[5], preferred, v[6]))
  }

  const WarningTextColumns: seq<string> := ["WarningType", "Description", "Severity", "Location", "ControlMeasures", "Notes"]

  /** One H&S record: `projectId` is `Number(ProjectID)` as it stands, NaN and 0 included. */
  function WarningFromRow(row: Row, id: int): (r: Result<HsWarning, LoadError>)
    ensures r.Err? <==> exists c :: c in WarningTextColumns && NotTextCell(row, c)
    ensures r.Ok? ==> r.value.id == id && r.value.projectId == ToNumber(Get(row, "ProjectID"))
    ensures r.Ok? ==> var w := r.value;
      Trimmed(w.warningType) && Trimmed(w.description) && Trimmed(w.severity) &&
      Trimmed(w.location) && Trimmed(w.controlMeasures) && Trimmed(w.notes)
    ensures r.Ok? ==> var w := r.value;
      && IsTrimmedOf(Get(row, "WarningType"), w.warningType)
      && IsTrimmedOf(Get(row, "Description"), w.description)
      && IsTrimmedOf(Get(row, "Severity"), w.severity)
      && IsTrimmedOf(Get(row, "Location"), w.location)
      && IsTrimmedOf(Get(row, "ControlMeasures"), w.controlMeasures)
      && IsTrimmedOf(Get(row, "Notes"), w.notes)
  {
    var projectId := ToNumber(Get(row, "ProjectID"));
    var v :- TrimAll(row, WarningTextColumns);
    Ok(HsWarning(id, projectId, v[0], v[1], v[2], v[3], v[4], v[5]))
  }

  // ---- Project-contractor links ----

  const LinkTextColumns: seq<string> := ["Role", "Notes"]

  /** One link record; an id that is missing or NaN becomes 0. */
  function LinkFromRow(row: Row): (r: Result<Link, LoadError>)
    ensures r.Err? <==> NotTextCell(row, "Role") || NotTextCell(row, "Notes")
    ensures r.Ok? ==> r.value.linkId == NumberOrZero(Get(row, "LinkID"))
    ensures r.Ok? ==> r.value.projectId == NumberOrZero(Get(row, "ProjectID"))
    ensures r.Ok? ==> r.value.contractorId == NumberOrZero(Get(row, "ContractorID"))
    ensures r.Ok? ==> Trimmed(r.value.role) && Trimmed(r.value.notes)
    ensures r.Ok? ==> IsTrimmedOf(Get(row, "Role"), r.value.role) && IsTrimmedOf(Get(row, "Notes"), r.value.notes)
  {
    var v :- TrimAll(row, LinkTextColumns);
    Ok(Link(NumberOrZero(Get(row, "LinkID")), NumberOrZero(Get(row, "ProjectID")),
      NumberOrZero(Get(row, "ContractorID")), v[0], v[1]))
  }

  /** `rows.map(convert)`: every row is converted in order, and the first conversion that throws ends the map. */
  function MapRows<T>(rows: seq<Row>, convert: Row -> Result<T, LoadError>): (r: Result<seq<T>, LoadError>)
    ensures r.Ok? <==> forall i :: 0 <= i < |rows| ==> convert(rows[i]).Ok?
    ensures r.Ok? ==> |r.value| == |rows| && forall i :: 0 <= i < |rows| ==> convert(rows[i]) == Ok(r.value[i])
  {
    if rows == [] then Ok([])
    else
      var first :- convert(rows[0]);
      var rest :- MapRows(rows[1..], convert);
      assert forall i :: 1 <= i < |rows| ==> rows[i] == rows[1..][i - 1];
      Ok([first] + rest)
  }

  /** `linkRows.map(...)`: every row is converted, whatever its ids, until one throws. */
  function LinkRows(rows: seq<Row>): (r: Result<seq<Link>, LoadError>)
    ensures r.Ok? <==> forall i :: 0 <= i < |rows| ==> LinkFromRow(rows[i]).Ok?
    ensures r.Ok? ==> |r.value| == |rows| && forall i :: 0 <= i < |rows| ==> LinkFromRow(rows[i]) == Ok(r.value[i])
  {
    MapRows(rows, LinkFromRow)
  }

  predicate ValidLink(l: Link) {
    l.linkId > 0 && l.projectId > 0 && l.contractorId > 0
  }

  /** `.filter(...)` after the map: the links whose three ids are all positive, in row order. */
  function LinksOf(rows: seq<Row>): (r: Result<seq<Link>, LoadError>)
    ensures r.Ok? <==> LinkRows(rows).Ok?
    ensures r.Ok? ==> SubseqOf(r.value, LinkRows(rows).value)
    ensures r.Ok? ==> forall l :: multiset(r.value)[l] == if ValidLink(l) then multiset(LinkRows(rows).value)[l] else 0
  {
    match LinkRows(rows)
    case Err(e) => Err(e)
    case Ok(links) =>
      FilterKeeps(ValidLink, links);
      Ok(Filter(ValidLink, links))
  }

  // ---- The whole load ----

  /** What `loadDataFromExcel` returns for a workbook, or the error it throws. */
  function Load(wb: Workbook): (r: Result<Loaded, LoadError>)
    ensures wb.projects.None? || wb.tasks.None? ==> r == Err(MissingSheet)
    ensures wb.projects.Some? && wb.tasks.Some? ==>
      (r.Ok? <==> (wb.contractors.None? || Collect(wb.contractors.value, "ContractorID", ContractorFromRow).Ok?) &&
                  (wb.healthAndSafety.None? || Collect(wb.healthAndSafety.value, "HSID", WarningFromRow).Ok?) &&
                  (wb.projectContractors.None? || LinkRows(wb.projectContractors.value).Ok?))
    ensures r.Ok? && wb.contractors.None? ==> r.value.contractors == []
    ensures r.Ok? && wb.healthAndSafety.None? ==> r.value.hsWarnings == []
    ensures r.Ok? && wb.projectContractors.None? ==> r.value.projectContractorLinks == []
  {
    if wb.projects.None? || wb.tasks.None? then Err(MissingSheet)
    else
      var contractors :- if wb.contractors.Some? then Collect(wb.contractors.value, "ContractorID", ContractorFromRow) else Ok([]);
      var warnings :- if wb.healthAndSafety.Some? then Collect(wb.healthAndSafety.value, "HSID", WarningFromRow) else Ok([]);
      var links :- if wb.projectContractors.Some? then LinksOf(wb.projectContractors.value) else Ok([]);
      Ok(Loaded(ProjectsOf(wb.projects.value, wb.tasks.value), contractors, warnings, links))
  }

  /**
   * The loaded contractors are the rows with a non-zero, non-NaN ContractorID, one
   * record each in row order, built from that row with that id.
   */
  lemma LoadedContractors(wb: Workbook)
    requires Load(wb).Ok? && wb.contractors.Some?
    ensures var cs, kept := Load(wb).value.contractors, Filter(IdKept("ContractorID"), wb.contractors.value);
      |cs| == |kept| &&
      forall i :: 0 <= i < |cs| ==>
        RowId(kept[i], "ContractorID") == Some(cs[i].contractorId) && ContractorFromRow(kept[i], cs[i].contractorId) == Ok(cs[i])
  {
    var rows := wb.contractors.value;
    LoadedSheets(wb);
    CollectKeeps(rows, "ContractorID", ContractorFromRow);
    KeptRowsHaveIds(rows, "ContractorID");
  }

  /** The same for the H&S warnings and their HSID column. */
  lemma LoadedWarnings(wb: Workbook)
    requires Load(wb).Ok? && wb.healthAndSafety.Some?
    ensures var ws, kept := Load(wb).value.hsWarnings, Filter(IdKept("HSID"), wb.healthAndSafety.value);
      |ws| == |kept| &&
      forall i :: 0 <= i < |ws| ==>
        RowId(kept[i], "HSID") == Some(ws[i].id) && WarningFromRow(kept[i], ws[i].id) == Ok(ws[i])
  {
    var rows := wb.healthAndSafety.value;
    LoadedSheets(wb);
    CollectKeeps(rows, "HSID", WarningFromRow);
    KeptRowsHaveIds(rows, "HSID");
  }

  /** A successful load holds the collected contractors and warnings of the sheets that are present. */
  lemma LoadedSheets(wb: Workbook)
    requires Load(wb).Ok?
    ensures wb.contractors.Some? ==>
      && Collect(wb.contractors.value, "ContractorID", ContractorFromRow).Ok?
      && Load(wb).value.contractors == Collect(wb.contractors.value, "ContractorID", ContractorFromRow).value
    ensures wb.healthAndSafety.Some? ==>
      && Collect(wb.healthAndSafety.value, "HSID", WarningFromRow).Ok?
      && Load(wb).value.hsWarnings == Collect(wb.healthAndSafety.value, "HSID", WarningFromRow).value
  {
  }

  /** Each row the loop keeps has an id, the one its record is built with. */
  lemma KeptRowsHaveIds(rows: seq<Row>, column: string)
    ensures var kept := Filter(IdKept(column), rows);
      forall i :: 0 <= i < |kept| ==> RowId(kept[i], column) == Some(KeptId(kept[i], column))
  {
    var kept := Filter(IdKept(column), rows);
    forall i | 0 <= i < |kept| ensures RowId(kept[i], column) == Some(KeptId(kept[i], column)) {
      assert kept[i] in kept;
    }
  }

  /** Every loaded link has positive link, project and contractor ids. */
  lemma LoadedLinksValid(wb: Workbook)
    requires Load(wb).Ok?
    ensures forall l :: l in Load(wb).value.projectContractorLinks ==> ValidLink(l)
  {
    var links := Load(wb).value.projectContractorLinks;
    forall l | l in links ensures ValidLink(l) {
      assert multiset(links)[l] > 0;
    }
  }

  /** The values of `m` listed in the order of `keys`. */
  function ValuesInOrder(m: map<int, Project>, keys: seq<int>): (ps: seq<Project>)
    requires forall i :: 0 <= i < |keys| ==> keys[i] in m
    ensures |ps| == |keys|
  {
    seq(|keys|, i requires 0 <= i < |keys| => m[keys[i]])
  }

  /** `Object.values(projectMap)` once both loops are done: the projects in own-key order. */
  method ValuesOf(m: map<int, Project>, order: seq<int>, projRows: seq<Row>, taskRows: seq<Row>) returns (ps: seq<Project>)
    requires order == Dedup(KeptIds(projRows))
    requires m.Keys == ProjectMapOf(projRows).Keys
    requires forall k :: k in m ==> m[k] == ProjectMapOf(projRows)[k].(phaseTasks := ProjectMapOf(projRows)[k].phaseTasks + TasksFor(taskRows, k))
    ensures ps == ProjectsOf(projRows, taskRows)
  {
    var keys := OwnKeys(order, IntKeyIndex);
    AttachedValues(m, order, keys, projRows, taskRows);
    ps := ValuesInOrder(m, keys);
  }

  lemma AttachedValues(m: map<int, Project>, order: seq<int>, keys: seq<int>, projRows: seq<Row>, taskRows: seq<Row>)
    requires order == Dedup(KeptIds(projRows))
    requires keys == OwnKeys(order, IntKeyIndex)
    requires m.Keys == ProjectMapOf(projRows).Keys
    requires forall k :: k in m ==> m[k] == ProjectMapOf(projRows)[k].(phaseTasks := ProjectMapOf(projRows)[k].phaseTasks + TasksFor(taskRows, k))
    ensures forall i :: 0 <= i < |keys| ==> keys[i] in m
    ensures ValuesInOrder(m, keys) == ProjectsOf(projRows, taskRows)
  {
    assert keys == ProjectKeys(projRows);
    var ps, expected := ValuesInOrder(m, keys), ProjectsOf(projRows, taskRows);
    forall i | 0 <= i < |keys| ensures keys[i] in m && ps[i] == expected[i] {
      AttachedProject(m, projRows, taskRows, keys[i]);
    }
  }

  /** A project of the map once its tasks are attached: the task list is exactly the tasks of its rows. */
  lemma AttachedProject(m: map<int, Project>, projRows: seq<Row>, taskRows: seq<Row>, k: int)
    requires k in ProjectMapOf(projRows) && m.Keys == ProjectMapOf(projRows).Keys
    requires forall k :: k in m ==> m[k] == ProjectMapOf(projRows)[k].(phaseTasks := ProjectMapOf(projRows)[k].phaseTasks + TasksFor(taskRows, k))
    ensures k in m && m[k] == ProjectMapOf(projRows)[k].(phaseTasks := TasksFor(taskRows, k))
  {
    var p := ProjectMapOf(projRows)[k];
    assert p.phaseTasks + TasksFor(taskRows, k) == TasksFor(taskRows, k);
  }

  /**
   * `loadDataFromExcel` from the decoded sheets on: the project map is filled and the
   * tasks attached by the two loops, the projects listed in own-key order, and the
   * contractors and H&S warnings collected by their loops.
   */
  method LoadData(wb: Workbook) returns (r: Result<Loaded, LoadError>)
    ensures r == Load(wb)
  {
    if wb.projects.None? || wb.tasks.None? {
      return Err(MissingSheet);
    }
    var projectMap, order := BuildProjectMap(wb.projects.value);
    projectMap := AttachTasks(projectMap, wb.tasks.value);
    var projects := ValuesOf(projectMap, order, wb.projects.value, wb.tasks.value);

    var contractors: seq<Contractor> := [];
    if wb.contractors.Some? {
      var c := CollectRows(wb.contractors.value, "ContractorID", ContractorFromRow);
      if c.Err? {
        return Err(c.error);
      }
      contractors := c.value;
    }
    var hsWarnings: seq<HsWarning> := [];
    if wb.healthAndSafety.Some? {
      var h := CollectRows(wb.healthAndSafety.value, "HSID", WarningFromRow);
      if h.Err? {
        return Err(h.error);
      }
      hsWarnings := h.value;
    }
    var links: seq<Link> := [];
    if wb.projectContractors.Some? {
      var l := LinksOf(wb.projectContractors.value);
      if l.Err? {
        return Err(l.error);
      }
      links := l.value;
    }
    return Ok(Loaded(projects, contractors, hsWarnings, links));
  }
}

=== FILE: groups.dfy ===
/**
 * The two grouping loops the views repeat: a plain object of counters filled by
 * `counts[k] = (counts[k] || 0) + 1`, and a `Map` from a key to an array or a `Set`
 * of values filled by `push` or `add`. A `Set` is ordered by insertion in
 * JavaScript, so it is modelled as the sequence of its distinct elements.
 */
module Groups {
  import opened Seqs

  /** Every element. */
  predicate All<T>(x: T) {
    true
  }

  /** The element itself. */
  function Same<T>(x: T): T {
    x
  }

  /** `key(x)` for each `x` of `s` that `keep` accepts, in order: the keys a loop touches. */
  function KeysOf<T, K>(s: seq<T>, keep: T -> bool, key: T -> K): (r: seq<K>)
    ensures |r| <= |s|
  {
    if s == [] then []
    else KeysOf(s[..|s| - 1], keep, key) + (if keep(s[|s| - 1]) then [key(s[|s| - 1])] else [])
  }

  /** A key is touched iff some accepted element has it. */
  lemma {:induction false} KeysOfMembers<T, K>(s: seq<T>, keep: T -> bool, key: T -> K, k: K)
    ensures k in KeysOf(s, keep, key) <==> exists i :: 0 <= i < |s| && keep(s[i]) && key(s[i]) == k
  {
    if s != [] {
      var front := s[..|s| - 1];
      KeysOfMembers(front, keep, key, k);
      assert forall i :: 0 <= i < |front| ==> front[i] == s[i];
    }
  }

  /** `value(x)` for each accepted `x` of `s` whose key is `k`, in order. */
  function ValuesWithKey<T, K(==), V>(s: seq<T>, keep: T -> bool, key: T -> K, value: T -> V, k: K): (r: seq<V>)
    ensures |r| <= |s|
  {
    if s == [] then []
    else
      var last := s[|s| - 1];
      ValuesWithKey(s[..|s| - 1], keep, key, value, k) + (if keep(last) && key(last) == k then [value(last)] else [])
  }

  /** A value is listed under `k` iff some accepted element with key `k` has it. */
  lemma {:induction false} ValuesWithKeyMembers<T, K, V>(s: seq<T>, keep: T -> bool, key: T -> K, value: T -> V, k: K, x: V)
    ensures x in ValuesWithKey(s, keep, key, value, k) <==>
      exists i :: 0 <= i < |s| && keep(s[i]) && key(s[i]) == k && value(s[i]) == x
  {
    if s != [] {
      var front := s[..|s| - 1];
      ValuesWithKeyMembers(front, keep, key, value, k, x);
      assert forall i :: 0 <= i < |front| ==> front[i] == s[i];
    }
  }

  /** A key has as many values as the loop touched it. */
  lemma {:induction false} ValuesWithKeyCount<T, K, V>(s: seq<T>, keep: T -> bool, key: T -> K, value: T -> V, k: K)
    ensures |ValuesWithKey(s, keep, key, value, k)| == multiset(KeysOf(s, keep, key))[k]
  {
    if s != [] {
      var front := s[..|s| - 1];
      ValuesWithKeyCount(front, keep, key, value, k);
      var kf := KeysOf(front, keep, key);
      var last := s[|s| - 1];
      if keep(last) {
        assert multiset(kf + [key(last)]) == multiset(kf) + multiset{key(last)};
      } else {
        assert KeysOf(s, keep, key) == kf;
      }
    }
  }

  /** One more element at the end of a `Set`: `add` keeps only the first occurrence. */
  lemma DedupSnoc<T(!new)>(s: seq<T>, x: T)
    ensures Dedup(s + [x]) == if x in Dedup(s) then Dedup(s) else Dedup(s) + [x]
  {
    assert (s + [x])[..|s|] == s;
  }

  /** What the counters hold once the keys `keys` were touched, in order. */
  ghost predicate Counted<K(!new)>(counts: map<K, nat>, order: seq<K>, keys: seq<K>) {
    && order == Dedup(keys)
    && (forall k :: k in counts <==> k in keys)
    && (forall k :: k in counts ==> counts[k] == multiset(keys)[k])
  }

  lemma CountStep<K(!new)>(counts: map<K, nat>, order: seq<K>, keys: seq<K>, k: K)
    requires Counted(counts, order, keys)
    ensures Counted(counts[k := if k in counts then counts[k] + 1 else 1],
                    if k in counts then order else order + [k], keys + [k])
  {
    DedupSnoc(keys, k);
    CountedKeysStep(counts, keys, k);
    CountedValuesStep(counts, keys, k);
  }

  lemma CountedKeysStep<K(!new)>(counts: map<K, nat>, keys: seq<K>, k: K)
    requires forall x :: x in counts <==> x in keys
    ensures forall x :: x in counts[k := if k in counts then counts[k] + 1 else 1] <==> x in keys + [k]
  {
    forall x ensures x in counts[k := if k in counts then counts[k] + 1 else 1] <==> x in keys + [k] {
      assert x in keys + [k] <==> x in keys || x == k;
    }
  }

  lemma CountedValuesStep<K(!new)>(counts: map<K, nat>, keys: seq<K>, k: K)
    requires forall x :: x in counts <==> x in keys
    requires forall x :: x in counts ==> counts[x] == multiset(keys)[x]
    ensures var c2 := counts[k := if k in counts then counts[k] + 1 else 1];
      forall x :: x in c2 ==> c2[x] == multiset(keys + [k])[x]
  {
    MultisetSnoc(keys, k);
  }

  /** One more key adds one to its own count and leaves the others. */
  lemma MultisetSnoc<K>(keys: seq<K>, k: K)
    ensures multiset(keys + [k])[k] == multiset(keys)[k] + 1
    ensures forall x :: x != k ==> multiset(keys + [k])[x] == multiset(keys)[x]
  {
    assert multiset(keys + [k]) == multiset(keys) + multiset{k};
  }


  lemma KeysSnoc<T, K>(s: seq<T>, keep: T -> bool, key: T -> K, i: nat)
    requires i < |s|
    ensures KeysOf(s[..i + 1], keep, key) == KeysOf(s[..i], keep, key) + (if keep(s[i]) then [key(s[i])] else [])
  {
    assert s[..i + 1][..i] == s[..i];
  }

  /**
   * `counts[k] = (counts[k] || 0) + 1` for every accepted element: each key touched holds
   * the number of times it was touched, and `order` is the order in which the keys were created.
   */
  method CountBy<T, K(==,!new)>(s: seq<T>, keep: T -> bool, key: T -> K) returns (counts: map<K, nat>, order: seq<K>)
    ensures order == Dedup(KeysOf(s, keep, key))
    ensures forall k :: k in counts <==> k in KeysOf(s, keep, key)
    ensures forall k :: k in counts ==> counts[k] == multiset(KeysOf(s, keep, key))[k]
  {
    counts, order := map[], [];
    var i := 0;
    while i < |s|
      invariant 0 <= i <= |s|
      invariant Counted(counts, order, KeysOf(s[..i], keep, key))
    {
      ghost var next := KeysOf(s[..i + 1], keep, key);
      KeysSnoc(s, keep, key, i);
      if keep(s[i]) {
        var k := key(s[i]);
        assert next == KeysOf(s[..i], keep, key) + [k];
        CountStep(counts, order, KeysOf(s[..i], keep, key), k);
        counts, order := Bump(counts, order, k);
        assert Counted(counts, order, next);
      } else {
        assert next == KeysOf(s[..i], keep, key);
      }
      i := i + 1;
    }
    assert s[..i] == s;
  }

  /** One `counts[k]++` on an object whose keys were created in the order `order`. */
  method Bump<K(==)>(counts0: map<K, nat>, order0: seq<K>, k: K) returns (counts: map<K, nat>, order: seq<K>)
    ensures counts == counts0[k := if k in counts0 then counts0[k] + 1 else 1]
    ensures order == if k in counts0 then order0 else order0 + [k]
  {
    if k in counts0 {
      counts, order := counts0[k := counts0[k] + 1], order0;
    } else {
      counts, order := counts0[k := 1], order0 + [k];
    }
  }

  /** The `Map` of `Set`s after visiting `s`: each accepted element adds its value under its key. */
  function DistinctGroups<T, K(==), V(==)>(s: seq<T>, keep: T -> bool, key: T -> K, value: T -> V): map<K, seq<V>> {
    if s == [] then map[]
    else
      var m := DistinctGroups(s[..|s| - 1], keep, key, value);
      var last := s[|s| - 1];
      if !keep(last) then m
      else
        var k, v := key(last), value(last);
        var vs := if k in m then m[k] else [];
        m[k := if v in vs then vs else vs + [v]]
  }

  /**
   * The groups hold exactly the keys touched, and under each key its distinct values
   * in the order they first appeared.
   */
  lemma {:induction false} DistinctGroupsHold<T, K(!new), V(!new)>(s: seq<T>, keep: T -> bool, key: T -> K, value: T -> V, k: K)
    ensures k in DistinctGroups(s, keep, key, value) <==> k in KeysOf(s, keep, key)
    ensures k in DistinctGroups(s, keep, key, value) ==>
      DistinctGroups(s, keep, key, value)[k] == Dedup(ValuesWithKey(s, keep, key, value, k))
  {
    if s != [] {
      var front := s[..|s| - 1];
      var last := s[|s| - 1];
      DistinctGroupsHold(front, keep, key, value, k);
      if keep(last) && key(last) == k {
        var before := ValuesWithKey(front, keep, key, value, k);
        if k !in DistinctGroups(front, keep, key, value) {
          NoValuesWithoutKey(front, keep, key, value, k);
        }
        assert ValuesWithKey(s, keep, key, value, k) == before + [value(last)];
        DedupSnoc(before, value(last));
      } else {
        assert ValuesWithKey(s, keep, key, value, k) == ValuesWithKey(front, keep, key, value, k);
      }
      assert KeysOf(s, keep, key) == KeysOf(front, keep, key) + (if keep(last) then [key(last)] else []);
    }
  }

  /** One step of the `Set` grouping loop. */
  lemma DistinctGroupsSnoc<T, K(!new), V(!new)>(s: seq<T>, keep: T -> bool, key: T -> K, value: T -> V, i: nat)
    requires i < |s|
    ensures DistinctGroups(s[..i + 1], keep, key, value) ==
      var m := DistinctGroups(s[..i], keep, key, value);
      var k, v := key(s[i]), value(s[i]);
      var vs := if k in m then m[k] else [];
      if !keep(s[i]) then m else m[k := if v in vs then vs else vs + [v]]
  {
    assert s[..i + 1][..i] == s[..i];
  }

  /** One step of the array grouping loop. */
  lemma ListGroupsSnoc<T, K(!new)>(s: seq<T>, keep: T -> bool, key: T -> K, i: nat)
    requires i < |s|
    ensures ListGroups(s[..i + 1], keep, key) ==
      var m := ListGroups(s[..i], keep, key);
      var k := key(s[i]);
      if !keep(s[i]) then m else m[k := (if k in m then m[k] else []) + [s[i]]]
  {
    assert s[..i + 1][..i] == s[..i];
  }

  /**
   * A `Map` from key to `Set`, filled by `if (!m.has(k)) m.set(k, new Set()); m.get(k).add(v)`
   * for every accepted element: the keys in insertion order, and under each key the
   * distinct values in insertion order.
   */
  method GroupDistinct<T, K(==,!new), V(==,!new)>(s: seq<T>, keep: T -> bool, key: T -> K, value: T -> V)
    returns (m: map<K, seq<V>>, order: seq<K>)
    ensures m == DistinctGroups(s, keep, key, value)
    ensures order == Dedup(KeysOf(s, keep, key))
  {
    m, order := map[], [];
    var i := 0;
    while i < |s|
      invariant 0 <= i <= |s|
      invariant m == DistinctGroups(s[..i], keep, key, value)
      invariant order == Dedup(KeysOf(s[..i], keep, key))
    {
      KeysSnoc(s, keep, key, i);
      DistinctGroupsSnoc(s, keep, key, value, i);
      if keep(s[i]) {
        var k, v := key(s[i]), value(s[i]);
        DistinctGroupsHold(s[..i], keep, key, value, k);
        DedupSnoc(KeysOf(s[..i], keep, key), k);
        // `m.set(k, new Set())` when the key is new, then `add(v)`
        var vs := if k in m then m[k] else [];
        if k !in m {
          order := order + [k];
        }
        m := m[k := if v in vs then vs else vs + [v]];
        assert m == DistinctGroups(s[..i + 1], keep, key, value);
        assert KeysOf(s[..i + 1], keep, key) == KeysOf(s[..i], keep, key) + [k];
      } else {
        assert KeysOf(s[..i + 1], keep, key) == KeysOf(s[..i], keep, key);
      }
      assert order == Dedup(KeysOf(s[..i + 1], keep, key));
      i := i + 1;
    }
    assert s[..i] == s;
  }

  /** The group of a touched key: its distinct values, at least one and no more than the times it was touched. */
  lemma GroupOfTouchedKey<T, K(!new), V(!new)>(s: seq<T>, keep: T -> bool, key: T -> K, value: T -> V, k: K)
    requires k in KeysOf(s, keep, key)
    ensures var m := DistinctGroups(s, keep, key, value);
      && k in m
      && m[k] == Dedup(ValuesWithKey(s, keep, key, value, k))
      && 1 <= |m[k]| <= multiset(KeysOf(s, keep, key))[k]
  {
    DistinctGroupsHold(s, keep, key, value, k);
    ValuesWithKeyCount(s, keep, key, value, k);
    var vs := ValuesWithKey(s, keep, key, value, k);
    assert vs[0] in Dedup(vs);
  }

  /** A key that was never touched has no values. */
  lemma {:induction false} NoValuesWithoutKey<T, K, V>(s: seq<T>, keep: T -> bool, key: T -> K, value: T -> V, k: K)
    requires k !in KeysOf(s, keep, key)
    ensures ValuesWithKey(s, keep, key, value, k) == []
  {
    ValuesWithKeyCount(s, keep, key, value, k);
  }

  /** The plain object of arrays after visiting `s`: each accepted element is pushed under its key. */
  function ListGroups<T, K(==)>(s: seq<T>, keep: T -> bool, key: T -> K): map<K, seq<T>> {
    if s == [] then map[]
    else
      var m := ListGroups(s[..|s| - 1], keep, key);
      var last := s[|s| - 1];
      if !keep(last) then m
      else m[key(last) := (if key(last) in m then m[key(last)] else []) + [last]]
  }

  /** The groups hold exactly the keys touched, and under each key its elements in order. */
  lemma {:induction false} ListGroupsHold<T, K(!new)>(s: seq<T>, keep: T -> bool, key: T -> K, k: K)
    ensures k in ListGroups(s, keep, key) <==> k in KeysOf(s, keep, key)
    ensures k in ListGroups(s, keep, key) ==> ListGroups(s, keep, key)[k] == ValuesWithKey(s, keep, key, Same, k)
  {
    if s != [] {
      var front := s[..|s| - 1];
      var last := s[|s| - 1];
      ListGroupsHold(front, keep, key, k);
      if keep(last) && key(last) == k && k !in ListGroups(front, keep, key) {
        NoValuesWithoutKey(front, keep, key, Same, k);
      }
    }
  }

  /**
   * A plain object from key to array, filled by `if (!m[k]) m[k] = []; m[k].push(x)` for
   * every accepted element: under each key the accepted elements with that key, in order.
   */
  method GroupList<T, K(==,!new)>(s: seq<T>, keep: T -> bool, key: T -> K) returns (m: map<K, seq<T>>, order: seq<K>)
    ensures m == ListGroups(s, keep, key)
    ensures order == Dedup(KeysOf(s, keep, key))
  {
    m, order := map[], [];
    var i := 0;
    while i < |s|
      invariant 0 <= i <= |s|
      invariant m == ListGroups(s[..i], keep, key)
      invariant order == Dedup(KeysOf(s[..i], keep, key))
    {
      KeysSnoc(s, keep, key, i);
      ListGroupsSnoc(s, keep, key, i);
      if keep(s[i]) {
        var k := key(s[i]);
        ListGroupsHold(s[..i], keep, key, k);
        DedupSnoc(KeysOf(s[..i], keep, key), k);
        if k !in m {
          m, order := m[k := []], order + [k];
        }
        m := m[k := m[k] + [s[i]]];
        assert KeysOf(s[..i + 1], keep, key) == KeysOf(s[..i], keep, key) + [k];
      } else {
        assert KeysOf(s[..i + 1], keep, key) == KeysOf(s[..i], keep, key);
      }
      assert order == Dedup(KeysOf(s[..i + 1], keep, key));
      i := i + 1;
    }
    assert s[..i] == s;
  }
}

=== FILE: jsvalues.dfy ===
/**
 * The JavaScript value semantics the normaliser and the views depend on:
 * spreadsheet cells as decoded rows, `Number(v)`, truthiness and `v || fallback`,
 * `String(v)`, and the order in which a plain object lists its own keys.
 */
module JsValues {
  import opened Wrappers
  import opened Text
  import opened Seqs

  /** A decoded spreadsheet cell. Numeric cells are integers in this model. */
  datatype Cell = Text(s: string) | Num(n: int) | Bool(b: bool)

  /** One decoded row: column header to cell; a blank cell has no entry. */
  type Row = map<string, Cell>

  function Get(row: Row, column: string): Option<Cell> {
    if column in row then Some(row[column]) else None
  }

  /** ToBoolean: `undefined`, `""`, `0` and `false` are falsy. */
  predicate Truthy(v: Option<Cell>) {
    match v
    case None => false
    case Some(Text(s)) => s != ""
    case Some(Num(n)) => n != 0
    case Some(Bool(b)) => b
  }

  /** `Number(s)` for a string: white space is trimmed and the empty string is 0. */
  function StringToNumber(s: string): Option<int> {
    var t := Trim(s);
    if t == "" then Some(0) else ParseIntLiteral(t)
  }

  /** `Number(v)`, with NaN as `None`. */
  function ToNumber(v: Option<Cell>): Option<int> {
    match v
    case None => None
    case Some(Text(s)) => StringToNumber(s)
    case Some(Num(n)) => Some(n)
    case Some(Bool(b)) => Some(if b then 1 else 0)
  }

  /** `String(c)`. */
  function ToText(c: Cell): string {
    match c
    case Text(s) => s
    case Num(n) => IntToString(n)
    case Bool(b) => if b then "true" else "false"
  }

  /** `v || fallback` for a column that holds text. */
  function TextOr(v: Option<Cell>, fallback: string): (r: string)
    ensures !Truthy(v) ==> r == fallback
    ensures Truthy(v) ==> r != ""
    ensures IsTextOr(v, fallback, r)
  {
    if Truthy(v) then ToText(v.value) else fallback
  }

  /** `r` is what `v || fallback` shows: the cell's text when it is truthy, otherwise the fallback. */
  predicate IsTextOr(v: Option<Cell>, fallback: string, r: string) {
    && (Truthy(v) ==> r == ToText(v.value))
    && (!Truthy(v) ==> r == fallback)
  }

  /** `r` is `Number(v) || 0`: the number when `v` reads as one, 0 for NaN. */
  predicate IsNumberOrZero(v: Option<Cell>, r: int) {
    && (ToNumber(v).Some? ==> r == ToNumber(v).value)
    && (ToNumber(v).None? ==> r == 0)
  }

  /** `Number(v) || 0`: NaN and 0 both become 0. */
  function NumberOrZero(v: Option<Cell>): (r: int)
    ensures ToNumber(v).Some? ==> r == ToNumber(v).value
    ensures ToNumber(v).None? ==> r == 0
  {
    match ToNumber(v)
    case None => 0
    case Some(n) => n
  }

  /** `Number(v)` when it is an id the normaliser keeps: `if (!id) return;` drops 0 and NaN. */
  function NonZeroNumber(v: Option<Cell>): (r: Option<int>)
    ensures r.Some? <==> ToNumber(v).Some? && ToNumber(v).value != 0
    ensures r.Some? ==> r == ToNumber(v)
  {
    match ToNumber(v)
    case Some(n) => if n != 0 then Some(n) else None
    case None => None
  }

  /** `r` is what `(v || "").trim()` gives when it does not throw: a text cell trimmed, a falsy cell "". */
  predicate IsTrimmedOf(v: Option<Cell>, r: string) {
    && (Truthy(v) && v.value.Text? ==> r == Trim(v.value.s))
    && (!Truthy(v) ==> r == "")
  }

  /**
   * `(v || "").trim()`: a falsy cell gives "", a text cell is trimmed, and any other
   * truthy cell has no `trim` method, so the call throws a TypeError (`None`).
   */
  function TrimmedOrEmpty(v: Option<Cell>): (r: Option<string>)
    ensures r.None? <==> Truthy(v) && !v.value.Text?
    ensures r.Some? ==> Trimmed(r.value)
    ensures Truthy(v) && v.value.Text? ==> r == Some(Trim(v.value.s))
    ensures !Truthy(v) ==> r == Some("")
  {
    if !Truthy(v) then Some("")
    else match v.value
      case Text(s) => Some(Trim(s))
      case _ => None
  }

  /** A text cell holding the decimal form of an integer reads back as that integer. */
  lemma NumberOfIntegerText(i: int)
    ensures ToNumber(Some(Text(IntToString(i)))) == Some(i)
  {
    IntToStringTrimmed(i);
    TrimKeepsTrimmed(IntToString(i));
    IntRoundTrip(i);
  }

  /** A blank or all-white-space text cell is the number 0 and is dropped as an id. */
  lemma BlankTextIsZero(s: string)
    requires forall i :: 0 <= i < |s| ==> IsSpace(s[i])
    ensures ToNumber(Some(Text(s))) == Some(0)
    ensures NonZeroNumber(Some(Text(s))).None?
  {
  }

  // ---- Own-key order of ordinary objects ----

  /** The array index a property key denotes, if any (keys that are integers from 0 to 2^32 - 2). */
  function IntKeyIndex(k: int): Option<nat> {
    if 0 <= k < 0xFFFF_FFFF then Some(k) else None
  }

  /** The same for a string key: its canonical decimal form, below 2^32 - 1. */
  function StringKeyIndex(k: string): Option<nat> {
    if |k| > 0 && AllDigits(k) && DigitsValue(k) < 0xFFFF_FFFF && NatToString(DigitsValue(k)) == k
    then Some(DigitsValue(k)) else None
  }

  function IsIndexKey<K(!new)>(index: K -> Option<nat>): K -> bool {
    k => index(k).Some?
  }

  function IsOtherKey<K(!new)>(index: K -> Option<nat>): K -> bool {
    k => index(k).None?
  }

  /** Sorting descending by this rank puts index keys in ascending order. */
  function IndexRank<K(!new)>(index: K -> Option<nat>): K -> int {
    k => if index(k).Some? then 0 - index(k).value else 0
  }

  /**
   * OrdinaryOwnPropertyKeys (section 10.1.11.1 of ECMA-262, 2023 edition), the order of
   * `Object.keys` and `Object.values`: keys that are array indices in ascending numeric
   * order, then every other key in the order it was first created.
   */
  function OwnKeys<K(!new)>(created: seq<K>, index: K -> Option<nat>): (r: seq<K>)
    ensures multiset(r) == multiset(created)
    ensures forall i, j :: 0 <= i < j < |r| && index(r[j]).Some? ==> index(r[i]).Some? && index(r[i]).value <= index(r[j]).value
    ensures Filter(IsOtherKey(index), r) == Filter(IsOtherKey(index), created)
  {
    var indices := Filter(IsIndexKey(index), created);
    var others := Filter(IsOtherKey(index), created);
    var sorted := StableSortDesc(indices, IndexRank(index));
    OwnKeysFacts(created, index, indices, others, sorted);
    sorted + others
  }

  lemma OwnKeysFacts<K(!new)>(created: seq<K>, index: K -> Option<nat>, indices: seq<K>, others: seq<K>, sorted: seq<K>)
    requires indices == Filter(IsIndexKey(index), created)
    requires others == Filter(IsOtherKey(index), created)
    requires sorted == StableSortDesc(indices, IndexRank(index))
    ensures multiset(sorted + others) == multiset(created)
    ensures var r := sorted + others;
      forall i, j :: 0 <= i < j < |r| && index(r[j]).Some? ==> index(r[i]).Some? && index(r[i]).value <= index(r[j]).value
    ensures Filter(IsOtherKey(index), sorted + others) == others
  {
    SplitKeys(created, index);
    IndicesAreIndices(created, index, indices);
    OthersAreOthers(created, index, others);
    SortedAreIndices(indices, index, sorted);
    OwnKeysOrdered(sorted, others, index);
    FilterAppend(IsOtherKey(index), sorted, others);
    FilterNonePass(IsOtherKey(index), sorted);
    FilterAllPass(IsOtherKey(index), others);
  }

  lemma IndicesAreIndices<K(!new)>(created: seq<K>, index: K -> Option<nat>, indices: seq<K>)
    requires indices == Filter(IsIndexKey(index), created)
    ensures forall y :: y in indices ==> index(y).Some?
  {
    forall y | y in indices ensures index(y).Some? {
      assert IsIndexKey(index)(y);
    }
  }

  lemma OthersAreOthers<K(!new)>(created: seq<K>, index: K -> Option<nat>, others: seq<K>)
    requires others == Filter(IsOtherKey(index), created)
    ensures forall y :: y in others ==> index(y).None?
    ensures forall y :: y in others ==> IsOtherKey(index)(y)
  {
    forall y | y in others ensures index(y).None? {
      assert IsOtherKey(index)(y);
    }
  }

  lemma SortedAreIndices<K(!new)>(indices: seq<K>, index: K -> Option<nat>, sorted: seq<K>)
    requires forall y :: y in indices ==> index(y).Some?
    requires multiset(sorted) == multiset(indices)
    ensures forall y :: y in sorted ==> index(y).Some?
    ensures forall y :: y in sorted ==> !IsOtherKey(index)(y)
  {
    forall y | y in sorted ensures index(y).Some? {
      assert y in multiset(indices);
    }
  }

  lemma {:induction false} SplitKeys<K(!new)>(created: seq<K>, index: K -> Option<nat>)
    ensures multiset(Filter(IsIndexKey(index), created)) + multiset(Filter(IsOtherKey(index), created)) == multiset(created)
  {
    if created != [] {
      SplitKeys(created[1..], index);
      assert created == [created[0]] + created[1..];
    }
  }

  lemma OwnKeysOrdered<K(!new)>(sorted: seq<K>, others: seq<K>, index: K -> Option<nat>)
    requires SortedDesc(sorted, IndexRank(index))
    requires forall y :: y in sorted ==> index(y).Some?
    requires forall y :: y in others ==> index(y).None?
    ensures var r := sorted + others;
      forall i, j :: 0 <= i < j < |r| && index(r[j]).Some? ==> index(r[i]).Some? && index(r[i]).value <= index(r[j]).value
  {
    var r := sorted + others;
    forall j | |sorted| <= j < |r| ensures index(r[j]).None? {
      assert r[j] == others[j - |sorted|];
    }
    forall i, j | 0 <= i < j < |r| && index(r[j]).Some?
      ensures index(r[i]).Some? && index(r[i]).value <= index(r[j]).value
    {
      assert r[i] == sorted[i] && r[j] == sorted[j];
      assert IndexRank(index)(sorted[i]) >= IndexRank(index)(sorted[j]);
    }
  }

  lemma {:induction false} FilterNonePass<T(!new)>(f: T -> bool, s: seq<T>)
    requires forall x :: x in s ==> !f(x)
    ensures Filter(f, s) == []
  {
    if s != [] {
      FilterNonePass(f, s[1..]);
    }
  }
}

=== FILE: programme_view.dfy ===
/**
 * The data behind the Programme tab: the spend table's variance column, the top
 * risks, contractor usage, the H&S hotspots and the severity heatmap. Each panel
 * is a function from the projects shown and the loaded records to what it lists;
 * the loops the panels run (the `Map` of `Set`s, the object of arrays, the counters)
 * are methods proved to compute those functions.
 */
module ProgrammeView {
  import opened Wrappers
  import opened Text
  import opened Seqs
  import opened Entities
  import opened State
  import opened Groups
  import opened JsValues

  /** `filteredProjects || projects`: an array is truthy even when empty, so only a missing list falls back. */
  function ProjectsToShow(filtered: Option<seq<Project>>, projects: seq<Project>): seq<Project> {
    if filtered.Some? then filtered.value else projects
  }

  /** `new Set(projectsToShow.map(p => p.id))`, as the sequence of ids. */
  function IdsOf(ps: seq<Project>): seq<int> {
    seq(|ps|, i requires 0 <= i < |ps| => ps[i].id)
  }

  lemma IdsOfMembers(ps: seq<Project>, id: int)
    ensures id in IdsOf(ps) <==> exists p :: p in ps && p.id == id
  {
    if id in IdsOf(ps) {
      var i :| 0 <= i < |ps| && IdsOf(ps)[i] == id;
      assert ps[i] in ps;
    }
    if exists p :: p in ps && p.id == id {
      var p :| p in ps && p.id == id;
      var i :| 0 <= i < |ps| && ps[i] == p;
      assert IdsOf(ps)[i] == id;
    }
  }

  // ---- Spend table ----

  /** The variance column: over budget, under budget, or "On budget". */
  datatype Variance = OnBudget | Over(amount: nat) | Under(amount: nat)

  function Signed(v: Variance): int {
    match v
    case OnBudget => 0
    case Over(a) => a
    case Under(a) => 0 - a as int
  }

  /**
   * `projectedSpend - budget`: a positive variance is shown with a "+" and the over-budget
   * colour, a negative one with the under-budget colour, and 0 as "On budget".
   */
  function SpendVariance(p: Project): (r: Variance)
    ensures r.OnBudget? <==> p.projectedSpend == p.budget
    ensures r.Over? <==> p.projectedSpend > p.budget
    ensures r.Under? <==> p.projectedSpend < p.budget
    ensures !r.OnBudget? ==> r.amount > 0
    ensures p.budget + Signed(r) == p.projectedSpend
  {
    var v := p.projectedSpend - p.budget;
    if v > 0 then Over(v) else if v < 0 then Under(-v) else OnBudget
  }

  // ---- Top risks ----

  datatype RisksView = NoProjectsLoaded | RiskCards(cards: seq<Project>)

  function RiskOf(p: Project): int {
    RiskWeight(p.riskRating)
  }

  /** A copy of the shown projects sorted by risk weight, highest first, cut to 5. */
  function TopRisks(shown: seq<Project>): (r: RisksView)
    ensures r.NoProjectsLoaded? <==> shown == []
    ensures r.RiskCards? ==> |r.cards| == if |shown| < 5 then |shown| else 5
    ensures r.RiskCards? ==> SortedDesc(r.cards, RiskOf)
  {
    if shown == [] then NoProjectsLoaded
    else
      var sorted := StableSortDesc(shown, RiskOf);
      var cards := Take(sorted, 5);
      assert cards == sorted[..|cards|];
      RiskCards(cards)
  }

  /** The cards are taken from the shown projects, and no project left out is riskier than a card. */
  lemma TopRisksAreRiskiest(shown: seq<Project>)
    requires shown != []
    ensures var cards := TopRisks(shown).cards;
      && multiset(cards) <= multiset(shown)
      && forall p, c :: c in cards && multiset(cards)[p] < multiset(shown)[p] ==> RiskOf(p) <= RiskOf(c)
  {
    var sorted := StableSortDesc(shown, RiskOf);
    assert TopRisks(shown).cards == Take(sorted, 5);
    TakeOfSorted(sorted, RiskOf, 5);
  }

  /** Stability: among projects of equal risk, the cards are the first ones, in input order. */
  lemma TopRisksKeepOrder(shown: seq<Project>, w: int)
    requires shown != []
    ensures Filter(KeyIs(RiskOf, w), TopRisks(shown).cards) <= Filter(KeyIs(RiskOf, w), shown)
  {
    var sorted := StableSortDesc(shown, RiskOf);
    var cards := TopRisks(shown).cards;
    assert cards == sorted[..|cards|];
    FilterOfPrefix(KeyIs(RiskOf, w), sorted, |cards|);
    SortKeepsKeyClasses(shown, RiskOf, w);
  }

  // ---- Contractor usage ----

  datatype UsageRow = UsageRow(contractor: Contractor, projectCount: nat)

  datatype ContractorsView = NoContractorData | NoContractorsAssigned | UsageCards(rows: seq<UsageRow>)

  /** `filteredProjectIds.has(link.projectId)`. */
  function LinkShown(ids: seq<int>): Link -> bool {
    (l: Link) => l.projectId in ids
  }

  function LinkContractor(l: Link): int {
    l.contractorId
  }

  function LinkProject(l: Link): int {
    l.projectId
  }

  /** The `usageMap`: contractor id to the `Set` of shown projects it is linked to. */
  function UsageMap(ids: seq<int>, links: seq<Link>): map<int, seq<int>> {
    DistinctGroups(links, LinkShown(ids), LinkContractor, LinkProject)
  }

  /** `(usageMap.get(id) || new Set()).size`. */
  function UsageCount(usage: map<int, seq<int>>, id: int): nat {
    if id in usage then |usage[id]| else 0
  }

  /** A contractor's usage is the number of distinct shown projects among its links. */
  lemma UsageCountsProjects(ids: seq<int>, links: seq<Link>, cid: int)
    ensures var usage := UsageMap(ids, links);
      cid in usage ==> Distinct(usage[cid]) && UsageCount(usage, cid) == |usage[cid]|
    ensures var usage := UsageMap(ids, links);
      forall pid :: (cid in usage && pid in usage[cid]) <==>
        (pid in ids && exists l :: l in links && l.contractorId == cid && l.projectId == pid)
    ensures UsageCount(UsageMap(ids, links), cid) == 0 <==>
      forall l :: l in links && l.contractorId == cid ==> l.projectId !in ids
  {
    var keep, key, value := LinkShown(ids), LinkContractor, LinkProject;
    var usage := UsageMap(ids, links);
    DistinctGroupsHold(links, keep, key, value, cid);
    KeysOfMembers(links, keep, key, cid);
    var vs := ValuesWithKey(links, keep, key, value, cid);
    forall pid ensures (cid in usage && pid in usage[cid]) <==>
        (pid in ids && exists l :: l in links && l.contractorId == cid && l.projectId == pid)
    {
      ValuesWithKeyMembers(links, keep, key, value, cid, pid);
      if pid in ids && exists l :: l in links && l.contractorId == cid && l.projectId == pid {
        var l :| l in links && l.contractorId == cid && l.projectId == pid;
        var i :| 0 <= i < |links| && links[i] == l;
        assert keep(links[i]) && key(links[i]) == cid && value(links[i]) == pid;
      }
    }
    if cid in usage {
      var i :| 0 <= i < |links| && keep(links[i]) && key(links[i]) == cid;
      ValuesWithKeyMembers(links, keep, key, value, cid, links[i].projectId);
      assert links[i].projectId in usage[cid];
    } else {
      forall l | l in links && l.contractorId == cid ensures l.projectId !in ids {
        var i :| 0 <= i < |links| && links[i] == l;
      }
    }
  }

  /** One row per contractor, in contractor order, with its usage. */
  function AllUsageRows(contractors: seq<Contractor>, usage: map<int, seq<int>>): seq<UsageRow> {
    seq(|contractors|, i requires 0 <= i < |contractors| =>
      UsageRow(contractors[i], UsageCount(usage, contractors[i].contractorId)))
  }

  function RowCount(r: UsageRow): int {
    r.projectCount
  }

  function RowUsed(r: UsageRow): bool {
    r.projectCount > 0
  }

  /** `.filter(row => row.projectCount > 0).sort((a, b) => b.projectCount - a.projectCount)`. */
  function RankedRows(contractors: seq<Contractor>, usage: map<int, seq<int>>): (r: seq<UsageRow>)
    ensures SortedDesc(r, RowCount)
    ensures multiset(r) == multiset(Filter(RowUsed, AllUsageRows(contractors, usage)))
    ensures forall row :: row in r <==> row in AllUsageRows(contractors, usage) && row.projectCount > 0
  {
    var used := Filter(RowUsed, AllUsageRows(contractors, usage));
    var r := StableSortDesc(used, RowCount);
    assert forall row :: row in r <==> row in multiset(used);
    r
  }

  /** A ranked row is a used contractor with its own usage count. */
  lemma RankedRowMeaning(contractors: seq<Contractor>, usage: map<int, seq<int>>, row: UsageRow)
    requires row in RankedRows(contractors, usage)
    ensures row.contractor in contractors && row.projectCount > 0
    ensures row.projectCount == UsageCount(usage, row.contractor.contractorId)
  {
    var all := AllUsageRows(contractors, usage);
    var i :| 0 <= i < |all| && all[i] == row;
  }

  /** The first 8 ranked rows stay ranked, and each is a used contractor with its own count. */
  lemma RankedCards(contractors: seq<Contractor>, usage: map<int, seq<int>>)
    ensures var cards := Take(RankedRows(contractors, usage), 8);
      && SortedDesc(cards, RowCount)
      && forall row :: row in cards ==>
        row.contractor in contractors && row.projectCount > 0 &&
        row.projectCount == UsageCount(usage, row.contractor.contractorId)
  {
    var rows := RankedRows(contractors, usage);
    TakeOfSorted(rows, RowCount, 8);
    forall row | row in Take(rows, 8)
      ensures row.contractor in contractors && row.projectCount > 0 &&
        row.projectCount == UsageCount(usage, row.contractor.contractorId)
    {
      RankedRowMeaning(contractors, usage, row);
    }
  }

  /** The contractor panel: a message when there is nothing to rank, else the top 8 rows. */
  function ContractorUsage(shown: seq<Project>, contractors: seq<Contractor>, links: seq<Link>): (r: ContractorsView)
    ensures r.NoContractorData? <==> contractors == [] || links == []
    ensures r.NoContractorsAssigned? ==> forall c :: c in contractors ==>
      UsageCount(UsageMap(IdsOf(shown), links), c.contractorId) == 0
    ensures r.UsageCards? ==> 0 < |r.rows| <= 8 && SortedDesc(r.rows, RowCount)
    ensures r.UsageCards? ==> forall row :: row in r.rows ==>
      row.contractor in contractors && row.projectCount > 0 &&
      row.projectCount == UsageCount(UsageMap(IdsOf(shown), links), row.contractor.contractorId)
  {
    if contractors == [] || links == [] then NoContractorData
    else
      var usage := UsageMap(IdsOf(shown), links);
      var rows := RankedRows(contractors, usage);
      if rows == [] then
        assert forall i :: 0 <= i < |contractors| ==> UsageCount(usage, contractors[i].contractorId) == 0 by {
          forall i | 0 <= i < |contractors| ensures UsageCount(usage, contractors[i].contractorId) == 0 {
            assert AllUsageRows(contractors, usage)[i] in AllUsageRows(contractors, usage);
          }
        }
        NoContractorsAssigned
      else
        var cards := Take(rows, 8);
        RankedCards(contractors, usage);
        UsageCards(cards)
  }

  /**
   * The cards are the top of the ranking: as many as there are used contractors, up to 8,
   * all of them used, and no used contractor left out has a higher count than a card.
   */
  lemma ContractorUsageIsTop(shown: seq<Project>, contractors: seq<Contractor>, links: seq<Link>)
    requires ContractorUsage(shown, contractors, links).UsageCards?
    ensures var rows := ContractorUsage(shown, contractors, links).rows;
      var used := Filter(RowUsed, AllUsageRows(contractors, UsageMap(IdsOf(shown), links)));
      && |rows| == (if |used| < 8 then |used| else 8)
      && multiset(rows) <= multiset(used)
      && forall p, c :: c in rows && multiset(rows)[p] < multiset(used)[p] ==> RowCount(p) <= RowCount(c)
  {
    var usage := UsageMap(IdsOf(shown), links);
    var ranked := RankedRows(contractors, usage);
    assert ContractorUsage(shown, contractors, links).rows == Take(ranked, 8);
    TakeOfSorted(ranked, RowCount, 8);
  }

  /** Rows of equal usage keep the order of the contractors list. */
  lemma ContractorRowsKeepOrder(shown: seq<Project>, contractors: seq<Contractor>, links: seq<Link>, n: int)
    requires ContractorUsage(shown, contractors, links).UsageCards?
    ensures var usage := UsageMap(IdsOf(shown), links);
      Filter(KeyIs(RowCount, n), ContractorUsage(shown, contractors, links).rows)
        <= Filter(KeyIs(RowCount, n), Filter(RowUsed, AllUsageRows(contractors, usage)))
  {
    var usage := UsageMap(IdsOf(shown), links);
    var used := Filter(RowUsed, AllUsageRows(contractors, usage));
    var rows := StableSortDesc(used, RowCount);
    var cards := ContractorUsage(shown, contractors, links).rows;
    assert cards == rows[..|cards|];
    FilterOfPrefix(KeyIs(RowCount, n), rows, |cards|);
    SortKeepsKeyClasses(used, RowCount, n);
  }

  /** The panel as rendered: the links loop fills the `usageMap`, then the rows are ranked. */
  method RenderContractors(filtered: Option<seq<Project>>, projects: seq<Project>, contractors: seq<Contractor>, links: seq<Link>)
    returns (v: ContractorsView)
    ensures v == ContractorUsage(ProjectsToShow(filtered, projects), contractors, links)
  {
    var shown := ProjectsToShow(filtered, projects);
    var ids := IdsOf(shown);
    if contractors == [] || links == [] {
      return NoContractorData;
    }
    var usage, _ := GroupDistinct(links, LinkShown(ids), LinkContractor, LinkProject);
    var rows := RankedRows(contractors, usage);
    if rows == [] {
      return NoContractorsAssigned;
    }
    v := UsageCards(Take(rows, 8));
  }

  /** The name on a usage card: `contractor.name || contractor.company || "–"`. */
  function UsageCardName(c: Contractor): (r: string)
    ensures r != ""
    ensures c.name != "" ==> r == c.name
    ensures c.name == "" && c.company != "" ==> r == c.company
  {
    if c.name != "" then c.name else if c.company != "" then c.company else "–"
  }

  // ---- H&S hotspots ----

  datatype Hotspot = Hotspot(project: Project, highestSeverity: string, warningTypes: seq<string>)

  datatype HotspotsView = NoWarningsLoaded | NoHotspots | HotspotCards(cards: seq<Hotspot>)

  function SeverityOf(w: HsWarning): int {
    HsSeverityWeight(w.severity)
  }

  /** `filteredProjectIds.has(w.projectId)`: a NaN project id is never shown. */
  function WarningShown(ids: seq<int>): HsWarning -> bool {
    (w: HsWarning) => w.projectId.Some? && w.projectId.value in ids
  }

  function WarningProject(w: HsWarning): int {
    if w.projectId.Some? then w.projectId.value else 0
  }

  /** `warnings.reduce((h, w) => weight(w) > weight(h) ? w : h, warnings[0])`: the first warning of highest weight. */
  function HighestSeverity(ws: seq<HsWarning>): (r: HsWarning)
    requires ws != []
    ensures r in ws
    ensures forall w :: w in ws ==> SeverityOf(w) <= SeverityOf(r)
    ensures exists i :: 0 <= i < |ws| && ws[i] == r && forall j :: 0 <= j < i ==> SeverityOf(ws[j]) < SeverityOf(r)
  {
    var i := ReduceMaxIndex(ws, SeverityOf, |ws|);
    ws[i]
  }

  function WarningType(w: HsWarning): string {
    w.warningType
  }

  function NonEmpty(t: string): bool {
    t != ""
  }

  /** `warnings.map(w => w.warningType)`. */
  function TypesOf(ws: seq<HsWarning>): seq<string> {
    seq(|ws|, i requires 0 <= i < |ws| => ws[i].warningType)
  }

  /**
   * `[...new Set(warnings.map(w => w.warningType).filter(Boolean))]`: each non-empty type
   * once, in the order of its first warning.
   */
  function WarningTypesOf(ws: seq<HsWarning>): (r: seq<string>)
    ensures Distinct(r)
    ensures forall t :: t in r <==> t != "" && exists w :: w in ws && w.warningType == t
    ensures forall i, j, n :: 0 <= i < j < |r| && 0 <= n <= |ws| && r[j] in TypesOf(ws)[..n] ==> r[i] in TypesOf(ws)[..n]
  {
    var types := TypesOf(ws);
    var r := Dedup(Filter(NonEmpty, types));
    DedupFilterFirstOrder(NonEmpty, types);
    forall t ensures t in r <==> t != "" && exists w :: w in ws && w.warningType == t {
      if t != "" && exists w :: w in ws && w.warningType == t {
        var w :| w in ws && w.warningType == t;
        var i :| 0 <= i < |ws| && ws[i] == w;
        assert types[i] == t;
      }
    }
    r
  }

  /** One entry of `projectHSData` before `.filter(Boolean)`: `None` for a project not shown or without a High or Medium warning. */
  function HotspotFor(shown: seq<Project>, groups: map<int, seq<HsWarning>>, pid: int): (r: Option<Hotspot>)
    requires pid in groups && groups[pid] != []
    ensures r.Some? ==> r.value.project in shown && r.value.project.id == pid
    ensures r.Some? ==> r.value.highestSeverity == HighestSeverity(groups[pid]).severity
    ensures r.Some? ==> HsSeverityWeight(r.value.highestSeverity) >= 2
    ensures r.Some? ==> r.value.warningTypes == WarningTypesOf(groups[pid])
    ensures r.None? <==> Find(shown, HasId(Some(pid))).None? || SeverityOf(HighestSeverity(groups[pid])) < 2
  {
    match Find(shown, HasId(Some(pid)))
    case None => None
    case Some(project) =>
      var ws := groups[pid];
      var highest := HighestSeverity(ws);
      if SeverityOf(highest) < 2 then None
      else Some(Hotspot(project, highest.severity, WarningTypesOf(ws)))
  }

  /** `.filter(Boolean)` over entries that are objects or `null`. */
  function Present<T>(xs: seq<Option<T>>): (r: seq<T>)
    ensures |r| <= |xs|
  {
    if xs == [] then []
    else
      var rest := Present(xs[1..]);
      if xs[0].Some? then [xs[0].value] + rest else rest
  }

  lemma {:induction false} PresentMembers<T>(xs: seq<Option<T>>, x: T)
    ensures x in Present(xs) <==> Some(x) in xs
  {
    if xs != [] {
      PresentMembers(xs[1..], x);
      assert xs == [xs[0]] + xs[1..];
    }
  }

  /** `Object.keys(map).map(...).filter(Boolean)`: the hotspots of the keys, in key order. */
  function CollectHotspots(shown: seq<Project>, groups: map<int, seq<HsWarning>>, keys: seq<int>): seq<Hotspot>
    requires forall i :: 0 <= i < |keys| ==> keys[i] in groups && groups[keys[i]] != []
  {
    Present(seq(|keys|, i requires 0 <= i < |keys| && keys[i] in groups && groups[keys[i]] != [] =>
      HotspotFor(shown, groups, keys[i])))
  }

  /** What the `.filter(Boolean)` keeps: exactly the entries that are not `null`. */
  lemma CollectedHotspots(shown: seq<Project>, groups: map<int, seq<HsWarning>>, keys: seq<int>, h: Hotspot)
    requires forall i :: 0 <= i < |keys| ==> keys[i] in groups && groups[keys[i]] != []
    ensures h in CollectHotspots(shown, groups, keys) <==>
      exists i :: 0 <= i < |keys| && HotspotFor(shown, groups, keys[i]) == Some(h)
  {
    var entries := seq(|keys|, i requires 0 <= i < |keys| && keys[i] in groups && groups[keys[i]] != [] =>
      HotspotFor(shown, groups, keys[i]));
    assert CollectHotspots(shown, groups, keys) == Present(entries);
    PresentMembers(entries, h);
    if exists i :: 0 <= i < |keys| && HotspotFor(shown, groups, keys[i]) == Some(h) {
      var i :| 0 <= i < |keys| && HotspotFor(shown, groups, keys[i]) == Some(h);
      assert entries[i] == Some(h);
    }
    if Some(h) in entries {
      var i :| 0 <= i < |entries| && entries[i] == Some(h);
      assert HotspotFor(shown, groups, keys[i]) == Some(h);
    }
  }

  function HotspotWeight(h: Hotspot): int {
    HsSeverityWeight(h.highestSeverity)
  }

  /** What every card satisfies: High or Medium, a shown project, distinct non-empty warning types. */
  predicate ValidHotspot(shown: seq<Project>, h: Hotspot) {
    HotspotWeight(h) >= 2 && h.project in shown && Distinct(h.warningTypes) && "" !in h.warningTypes
  }

  /** The object of arrays `projectWarningsMap`: shown project id to its warnings, in order. */
  function WarningGroups(ids: seq<int>, warnings: seq<HsWarning>): map<int, seq<HsWarning>> {
    ListGroups(warnings, WarningShown(ids), WarningProject)
  }

  /** `Object.keys(projectWarningsMap)`: ids that are array indices ascending, then the rest as created. */
  function WarningKeys(ids: seq<int>, warnings: seq<HsWarning>): seq<int> {
    OwnKeys(Dedup(KeysOf(warnings, WarningShown(ids), WarningProject)), IntKeyIndex)
  }

  /** Every key listed has a non-empty group: the warnings of that project, in order. */
  lemma WarningKeysGrouped(ids: seq<int>, warnings: seq<HsWarning>)
    ensures var groups, keys := WarningGroups(ids, warnings), WarningKeys(ids, warnings);
      forall i :: 0 <= i < |keys| ==> (keys[i] in groups && groups[keys[i]] != [] &&
        groups[keys[i]] == ValuesWithKey(warnings, WarningShown(ids), WarningProject, Same, keys[i]))
  {
    var keep, key := WarningShown(ids), WarningProject;
    var groups, keys := WarningGroups(ids, warnings), WarningKeys(ids, warnings);
    var created := Dedup(KeysOf(warnings, keep, key));
    forall i | 0 <= i < |keys|
      ensures keys[i] in groups && groups[keys[i]] != [] &&
        groups[keys[i]] == ValuesWithKey(warnings, keep, key, Same, keys[i])
    {
      assert keys[i] in multiset(created);
      ListGroupsHold(warnings, keep, key, keys[i]);
      ValuesWithKeyCount(warnings, keep, key, Same, keys[i]);
    }
  }

  /** The hotspots of the shown projects in `Object.keys` order, before ranking. */
  function FoundHotspots(shown: seq<Project>, warnings: seq<HsWarning>): seq<Hotspot> {
    var ids := IdsOf(shown);
    WarningKeysGrouped(ids, warnings);
    CollectHotspots(shown, WarningGroups(ids, warnings), WarningKeys(ids, warnings))
  }

  lemma FoundHotspotsValid(shown: seq<Project>, warnings: seq<HsWarning>)
    ensures forall h :: h in FoundHotspots(shown, warnings) ==> ValidHotspot(shown, h)
  {
    var ids := IdsOf(shown);
    WarningKeysGrouped(ids, warnings);
    var groups, keys := WarningGroups(ids, warnings), WarningKeys(ids, warnings);
    forall h | h in FoundHotspots(shown, warnings) ensures ValidHotspot(shown, h) {
      CollectedHotspots(shown, groups, keys, h);
      var i :| 0 <= i < |keys| && HotspotFor(shown, groups, keys[i]) == Some(h);
    }
  }

  /** The ranked cards: stable by severity weight, highest first, at most 5. */
  function RankHotspots(found: seq<Hotspot>): (r: seq<Hotspot>)
    ensures |r| == if |found| < 5 then |found| else 5
    ensures SortedDesc(r, HotspotWeight)
    ensures forall h :: h in r ==> h in found
  {
    var sorted := StableSortDesc(found, HotspotWeight);
    var cards := Take(sorted, 5);
    TakeOfSorted(sorted, HotspotWeight, 5);
    assert forall h :: h in cards ==> h in multiset(found);
    cards
  }

  /** The cards are part of what was found, and no hotspot left out weighs more than a card. */
  lemma RankHotspotsAreTop(found: seq<Hotspot>)
    ensures var cards := RankHotspots(found);
      && multiset(cards) <= multiset(found)
      && forall p, c :: c in cards && multiset(cards)[p] < multiset(found)[p] ==> HotspotWeight(p) <= HotspotWeight(c)
  {
    var sorted := StableSortDesc(found, HotspotWeight);
    assert RankHotspots(found) == Take(sorted, 5);
    TakeOfSorted(sorted, HotspotWeight, 5);
  }

  /**
   * Completeness: every shown project with a shown High or Medium warning has a hotspot,
   * for the first shown project of that id.
   */
  lemma HotspotsComplete(shown: seq<Project>, warnings: seq<HsWarning>, w: HsWarning)
    requires w in warnings && WarningShown(IdsOf(shown))(w) && SeverityOf(w) >= 2
    ensures exists h :: h in FoundHotspots(shown, warnings) && Some(h.project.id) == w.projectId
  {
    var ids := IdsOf(shown);
    var pid := w.projectId.value;
    var groups, keys := WarningGroups(ids, warnings), WarningKeys(ids, warnings);
    var k := ShownWarningKeyed(ids, warnings, w);
    WarningKeysGrouped(ids, warnings);
    ShownWarningGrouped(ids, warnings, w);
    var h := HotspotOfShownProject(shown, groups, pid, w);
    CollectedHotspots(shown, groups, keys, h);
  }

  /** The project of a shown warning is one of `Object.keys(projectWarningsMap)`. */
  lemma ShownWarningKeyed(ids: seq<int>, warnings: seq<HsWarning>, w: HsWarning) returns (k: nat)
    requires w in warnings && WarningShown(ids)(w)
    ensures k < |WarningKeys(ids, warnings)| && Some(WarningKeys(ids, warnings)[k]) == w.projectId
  {
    var keep, key := WarningShown(ids), WarningProject;
    var pid := w.projectId.value;
    var i :| 0 <= i < |warnings| && warnings[i] == w;
    KeysOfMembers(warnings, keep, key, pid);
    assert pid in Dedup(KeysOf(warnings, keep, key));
    var keys := WarningKeys(ids, warnings);
    assert pid in multiset(keys);
    k :| 0 <= k < |keys| && keys[k] == pid;
  }

  /** A shown warning is in its project's group. */
  lemma ShownWarningGrouped(ids: seq<int>, warnings: seq<HsWarning>, w: HsWarning)
    requires w in warnings && WarningShown(ids)(w)
    ensures var groups := WarningGroups(ids, warnings);
      w.projectId.value in groups && w in groups[w.projectId.value]
  {
    var keep, key := WarningShown(ids), WarningProject;
    var pid := w.projectId.value;
    var i :| 0 <= i < |warnings| && warnings[i] == w;
    KeysOfMembers(warnings, keep, key, pid);
    ListGroupsHold(warnings, keep, key, pid);
    ValuesWithKeyMembers(warnings, keep, key, Same, pid, w);
  }

  /** A shown project whose group holds a High or Medium warning gets a hotspot. */
  lemma HotspotOfShownProject(shown: seq<Project>, groups: map<int, seq<HsWarning>>, pid: int, w: HsWarning)
    returns (h: Hotspot)
    requires pid in IdsOf(shown) && pid in groups && w in groups[pid] && SeverityOf(w) >= 2
    ensures HotspotFor(shown, groups, pid) == Some(h) && h.project.id == pid
  {
    IdsOfMembers(shown, pid);
    var p :| p in shown && p.id == pid;
    var j :| 0 <= j < |shown| && shown[j] == p;
    assert HasId(Some(pid))(shown[j]);
    h := HotspotFor(shown, groups, pid).value;
  }

  /** No hotspot is found iff no shown warning is High or Medium. */
  lemma NoHotspotsFound(shown: seq<Project>, warnings: seq<HsWarning>)
    ensures FoundHotspots(shown, warnings) == [] <==>
      forall w :: w in warnings && WarningShown(IdsOf(shown))(w) ==> SeverityOf(w) < 2
  {
    if exists w :: w in warnings && WarningShown(IdsOf(shown))(w) && SeverityOf(w) >= 2 {
      var w :| w in warnings && WarningShown(IdsOf(shown))(w) && SeverityOf(w) >= 2;
      HotspotsComplete(shown, warnings, w);
    }
    if FoundHotspots(shown, warnings) != [] {
      var top := FoundHotspotWarning(shown, warnings, FoundHotspots(shown, warnings)[0]);
    }
  }

  /** Soundness, in the same terms: a hotspot comes from a shown High or Medium warning of its project. */
  lemma FoundHotspotWarning(shown: seq<Project>, warnings: seq<HsWarning>, h: Hotspot) returns (top: HsWarning)
    requires h in FoundHotspots(shown, warnings)
    ensures top in warnings && WarningShown(IdsOf(shown))(top) && SeverityOf(top) >= 2
    ensures top.projectId == Some(h.project.id)
  {
    FoundHotspotMeaning(shown, warnings, h);
    FoundHotspotsValid(shown, warnings);
    var ws := ValuesWithKey(warnings, WarningShown(IdsOf(shown)), WarningProject, Same, h.project.id);
    top := HighestSeverity(ws);
    IdsOfMembers(shown, h.project.id);
  }

  /** The hotspot panel: nothing loaded, no High or Medium hotspot, or up to 5 cards, highest first. */
  function Hotspots(shown: seq<Project>, warnings: seq<HsWarning>): (r: HotspotsView)
    ensures r.NoWarningsLoaded? <==> warnings == []
    ensures r.NoHotspots? <==>
      && warnings != []
      && forall w :: w in warnings && WarningShown(IdsOf(shown))(w) ==> SeverityOf(w) < 2
    ensures r.HotspotCards? ==> 0 < |r.cards| <= 5 && SortedDesc(r.cards, HotspotWeight)
    ensures r.HotspotCards? ==> forall h :: h in r.cards ==> ValidHotspot(shown, h)
  {
    if warnings == [] then NoWarningsLoaded
    else
      var cards := RankHotspots(FoundHotspots(shown, warnings));
      FoundHotspotsValid(shown, warnings);
      NoHotspotsFound(shown, warnings);
      if cards == [] then NoHotspots else HotspotCards(cards)
  }

  /**
   * What a card says: its project is a shown project with at least one shown warning,
   * its severity is that of the project's first highest warning, and its types are the
   * distinct non-empty types of the project's warnings.
   */
  lemma HotspotCardMeaning(shown: seq<Project>, warnings: seq<HsWarning>, h: Hotspot)
    requires Hotspots(shown, warnings).HotspotCards? && h in Hotspots(shown, warnings).cards
    ensures var ws := ValuesWithKey(warnings, WarningShown(IdsOf(shown)), WarningProject, Same, h.project.id);
      && ws != []
      && h.highestSeverity == HighestSeverity(ws).severity
      && h.warningTypes == WarningTypesOf(ws)
      && forall w :: w in ws <==> w in warnings && w.projectId == Some(h.project.id)
  {
    assert h in FoundHotspots(shown, warnings);
    FoundHotspotMeaning(shown, warnings, h);
  }

  /** The same for every hotspot found, before ranking. */
  lemma FoundHotspotMeaning(shown: seq<Project>, warnings: seq<HsWarning>, h: Hotspot)
    requires h in FoundHotspots(shown, warnings)
    ensures var ws := ValuesWithKey(warnings, WarningShown(IdsOf(shown)), WarningProject, Same, h.project.id);
      && ws != []
      && h.highestSeverity == HighestSeverity(ws).severity
      && h.warningTypes == WarningTypesOf(ws)
      && forall w :: w in ws <==> w in warnings && w.projectId == Some(h.project.id)
  {
    var ids := IdsOf(shown);
    var groups, keys := WarningGroups(ids, warnings), WarningKeys(ids, warnings);
    WarningKeysGrouped(ids, warnings);
    CollectedHotspots(shown, groups, keys, h);
    var i :| 0 <= i < |keys| && HotspotFor(shown, groups, keys[i]) == Some(h);
    IdsOfMembers(shown, h.project.id);
    ShownWarningsOf(ids, warnings, h.project.id);
  }

  /** The warnings grouped under a shown project are exactly its warnings. */
  lemma ShownWarningsOf(ids: seq<int>, warnings: seq<HsWarning>, pid: int)
    requires pid in ids
    ensures forall w :: w in ValuesWithKey(warnings, WarningShown(ids), WarningProject, Same, pid) <==>
      w in warnings && w.projectId == Some(pid)
  {
    var keep, key := WarningShown(ids), WarningProject;
    forall w ensures w in ValuesWithKey(warnings, keep, key, Same, pid) <==> w in warnings && w.projectId == Some(pid) {
      ValuesWithKeyMembers(warnings, keep, key, Same, pid, w);
      if w in warnings && w.projectId == Some(pid) {
        var j :| 0 <= j < |warnings| && warnings[j] == w;
        assert keep(warnings[j]) && key(warnings[j]) == pid;
      }
    }
  }

  /** Ranking is stable: hotspots of equal severity keep the order of `Object.keys`. */
  lemma HotspotsKeepOrder(shown: seq<Project>, warnings: seq<HsWarning>, n: int)
    requires Hotspots(shown, warnings).HotspotCards?
    ensures Filter(KeyIs(HotspotWeight, n), Hotspots(shown, warnings).cards)
         <= Filter(KeyIs(HotspotWeight, n), FoundHotspots(shown, warnings))
  {
    var found := FoundHotspots(shown, warnings);
    var sorted := StableSortDesc(found, HotspotWeight);
    var cards := Hotspots(shown, warnings).cards;
    assert cards == sorted[..|cards|];
    FilterOfPrefix(KeyIs(HotspotWeight, n), sorted, |cards|);
    SortKeepsKeyClasses(found, HotspotWeight, n);
  }

  /** The panel as rendered: the warnings loop fills `projectWarningsMap`, then the entries are ranked. */
  method RenderHotspots(filtered: Option<seq<Project>>, projects: seq<Project>, warnings: seq<HsWarning>)
    returns (v: HotspotsView)
    ensures v == Hotspots(ProjectsToShow(filtered, projects), warnings)
  {
    if warnings == [] {
      return NoWarningsLoaded;
    }
    var shown := ProjectsToShow(filtered, projects);
    var ids := IdsOf(shown);
    var groups, created := GroupList(warnings, WarningShown(ids), WarningProject);
    var keys := OwnKeys(created, IntKeyIndex);
    assert groups == WarningGroups(ids, warnings) && keys == WarningKeys(ids, warnings);
    WarningKeysGrouped(ids, warnings);
    var found := CollectHotspots(shown, groups, keys);
    assert found == FoundHotspots(shown, warnings);
    var cards := RankHotspots(found);
    if cards == [] {
      return NoHotspots;
    }
    v := HotspotCards(cards);
  }

  // ---- Severity heatmap ----

  datatype Heatmap = NoHsRecords | SeverityCounts(low: nat, medium: nat, high: nat)

  /** A shown warning whose severity reads, in any letter case, as the level of weight `level`. */
  function ShownAtLevel(ids: seq<int>, level: int): HsWarning -> bool {
    (w: HsWarning) => WarningShown(ids)(w) && HsSeverityWeight(w.severity) == level
  }

  /** The heatmap counts: each shown warning counts once at its level; other severities are not counted. */
  method RenderHeatmap(filtered: Option<seq<Project>>, projects: seq<Project>, warnings: seq<HsWarning>)
    returns (v: Heatmap)
    ensures v.NoHsRecords? <==> warnings == []
    ensures var ids := IdsOf(ProjectsToShow(filtered, projects));
      v.SeverityCounts? ==>
        && v.low == |Filter(ShownAtLevel(ids, 1), warnings)|
        && v.medium == |Filter(ShownAtLevel(ids, 2), warnings)|
        && v.high == |Filter(ShownAtLevel(ids, 3), warnings)|
  {
    var ids := IdsOf(ProjectsToShow(filtered, projects));
    if warnings == [] {
      return NoHsRecords;
    }
    var low, medium, high := 0, 0, 0;
    for i := 0 to |warnings|
      invariant low == |Filter(ShownAtLevel(ids, 1), warnings[..i])|
      invariant medium == |Filter(ShownAtLevel(ids, 2), warnings[..i])|
      invariant high == |Filter(ShownAtLevel(ids, 3), warnings[..i])|
    {
      var w := warnings[i];
      HeatmapStep(ids, warnings, i);
      if w.projectId.Some? && w.projectId.value in ids {
        var sev := ToLower(w.severity);
        if sev == "low" {
          low := low + 1;
        } else if sev == "medium" {
          medium := medium + 1;
        } else if sev == "high" {
          high := high + 1;
        }
      }
    }
    assert warnings[..|warnings|] == warnings;
    v := SeverityCounts(low, medium, high);
  }

  /** One more warning adds one to the cell its lower-cased severity names, if it is shown, and to no other. */
  lemma HeatmapStep(ids: seq<int>, warnings: seq<HsWarning>, i: nat)
    requires i < |warnings|
    ensures var w, hit := warnings[i], WarningShown(ids)(warnings[i]);
      && |Filter(ShownAtLevel(ids, 1), warnings[..i + 1])| == |Filter(ShownAtLevel(ids, 1), warnings[..i])| + (if hit && ToLower(w.severity) == "low" then 1 else 0)
      && |Filter(ShownAtLevel(ids, 2), warnings[..i + 1])| == |Filter(ShownAtLevel(ids, 2), warnings[..i])| + (if hit && ToLower(w.severity) == "medium" then 1 else 0)
      && |Filter(ShownAtLevel(ids, 3), warnings[..i + 1])| == |Filter(ShownAtLevel(ids, 3), warnings[..i])| + (if hit && ToLower(w.severity) == "high" then 1 else 0)
  {
    var ws, w := warnings[..i], warnings[i];
    assert warnings[..i + 1] == ws + [w];
    FilterSnoc(ShownAtLevel(ids, 1), ws, w);
    FilterSnoc(ShownAtLevel(ids, 2), ws, w);
    FilterSnoc(ShownAtLevel(ids, 3), ws, w);
    assert ShownAtLevel(ids, 1)(w) <==> WarningShown(ids)(w) && ToLower(w.severity) == "low";
    assert ShownAtLevel(ids, 2)(w) <==> WarningShown(ids)(w) && ToLower(w.severity) == "medium";
    assert ShownAtLevel(ids, 3)(w) <==> WarningShown(ids)(w) && ToLower(w.severity) == "high";
  }

  /** The three cells never count more than the shown warnings. */
  lemma {:induction false} HeatmapBounded(ids: seq<int>, warnings: seq<HsWarning>)
    ensures |Filter(ShownAtLevel(ids, 1), warnings)| + |Filter(ShownAtLevel(ids, 2), warnings)| +
            |Filter(ShownAtLevel(ids, 3), warnings)| <= |Filter(WarningShown(ids), warnings)|
  {
    if warnings != [] {
      HeatmapBounded(ids, warnings[1..]);
    }
  }
}

=== FILE: projects_view.dfy ===
/**
 * The Projects tab: the filtered project list with the selected card marked, the
 * selected project's detail (H&S badge and summary, the three phase columns, the
 * contractors), and what the card clicks, status buttons and filter changes do to
 * the selection and the stored statuses.
 */
module ProjectsView {
  import opened Wrappers
  import opened Seqs
  import opened Entities
  import opened State
  import ProgrammeView

  // ---- The project list ----

  /** One card of the list: its project, and whether it carries the selected styling. */
  datatype Card = Card(project: Project, selected: bool)

  /** The list panel: the "No projects match this filter." message, or one card per project. */
  datatype ProjectListView = NoMatches | Cards(cards: seq<Card>)

  /** `filtered.forEach(...)` with `isSelected = project.id === selectedProjectId`; `null` matches no id. */
  function ProjectList(filtered: seq<Project>, selected: Option<int>): (r: ProjectListView)
    ensures r.NoMatches? <==> filtered == []
    ensures r.Cards? ==> |r.cards| == |filtered|
  {
    if filtered == [] then NoMatches
    else Cards(seq(|filtered|, i requires 0 <= i < |filtered| => Card(filtered[i], Some(filtered[i].id) == selected)))
  }

  /** No two projects share an id, as the loader guarantees. */
  ghost predicate DistinctIds(ps: seq<Project>) {
    forall i, j :: 0 <= i < j < |ps| ==> ps[i].id != ps[j].id
  }

  /**
   * The list shows the filtered projects in order, or the message when there are none; with
   * nothing selected no card is marked; a card is marked exactly when its project has the
   * selected id, so among distinct ids at most one card is marked.
   */
  lemma ProjectListMarksSelection(filtered: seq<Project>, selected: Option<int>)
    ensures var v := ProjectList(filtered, selected);
      && (v.NoMatches? <==> filtered == [])
      && (v.Cards? ==> |v.cards| == |filtered| && forall i :: 0 <= i < |filtered| ==> v.cards[i].project == filtered[i])
      && (v.Cards? ==> forall c :: c in v.cards ==> (c.selected <==> Some(c.project.id) == selected))
      && (v.Cards? && selected.None? ==> forall c :: c in v.cards ==> !c.selected)
      && (v.Cards? && DistinctIds(filtered) ==>
            forall i, j :: 0 <= i < |v.cards| && 0 <= j < |v.cards| && v.cards[i].selected && v.cards[j].selected ==> i == j)
  {
    var v := ProjectList(filtered, selected);
    if v.Cards? {
      forall c | c in v.cards ensures c.selected <==> Some(c.project.id) == selected {
        var i :| 0 <= i < |v.cards| && v.cards[i] == c;
      }
    }
  }

  /** Some card is marked exactly when a listed project has the selected id. */
  lemma MarkedIffListed(filtered: seq<Project>, selected: Option<int>)
    requires filtered != []
    ensures (exists c :: c in ProjectList(filtered, selected).cards && c.selected) <==>
            (exists p :: p in filtered && Some(p.id) == selected)
  {
    var cards := ProjectList(filtered, selected).cards;
    if exists p :: p in filtered && Some(p.id) == selected {
      var p :| p in filtered && Some(p.id) == selected;
      var i :| 0 <= i < |filtered| && filtered[i] == p;
      assert cards[i] in cards;
    }
    if exists c :: c in cards && c.selected {
      var c :| c in cards && c.selected;
      var i :| 0 <= i < |cards| && cards[i] == c;
      assert filtered[i] in filtered;
    }
  }

  // ---- Filter changes ----

  /**
   * `if (!filtered.find(p => p.id === selectedProjectId)) setSelectedProject(filtered[0]?.id ?? null)`:
   * keep the selection when a filtered project has it, else take the first filtered project, or none.
   */
  function Reselect(filtered: seq<Project>, selected: Option<int>): (r: Option<int>)
    ensures (exists p :: p in filtered && Some(p.id) == selected) ==> r == selected
    ensures (forall p :: p in filtered ==> Some(p.id) != selected) ==>
      r == if filtered == [] then None else Some(filtered[0].id)
  {
    match Find(filtered, HasId(selected))
    case Some(_) => selected
    case None => if filtered == [] then None else Some(filtered[0].id)
  }

  /** After a filter change the selection is one of the filtered projects whenever there is one, and a second change with the same filters changes nothing. */
  lemma ReselectLandsInList(filtered: seq<Project>, selected: Option<int>)
    ensures var r := Reselect(filtered, selected);
      && (filtered != [] ==> exists p :: p in filtered && Some(p.id) == r)
      && (filtered == [] ==> r.None?)
      && Reselect(filtered, r) == r
  {
    var r := Reselect(filtered, selected);
    if filtered != [] {
      if !exists p :: p in filtered && Some(p.id) == selected {
        assert filtered[0] in filtered;
      }
    }
  }

  /** What the tab shows after a handler: the list panel and the project of the detail panel. */
  datatype Screen = Screen(list: ProjectListView, detail: Option<Project>)

  /**
   * The filter handlers as written: `renderProjectList()` runs BEFORE the selection is
   * corrected, so the list is marked with the old selection while the detail shows the new one.
   */
  function FilterChangeAsWritten(projects: seq<Project>, selected: Option<int>, statusFilter: string, siteFilter: string): (r: Screen)
    ensures r.list.Cards? ==> forall c :: c in r.list.cards ==> (c.selected <==> Some(c.project.id) == selected)
    ensures r.detail.Some? ==> r.detail.value in projects
  {
    var filtered := Filter(FiltersPass(statusFilter, siteFilter), projects);
    var next := Reselect(filtered, selected);
    ProjectListMarksSelection(filtered, selected);
    Screen(ProjectList(filtered, selected), Find(projects, HasId(next)))
  }

  /** The filter handlers with the list drawn after the selection is corrected. */
  function FilterChangeScreen(projects: seq<Project>, selected: Option<int>, statusFilter: string, siteFilter: string): Screen {
    var filtered := Filter(FiltersPass(statusFilter, siteFilter), projects);
    var next := Reselect(filtered, selected);
    Screen(ProjectList(filtered, next), Find(projects, HasId(next)))
  }

  function SampleProject(id: int, status: string): Project {
    Project(id, "", "", "", "", "", status, "", "", "", "", 0, 0, 0, 0, "", "", [])
  }

  /**
   * Two projects, the first selected; filtering on the second one's status shows the
   * second in the detail panel while its card, the only one listed, is not marked.
   */
  lemma StaleHighlightAsWritten()
    ensures var a, b := SampleProject(1, "Active"), SampleProject(2, "Complete");
      var s := FilterChangeAsWritten([a, b], Some(1), "Complete", "all");
      s.detail == Some(b) && s.list == Cards([Card(b, false)])
  {
    var a, b := SampleProject(1, "Active"), SampleProject(2, "Complete");
    var pass := FiltersPass("Complete", "all");
    assert [a, b][1..] == [b];
    assert Filter(pass, [b]) == [b] by {
      assert [b][1..] == [];
    }
    assert Filter(pass, [a, b]) == [b];
    assert Find([b], HasId(Some(1))).None?;
    assert Find([a, b], HasId(Some(2))) == Some(b) by {
      assert !HasId(Some(2))([a, b][0]);
    }
  }

  /**
   * For every input where the filter drops the selected project but leaves some project,
   * the handlers as written show the first filtered project in the detail panel while
   * no card of the list is marked.
   */
  lemma StaleHighlightWhenSelectionDropped(projects: seq<Project>, selected: Option<int>, statusFilter: string, siteFilter: string)
    requires var filtered := Filter(FiltersPass(statusFilter, siteFilter), projects);
      filtered != [] && forall p :: p in filtered ==> Some(p.id) != selected
    ensures var filtered := Filter(FiltersPass(statusFilter, siteFilter), projects);
      var s := FilterChangeAsWritten(projects, selected, statusFilter, siteFilter);
      && s.list.Cards? && (forall c :: c in s.list.cards ==> !c.selected)
      && s.detail.Some? && s.detail.value.id == filtered[0].id
  {
    var filtered := Filter(FiltersPass(statusFilter, siteFilter), projects);
    assert Reselect(filtered, selected) == Some(filtered[0].id);
    NoCardMarked(filtered, selected);
    FirstFilteredFound(FiltersPass(statusFilter, siteFilter), projects);
  }

  /** A list in which no project has the selected id marks no card. */
  lemma NoCardMarked(filtered: seq<Project>, selected: Option<int>)
    requires forall p :: p in filtered ==> Some(p.id) != selected
    ensures ProjectList(filtered, selected).Cards? ==> forall c :: c in ProjectList(filtered, selected).cards ==> !c.selected
  {
    if filtered != [] {
      var cards := ProjectList(filtered, selected).cards;
      forall c | c in cards ensures !c.selected {
        var i :| 0 <= i < |cards| && cards[i] == c;
        assert filtered[i] in filtered;
      }
    }
  }

  /** Looking up the id of the first filtered project finds a project with that id. */
  lemma FirstFilteredFound(pass: Project -> bool, projects: seq<Project>)
    requires Filter(pass, projects) != []
    ensures var id := Filter(pass, projects)[0].id;
      Find(projects, HasId(Some(id))).Some? && Find(projects, HasId(Some(id))).value.id == id
  {
    var first := Filter(pass, projects)[0];
    assert first in multiset(Filter(pass, projects));
    FilterKeeps(pass, projects);
    assert first in multiset(projects);
    var j :| 0 <= j < |projects| && projects[j] == first;
    assert HasId(Some(first.id))(projects[j]);
  }

  /**
   * With the list drawn after the selection is corrected, a non-empty list always has
   * the card of the project in the detail panel marked, and an empty list leaves no project in it.
   */
  lemma FilterChangeKeepsHighlight(projects: seq<Project>, selected: Option<int>, statusFilter: string, siteFilter: string)
    ensures var filtered := Filter(FiltersPass(statusFilter, siteFilter), projects);
      var s := FilterChangeScreen(projects, selected, statusFilter, siteFilter);
      && (s.list.NoMatches? <==> filtered == [])
      && (s.list.NoMatches? ==> s.detail.None?)
      && (s.list.Cards? ==>
            s.detail.Some? && exists c :: c in s.list.cards && c.selected && c.project.id == s.detail.value.id)
  {
    var filtered := Filter(FiltersPass(statusFilter, siteFilter), projects);
    var next := Reselect(filtered, selected);
    var s := FilterChangeScreen(projects, selected, statusFilter, siteFilter);
    if filtered != [] {
      ReselectLandsInList(filtered, selected);
      var p :| p in filtered && Some(p.id) == next;
      assert p in projects;
      assert HasId(next)(p);
      var d := Find(projects, HasId(next));
      assert d.Some?;
      MarkedIffListed(filtered, next);
      var c :| c in s.list.cards && c.selected;
      ProjectListMarksSelection(filtered, next);
      assert Some(c.project.id) == next == Some(d.value.id);
    }
  }

  /** The status and site filter handlers, with the list drawn after the selection is corrected. */
  method OnFilterChange(store: Store, statusFilter: string, siteFilter: string) returns (screen: Screen)
    modifies store
    ensures store.selectedProjectId == Reselect(old(store.GetFilteredProjects(statusFilter, siteFilter)), old(store.selectedProjectId))
    ensures store.projects == old(store.projects) && store.contractors == old(store.contractors)
    ensures store.hsWarnings == old(store.hsWarnings) && store.projectContractorLinks == old(store.projectContractorLinks)
    ensures screen == FilterChangeScreen(store.projects, old(store.selectedProjectId), statusFilter, siteFilter)
  {
    var filtered := store.GetFilteredProjects(statusFilter, siteFilter);
    if Find(filtered, HasId(store.selectedProjectId)).None? {
      store.SetSelectedProject(if filtered == [] then None else Some(filtered[0].id));
    }
    screen := Screen(ProjectList(filtered, store.selectedProjectId), store.GetSelectedProject());
  }

  // ---- Clicks ----

  /** A card's click handler: select its project, then redraw the list. */
  method ClickCard(store: Store, id: int, statusFilter: string, siteFilter: string) returns (list: ProjectListView)
    modifies store
    ensures store.selectedProjectId == Some(id)
    ensures store.projects == old(store.projects) && store.contractors == old(store.contractors)
    ensures store.hsWarnings == old(store.hsWarnings) && store.projectContractorLinks == old(store.projectContractorLinks)
    ensures list == ProjectList(store.GetFilteredProjects(statusFilter, siteFilter), Some(id))
  {
    store.SetSelectedProject(Some(id));
    list := ProjectList(store.GetFilteredProjects(statusFilter, siteFilter), store.selectedProjectId);
  }

  /** The clicked card is the one marked when the list is redrawn, and with distinct ids the only one. */
  lemma ClickedCardMarked(filtered: seq<Project>, i: nat)
    requires i < |filtered|
    ensures var v := ProjectList(filtered, Some(filtered[i].id));
      && v.Cards? && v.cards[i].selected
      && (DistinctIds(filtered) ==> forall j :: 0 <= j < |v.cards| && j != i ==> !v.cards[j].selected)
  {
  }

  /** The first stored index of the selected project: the object `getSelectedProject` returns. */
  function SelectedIndex(store: Store): Option<nat>
    reads store
  {
    FindIndex(store.projects, HasId(store.selectedProjectId))
  }

  /**
   * A task's status button in the detail panel: it cycles that task of the selected
   * project. Every other task, and every other field and project, stays as it was.
   */
  method ClickTaskStatus(store: Store, ti: nat)
    requires SelectedIndex(store).Some? && ti < |store.projects[SelectedIndex(store).value].phaseTasks|
    modifies store
    ensures var pi := old(SelectedIndex(store)).value;
      var before := old(store.projects[pi]);
      && |store.projects| == |old(store.projects)|
      && (forall k :: 0 <= k < |store.projects| && k != pi ==> store.projects[k] == old(store.projects[k]))
      && store.projects[pi].(phaseTasks := before.phaseTasks) == before
      && |store.projects[pi].phaseTasks| == |before.phaseTasks|
      && store.projects[pi].phaseTasks[ti] == before.phaseTasks[ti].(status := NextTaskStatus(before.phaseTasks[ti].status))
      && (forall k :: 0 <= k < |before.phaseTasks| && k != ti ==> store.projects[pi].phaseTasks[k] == before.phaseTasks[k])
    ensures store.selectedProjectId == old(store.selectedProjectId) && store.contractors == old(store.contractors)
    ensures store.hsWarnings == old(store.hsWarnings) && store.projectContractorLinks == old(store.projectContractorLinks)
  {
    var pi := SelectedIndex(store).value;
    store.CycleTaskStatus(pi, ti);
  }

  /**
   * The status pill of the detail panel: it cycles the selected project's status. The same
   * project stays selected and shown, with only its status changed.
   */
  method ClickStatusPill(store: Store)
    requires SelectedIndex(store).Some?
    modifies store
    ensures var before := old(store.GetSelectedProject()).value;
      store.GetSelectedProject() == Some(before.(status := NextProjectStatus(before.status)))
    ensures var pi := old(SelectedIndex(store)).value;
      store.projects == old(store.projects)[pi := old(store.projects[pi]).(status := NextProjectStatus(old(store.projects[pi]).status))]
    ensures store.selectedProjectId == old(store.selectedProjectId) && store.contractors == old(store.contractors)
    ensures store.hsWarnings == old(store.hsWarnings) && store.projectContractorLinks == old(store.projectContractorLinks)
  {
    var pi := SelectedIndex(store).value;
    ghost var before := store.projects;
    store.CycleProjectStatus(pi);
    SameIdsSameIndex(before, store.projects, store.selectedProjectId);
  }

  /** Changing anything but ids leaves the first project with a given id where it was. */
  lemma SameIdsSameIndex(a: seq<Project>, b: seq<Project>, id: Option<int>)
    requires |a| == |b| && forall k :: 0 <= k < |a| ==> a[k].id == b[k].id
    ensures FindIndex(a, HasId(id)) == FindIndex(b, HasId(id))
  {
    var f := HasId(id);
    assert forall k :: 0 <= k < |a| ==> f(a[k]) == f(b[k]);
    var ra, rb := FindIndex(a, f), FindIndex(b, f);
    if ra.Some? && rb.Some? {
      assert !(ra.value < rb.value) && !(rb.value < ra.value);
    }
  }

  // ---- The detail panel ----

  function InPhase(phase: string): Task -> bool {
    (t: Task) => t.phase == phase
  }

  function OtherPhase(t: Task): bool {
    t.phase != "Pre" && t.phase != "During" && t.phase != "Post"
  }

  /** The three task columns, and with them the badge numbers (their lengths). */
  datatype PhaseColumns = PhaseColumns(pre: seq<Task>, during: seq<Task>, post: seq<Task>)

  /** What the columns hold: each phase's tasks, in `phaseTasks` order. */
  function ColumnsOf(tasks: seq<Task>): PhaseColumns {
    PhaseColumns(Filter(InPhase("Pre"), tasks), Filter(InPhase("During"), tasks), Filter(InPhase("Post"), tasks))
  }

  /** `project.phaseTasks.forEach(t => { if (phases[t.phase]) phases[t.phase].push(t); })`. */
  method BucketPhases(tasks: seq<Task>) returns (c: PhaseColumns)
    ensures c == ColumnsOf(tasks)
  {
    var pre, during, post := [], [], [];
    for i := 0 to |tasks|
      invariant pre == Filter(InPhase("Pre"), tasks[..i])
      invariant during == Filter(InPhase("During"), tasks[..i])
      invariant post == Filter(InPhase("Post"), tasks[..i])
    {
      var t := tasks[i];
      assert tasks[..i + 1] == tasks[..i] + [t];
      FilterSnoc(InPhase("Pre"), tasks[..i], t);
      FilterSnoc(InPhase("During"), tasks[..i], t);
      FilterSnoc(InPhase("Post"), tasks[..i], t);
      if t.phase == "Pre" {
        pre := pre + [t];
      } else if t.phase == "During" {
        during := during + [t];
      } else if t.phase == "Post" {
        post := post + [t];
      }
    }
    assert tasks[..|tasks|] == tasks;
    c := PhaseColumns(pre, during, post);
  }

  /**
   * Every task lands in the column of its phase and in no other, tasks of any other
   * phase land nowhere, and the badges with the unplaced tasks add up to `phaseTasks.length`.
   */
  lemma {:induction false} ColumnsPartition(tasks: seq<Task>)
    ensures var c := ColumnsOf(tasks);
      && |c.pre| + |c.during| + |c.post| + |Filter(OtherPhase, tasks)| == |tasks|
      && |c.pre| + |c.during| + |c.post| <= |tasks|
      && (forall t :: t in c.pre <==> t in tasks && t.phase == "Pre")
      && (forall t :: t in c.during <==> t in tasks && t.phase == "During")
      && (forall t :: t in c.post <==> t in tasks && t.phase == "Post")
  {
    if tasks != [] {
      ColumnsPartition(tasks[1..]);
    }
  }

  /** The H&S badge's warning: the first warning of highest severity weight, or none without warnings. */
  function DetailHighestSeverity(ws: seq<HsWarning>): (r: Option<HsWarning>)
    ensures r.None? <==> ws == []
    ensures r.Some? ==> r.value in ws && forall w :: w in ws ==> HsSeverityWeight(w.severity) <= HsSeverityWeight(r.value.severity)
    ensures r.Some? ==>
      exists i :: 0 <= i < |ws| && ws[i] == r.value &&
        forall j :: 0 <= j < i ==> HsSeverityWeight(ws[j].severity) < HsSeverityWeight(r.value.severity)
  {
    if ws == [] then None else Some(ProgrammeView.HighestSeverity(ws))
  }

  /** One line of the H&S summary: a warning type and the location shown beside it. */
  datatype TypeLine = TypeLine(warningType: string, location: string)

  /** The H&S block: the no-warnings message, or the severity badge and up to three type lines. */
  datatype HsSummary = NoWarningsRecorded | WarningSummary(badge: string, lines: seq<TypeLine>)

  function HasType(t: string): HsWarning -> bool {
    (w: HsWarning) => w.warningType == t
  }

  /** `warnings.find(w => w.warningType === wt)?.location || ""`. */
  function FirstLocation(ws: seq<HsWarning>, t: string): string {
    match Find(ws, HasType(t))
    case None => ""
    case Some(w) => w.location
  }

  /** `[...new Set(types)].slice(0, 3)`, each with the location of its first warning. */
  function TypeLines(ws: seq<HsWarning>): seq<TypeLine> {
    var types := Take(ProgrammeView.WarningTypesOf(ws), 3);
    seq(|types|, i requires 0 <= i < |types| => TypeLine(types[i], FirstLocation(ws, types[i])))
  }

  function HsSummaryOf(ws: seq<HsWarning>): (r: HsSummary)
    ensures r.NoWarningsRecorded? <==> ws == []
    ensures r.WarningSummary? ==> r.badge != ""
    ensures r.WarningSummary? && DetailHighestSeverity(ws).value.severity != "" ==> r.badge == DetailHighestSeverity(ws).value.severity
    ensures r.WarningSummary? && DetailHighestSeverity(ws).value.severity == "" ==> r.badge == "N/A"
    ensures r.WarningSummary? ==> r.lines == TypeLines(ws)
  {
    match DetailHighestSeverity(ws)
    case None => NoWarningsRecorded
    case Some(w) => WarningSummary(if w.severity != "" then w.severity else "N/A", TypeLines(ws))
  }

  /**
   * The summary lists at most three warning types, the first distinct non-empty ones in
   * order of first appearance (all of them when there are fewer), each beside the
   * location of the first warning of that type.
   */
  lemma SummaryLines(ws: seq<HsWarning>)
    ensures var lines := TypeLines(ws);
      var types := ProgrammeView.WarningTypesOf(ws);
      && |lines| == (if |types| < 3 then |types| else 3)
      && (forall i :: 0 <= i < |lines| ==> lines[i].warningType == types[i])
      && (forall i, j :: 0 <= i < j < |lines| ==> lines[i].warningType != lines[j].warningType)
      && forall i :: 0 <= i < |lines| ==>
           lines[i].warningType != "" &&
           exists k :: 0 <= k < |ws| && ws[k].warningType == lines[i].warningType &&
             ws[k].location == lines[i].location &&
             forall j :: 0 <= j < k ==> ws[j].warningType != lines[i].warningType
  {
    var lines := TypeLines(ws);
    var types := ProgrammeView.WarningTypesOf(ws);
    var shown := Take(types, 3);
    assert forall i :: 0 <= i < |shown| ==> shown[i] == types[i];
    forall i | 0 <= i < |lines|
      ensures lines[i].warningType != "" &&
        exists k :: 0 <= k < |ws| && ws[k].warningType == lines[i].warningType &&
          ws[k].location == lines[i].location &&
          forall j :: 0 <= j < k ==> ws[j].warningType != lines[i].warningType
    {
      var t := types[i];
      assert t in types;
      var f := HasType(t);
      var k := FindIndex(ws, f).value;
      assert ws[k].warningType == t;
    }
  }

  /** `pc.name || pc.company || "Contractor"`. */
  function ContractorLabel(e: ContractorEntry): (r: string)
    ensures r != ""
    ensures e.name != "" ==> r == e.name
    ensures e.name == "" && e.company != "" ==> r == e.company
    ensures e.name == "" && e.company == "" ==> r == "Contractor"
  {
    if e.name != "" then e.name else if e.company != "" then e.company else "Contractor"
  }

  /** The detail panel: the empty state, or the selected project with its H&S block, columns and contractor names. */
  datatype Detail =
    | NoProjectSelected
    | ProjectDetail(project: Project, hs: HsSummary, columns: PhaseColumns, contractors: seq<string>)

  function ContractorLabels(es: seq<ContractorEntry>): (r: seq<string>)
    ensures |r| == |es| && forall i :: 0 <= i < |es| ==> r[i] == ContractorLabel(es[i])
  {
    seq(|es|, i requires 0 <= i < |es| => ContractorLabel(es[i]))
  }

  /** What `renderSelectedProject` shows for the current state. */
  function DetailOf(store: Store): Detail
    reads store
  {
    match store.GetSelectedProject()
    case None => NoProjectSelected
    case Some(p) =>
      ProjectDetail(p, HsSummaryOf(store.GetWarningsForProject(p.id)), ColumnsOf(p.phaseTasks),
        ContractorLabels(store.GetContractorsForProject(p.id)))
  }

  /** `renderSelectedProject`: the detail of the first project with the selected id, its columns filled by the bucketing loop. */
  method RenderSelectedProject(store: Store) returns (d: Detail)
    ensures d == DetailOf(store)
    ensures d.NoProjectSelected? <==> forall p :: p in store.projects ==> Some(p.id) != store.selectedProjectId
    ensures d.ProjectDetail? ==> Some(d.project.id) == store.selectedProjectId && d.project in store.projects
  {
    var selected := store.GetSelectedProject();
    if selected.None? {
      return NoProjectSelected;
    }
    var p := selected.value;
    var columns := BucketPhases(p.phaseTasks);
    var ws := store.GetWarningsForProject(p.id);
    d := ProjectDetail(p, HsSummaryOf(ws), columns, ContractorLabels(store.GetContractorsForProject(p.id)));
  }
}

=== FILE: seqs.dfy ===
/**
 * The array operations the dashboard relies on, as functions over sequences:
 * `filter`, `find`/`findIndex`, `reduce` to the first maximum, `slice(0, n)`,
 * a stable descending `sort`, the first-appearance order of a `Set`, and tallies.
 */
module Seqs {
  import opened Wrappers

  /** `r` is `s` with some elements left out and the rest kept in order. */
  ghost predicate SubseqOf<T(!new)>(r: seq<T>, s: seq<T>)
    decreases |s|
  {
    if r == [] then true
    else if s == [] then false
    else (r[0] == s[0] && SubseqOf(r[1..], s[1..])) || SubseqOf(r, s[1..])
  }

  lemma {:induction false} SubseqOfSelf<T(!new)>(s: seq<T>)
    ensures SubseqOf(s, s)
  {
    if s != [] {
      SubseqOfSelf(s[1..]);
    }
  }

  /** The prefixes a loop over `b` sees, appended to what came before it. */
  lemma WholePrefix<T>(a: seq<T>, b: seq<T>)
    ensures a + b[..0] == a && a + b[..|b|] == a + b && b[..|b|] == b
  {
  }

  lemma PrefixSnoc<T>(a: seq<T>, b: seq<T>, j: nat)
    requires j < |b|
    ensures a + b[..j + 1] == (a + b[..j]) + [b[j]]
  {
    assert b[..j + 1] == b[..j] + [b[j]];
  }

  predicate Distinct<T(==,!new)>(s: seq<T>) {
    forall i, j :: 0 <= i < j < |s| ==> s[i] != s[j]
  }

  /** A rearrangement of a sequence without repeats has no repeats either. */
  lemma DistinctByMultiset<T(!new)>(s: seq<T>, r: seq<T>)
    requires Distinct(s) && multiset(r) == multiset(s)
    ensures Distinct(r)
  {
    forall i, j | 0 <= i < j < |r| ensures r[i] != r[j] {
      if r[i] == r[j] {
        assert r == r[..i] + [r[i]] + r[i + 1..j] + [r[j]] + r[j + 1..];
        assert multiset(r)[r[i]] >= 2;
        DistinctCountsOne(s, r[i]);
      }
    }
  }

  lemma {:induction false} DistinctCountsOne<T(!new)>(s: seq<T>, x: T)
    requires Distinct(s)
    ensures multiset(s)[x] <= 1
  {
    if s != [] {
      assert s == [s[0]] + s[1..];
      assert Distinct(s[1..]);
      DistinctCountsOne(s[1..], x);
      if s[0] == x {
        assert x !in s[1..];
      }
    }
  }

  /** `Array.prototype.filter`: every element satisfying `f`, as often as it occurs, in order. */
  function Filter<T(!new)>(f: T -> bool, s: seq<T>): (r: seq<T>)
    ensures |r| <= |s|
    ensures forall x :: x in r <==> x in s && f(x)
  {
    if s == [] then []
    else
      var rest := Filter(f, s[1..]);
      if f(s[0]) then [s[0]] + rest else rest
  }

  /** What a filter returns is a subsequence of its input holding each passing element as often as the input does. */
  lemma {:induction false} FilterKeeps<T(!new)>(f: T -> bool, s: seq<T>)
    ensures SubseqOf(Filter(f, s), s)
    ensures forall x :: multiset(Filter(f, s))[x] == if f(x) then multiset(s)[x] else 0
  {
    if s != [] {
      assert s == [s[0]] + s[1..];
      FilterKeeps(f, s[1..]);
      var rest := Filter(f, s[1..]);
      if f(s[0]) {
        assert ([s[0]] + rest)[1..] == rest;
      }
    }
  }

  /** Filtering one more element at the end: the step of a `forEach` loop that pushes matches. */
  lemma {:induction false} FilterSnoc<T(!new)>(f: T -> bool, s: seq<T>, x: T)
    ensures Filter(f, s + [x]) == Filter(f, s) + (if f(x) then [x] else [])
  {
    if s == [] {
      assert s + [x] == [x];
      assert [x][1..] == [];
    } else {
      var sx := s + [x];
      assert sx[0] == s[0] && sx[1..] == s[1..] + [x];
      FilterSnoc(f, s[1..], x);
      var head := if f(s[0]) then [s[0]] else [];
      calc {
        Filter(f, sx);
        head + Filter(f, s[1..] + [x]);
        head + (Filter(f, s[1..]) + (if f(x) then [x] else []));
        (head + Filter(f, s[1..])) + (if f(x) then [x] else []);
      }
    }
  }

  lemma {:induction false} FilterAppend<T(!new)>(f: T -> bool, a: seq<T>, b: seq<T>)
    ensures Filter(f, a + b) == Filter(f, a) + Filter(f, b)
  {
    if a == [] {
      assert a + b == b;
    } else {
      assert (a + b)[1..] == a[1..] + b;
      FilterAppend(f, a[1..], b);
    }
  }

  /** A filter that every element passes returns the sequence unchanged. */
  lemma {:induction false} FilterAllPass<T(!new)>(f: T -> bool, s: seq<T>)
    requires forall x :: x in s ==> f(x)
    ensures Filter(f, s) == s
  {
    if s != [] {
      FilterAllPass(f, s[1..]);
    }
  }

  /** Two filters that agree on the elements of `s` select the same elements. */
  lemma {:induction false} FilterCongruent<T(!new)>(f: T -> bool, g: T -> bool, s: seq<T>)
    requires forall x :: x in s ==> f(x) == g(x)
    ensures Filter(f, s) == Filter(g, s)
  {
    if s != [] {
      FilterCongruent(f, g, s[1..]);
    }
  }

  /** What a filter keeps of a prefix is a prefix of what it keeps of the whole. */
  lemma {:induction false} FilterOfPrefix<T(!new)>(f: T -> bool, s: seq<T>, n: nat)
    requires n <= |s|
    ensures Filter(f, s[..n]) <= Filter(f, s)
  {
    assert s == s[..n] + s[n..];
    FilterAppend(f, s[..n], s[n..]);
  }

  /** `Array.prototype.findIndex`, with -1 as `None`. */
  function FindIndex<T(!new)>(s: seq<T>, f: T -> bool): (r: Option<nat>)
    ensures r.Some? ==> r.value < |s| && f(s[r.value]) && forall j :: 0 <= j < r.value ==> !f(s[j])
    ensures r.None? ==> forall j :: 0 <= j < |s| ==> !f(s[j])
  {
    if s == [] then None
    else if f(s[0]) then Some(0)
    else match FindIndex(s[1..], f)
      case None => None
      case Some(i) => Some(i + 1)
  }

  /** `Array.prototype.find`, with `undefined` as `None`. */
  function Find<T(!new)>(s: seq<T>, f: T -> bool): (r: Option<T>)
    ensures r.Some? <==> exists j :: 0 <= j < |s| && f(s[j])
    ensures r.Some? ==> r.value in s && f(r.value)
  {
    match FindIndex(s, f)
    case None => None
    case Some(i) => Some(s[i])
  }

  /**
   * The index of the element `s.reduce((best, x) => w(x) > w(best) ? x : best, s[0])`
   * holds after its first `n` steps: strict `>` keeps the earliest maximum.
   */
  function ReduceMaxIndex<T(!new)>(s: seq<T>, w: T -> int, n: nat): (r: nat)
    requires 0 < |s| && n <= |s|
    ensures r < |s| && (n == 0 ==> r == 0) && (0 < n ==> r < n)
    ensures forall j :: 0 <= j < n ==> w(s[j]) <= w(s[r])
    ensures forall j :: 0 <= j < r ==> w(s[j]) < w(s[r])
  {
    if n == 0 then 0
    else
      var best := ReduceMaxIndex(s, w, n - 1);
      if w(s[n - 1]) > w(s[best]) then n - 1 else best
  }

  /** `s.slice(0, n)`. */
  function Take<T(!new)>(s: seq<T>, n: nat): (r: seq<T>)
    ensures |r| == if |s| < n then |s| else n
    ensures r <= s
  {
    if |s| <= n then s else s[..n]
  }

  /** The elements of `s` in order of first appearance: `[...new Set(s)]`, or the keys of a `Map` filled from `s`. */
  function Dedup<T(==,!new)>(s: seq<T>): (r: seq<T>)
    ensures Distinct(r)
    ensures forall x :: x in r <==> x in s
    ensures |r| <= |s|
  {
    if s == [] then []
    else
      var front := s[..|s| - 1];
      var last := s[|s| - 1];
      assert s == front + [last];
      var d := Dedup(front);
      if last in d then d else d + [last]
  }

  /**
   * `Dedup` keeps each value at its first appearance: of two kept values, the earlier
   * one is already present in every prefix of `s` that holds the later one.
   */
  lemma {:induction false} DedupFirstOrder<T(!new)>(s: seq<T>)
    ensures forall i, j, n :: 0 <= i < j < |Dedup(s)| && 0 <= n <= |s| && Dedup(s)[j] in s[..n] ==> Dedup(s)[i] in s[..n]
  {
    if s != [] {
      var front, last := s[..|s| - 1], s[|s| - 1];
      DedupFirstOrder(front);
      var d, r := Dedup(front), Dedup(s);
      assert r == if last in d then d else d + [last];
      forall i, j, n | 0 <= i < j < |r| && 0 <= n <= |s| && r[j] in s[..n]
        ensures r[i] in s[..n]
      {
        if n == |s| {
          assert s[..n] == s && r[i] in r;
        } else {
          assert s[..n] == front[..n];
          assert r[j] in front by {
            assert front[..n] <= front;
          }
          assert j < |d| && r[i] == d[i] && r[j] == d[j];
        }
      }
    }
  }

  /** The same first-appearance order through a filter: `[...new Set(s.filter(f))]`. */
  lemma DedupFilterFirstOrder<T(!new)>(f: T -> bool, s: seq<T>)
    ensures forall i, j, n :: 0 <= i < j < |Dedup(Filter(f, s))| && 0 <= n <= |s| && Dedup(Filter(f, s))[j] in s[..n] ==>
      Dedup(Filter(f, s))[i] in s[..n]
  {
    var fs := Filter(f, s);
    var r := Dedup(fs);
    DedupFirstOrder(fs);
    forall i, j, n | 0 <= i < j < |r| && 0 <= n <= |s| && r[j] in s[..n]
      ensures r[i] in s[..n]
    {
      var p := Filter(f, s[..n]);
      FilterOfPrefix(f, s, n);
      assert r[j] in p && p == fs[..|p|];
    }
  }

  ghost predicate SortedDesc<T(!new)>(s: seq<T>, key: T -> int) {
    forall i, j :: 0 <= i < j < |s| ==> key(s[i]) >= key(s[j])
  }

  /** Puts `x` in front of the first element whose key is not greater than its own. */
  function InsertDesc<T(!new)>(x: T, s: seq<T>, key: T -> int): (r: seq<T>)
    ensures |r| == |s| + 1
    ensures multiset(r) == multiset(s) + multiset{x}
  {
    if s == [] || key(s[0]) <= key(x) then [x] + s
    else
      assert s == [s[0]] + s[1..];
      [s[0]] + InsertDesc(x, s[1..], key)
  }

  /** Inserting into a sorted sequence keeps it sorted. */
  lemma {:induction false} InsertSorted<T(!new)>(x: T, s: seq<T>, key: T -> int)
    requires SortedDesc(s, key)
    ensures SortedDesc(InsertDesc(x, s, key), key)
  {
    if s != [] && key(s[0]) > key(x) {
      var tail := InsertDesc(x, s[1..], key);
      InsertSorted(x, s[1..], key);
      InsertBounded(x, s, key, tail);
    }
  }

  lemma InsertBounded<T(!new)>(x: T, s: seq<T>, key: T -> int, tail: seq<T>)
    requires s != [] && key(x) < key(s[0])
    requires SortedDesc(s, key) && multiset(tail) == multiset(s[1..]) + multiset{x}
    ensures forall y :: y in tail ==> key(y) <= key(s[0])
  {
    forall y | y in tail ensures key(y) <= key(s[0]) {
      assert y in multiset(tail);
      if y != x {
        assert y in multiset(s[1..]);
        var j :| 0 <= j < |s[1..]| && s[1..][j] == y;
        assert s[j + 1] == y;
      }
    }
  }

  /**
   * `[...s].sort((a, b) => key(b) - key(a))`: highest key first. The sort is stable
   * (ECMA-262 requires it since the 2019 edition); see `SortKeepsKeyClasses`.
   */
  function StableSortDesc<T(!new)>(s: seq<T>, key: T -> int): (r: seq<T>)
    ensures |r| == |s| && multiset(r) == multiset(s)
    ensures SortedDesc(r, key)
  {
    if s == [] then []
    else
      assert s == [s[0]] + s[1..];
      var rest := StableSortDesc(s[1..], key);
      InsertSorted(s[0], rest, key);
      InsertDesc(s[0], rest, key)
  }

  /**
   * `sorted.slice(0, n)` of a list sorted highest first: sorted itself, part of the list,
   * and nothing left out has a higher key than anything taken.
   */
  lemma TakeOfSorted<T(!new)>(sorted: seq<T>, key: T -> int, n: nat)
    requires SortedDesc(sorted, key)
    ensures var r := Take(sorted, n);
      && SortedDesc(r, key)
      && multiset(r) <= multiset(sorted)
      && forall p, c :: c in r && multiset(r)[p] < multiset(sorted)[p] ==> key(p) <= key(c)
  {
    var r := Take(sorted, n);
    var m := |r|;
    assert r == sorted[..m];
    assert multiset(sorted) == multiset(r) + multiset(sorted[m..]) by {
      assert sorted == r + sorted[m..];
    }
    forall p, c | c in r && multiset(r)[p] < multiset(sorted)[p]
      ensures key(p) <= key(c)
    {
      RestNoHigher(sorted, key, m, p, c);
    }
  }

  /** In a list sorted highest first, nothing after the first `n` has a higher key than anything before. */
  lemma RestNoHigher<T(!new)>(sorted: seq<T>, key: T -> int, n: nat, p: T, c: T)
    requires n <= |sorted| && SortedDesc(sorted, key)
    requires c in sorted[..n] && p in multiset(sorted[n..])
    ensures key(p) <= key(c)
  {
    var j :| 0 <= j < |sorted[n..]| && sorted[n..][j] == p;
    var i :| 0 <= i < n && sorted[..n][i] == c;
    assert sorted[i] == c && sorted[n + j] == p;
  }

  function KeyIs<T(!new)>(key: T -> int, k: int): T -> bool {
    x => key(x) == k
  }

  lemma {:induction false} InsertKeyClass<T(!new)>(x: T, s: seq<T>, key: T -> int, k: int)
    ensures Filter(KeyIs(key, k), InsertDesc(x, s, key))
         == (if key(x) == k then [x] else []) + Filter(KeyIs(key, k), s)
  {
    var f := KeyIs(key, k);
    if s == [] || key(s[0]) <= key(x) {
      assert ([x] + s)[1..] == s;
    } else {
      var tail := InsertDesc(x, s[1..], key);
      assert ([s[0]] + tail)[1..] == tail;
      InsertKeyClass(x, s[1..], key, k);
    }
  }

  /** Stability: for every key, the elements with that key keep their input order. */
  lemma {:induction false} SortKeepsKeyClasses<T(!new)>(s: seq<T>, key: T -> int, k: int)
    ensures Filter(KeyIs(key, k), StableSortDesc(s, key)) == Filter(KeyIs(key, k), s)
  {
    if s != [] {
      SortKeepsKeyClasses(s[1..], key, k);
      InsertKeyClass(s[0], StableSortDesc(s[1..], key), key, k);
    }
  }

  function Sum(s: seq<int>): int {
    if s == [] then 0 else s[0] + Sum(s[1..])
  }

  /** How often each label occurs among `keys`: the values of a `counts[key]++` object. */
  function Tally<T(==,!new)>(labels: seq<T>, keys: seq<T>): (r: seq<nat>)
    ensures |r| == |labels|
    ensures forall i :: 0 <= i < |labels| ==> r[i] == multiset(keys)[labels[i]]
  {
    if labels == [] then [] else [multiset(keys)[labels[0]]] + Tally(labels[1..], keys)
  }

  lemma {:induction false} TallySnoc<T(!new)>(labels: seq<T>, keys: seq<T>, x: T)
    requires Distinct(labels)
    ensures Sum(Tally(labels, keys + [x])) == Sum(Tally(labels, keys)) + (if x in labels then 1 else 0)
  {
    if labels != [] {
      assert multiset(keys + [x]) == multiset(keys) + multiset{x};
      TallySnoc(labels[1..], keys, x);
      assert x in labels <==> x == labels[0] || x in labels[1..];
    }
  }

  /** Distinct labels that cover every key count each key exactly once. */
  lemma {:induction false} TallySum<T(!new)>(labels: seq<T>, keys: seq<T>)
    requires Distinct(labels)
    requires forall x :: x in keys ==> x in labels
    ensures Sum(Tally(labels, keys)) == |keys|
  {
    if keys == [] {
      TallyOfNothing(labels);
    } else {
      var front := keys[..|keys| - 1];
      assert keys == front + [keys[|keys| - 1]];
      TallySum(labels, front);
      TallySnoc(labels, front, keys[|keys| - 1]);
    }
  }

  lemma {:induction false} TallyOfNothing<T(!new)>(labels: seq<T>)
    ensures Sum(Tally(labels, [])) == 0
  {
    if labels != [] {
      TallyOfNothing(labels[1..]);
    }
  }
}

=== FILE: state.dfy ===
/**
 * The dashboard's global store: the loaded projects, contractors, H&S warnings and
 * project-contractor links, the selected project, the queries over them and the two
 * three-state status cycles.
 */
module State {
  import opened Wrappers
  import opened Text
  import opened Seqs
  import opened Entities

  // ---- Severity and risk scales ----

  /**
   * The shared scale of `riskWeight` and `hsSeverityWeight`: the lower-cased text
   * "high", "medium" and "low" weigh 3, 2 and 1, anything else (missing included) 0.
   */
  function LevelWeight(s: string): (r: nat)
    ensures r <= 3
    ensures r == 3 <==> ToLower(s) == "high"
    ensures r == 2 <==> ToLower(s) == "medium"
    ensures r == 1 <==> ToLower(s) == "low"
    ensures r == 0 <==> ToLower(s) !in {"high", "medium", "low"}
  {
    var l := ToLower(s);
    if l == "high" then 3 else if l == "medium" then 2 else if l == "low" then 1 else 0
  }

  function RiskWeight(rating: string): nat {
    LevelWeight(rating)
  }

  function HsSeverityWeight(severity: string): nat {
    LevelWeight(severity)
  }

  predicate IsEither(c: char, lower: char, upper: char) {
    c == lower || c == upper
  }

  /** Case-insensitivity: a weight of 3 is given to exactly the 16 spellings of "high" in any letter case. */
  lemma HighInAnyCase(s: string)
    ensures LevelWeight(s) == 3 <==>
      |s| == 4 && IsEither(s[0], 'h', 'H') && IsEither(s[1], 'i', 'I') &&
      IsEither(s[2], 'g', 'G') && IsEither(s[3], 'h', 'H')
  {
    if |s| == 4 && IsEither(s[0], 'h', 'H') && IsEither(s[1], 'i', 'I') && IsEither(s[2], 'g', 'G') && IsEither(s[3], 'h', 'H') {
      assert ToLower(s) == "high";
    }
    if LevelWeight(s) == 3 {
      var l := ToLower(s);
      assert l[0] == 'h' && l[1] == 'i' && l[2] == 'g' && l[3] == 'h';
    }
  }

  // ---- Status cycles ----

  /** `order.indexOf(s)`. */
  function IndexOf(order: seq<string>, s: string): (r: int)
    ensures -1 <= r < |order|
    ensures r == -1 <==> s !in order
    ensures 0 <= r ==> order[r] == s && forall j :: 0 <= j < r ==> order[j] != s
  {
    if order == [] then -1
    else if order[0] == s then 0
    else
      var i := IndexOf(order[1..], s);
      if i == -1 then -1 else i + 1
  }

  /**
   * One click on a status: `order[(idx + 1) % order.length]` with `idx` the first
   * position of `s`, an unknown value counting as position 0.
   */
  function Advance(order: seq<string>, s: string): (r: string)
    requires |order| > 0
    ensures r in order
  {
    var idx := IndexOf(order, s);
    var next := (if idx == -1 then 0 else idx) + 1;
    // `next` is at most `|order|`, so `next % |order|` wraps only at the end.
    if next == |order| then order[0] else order[next]
  }

  /** Over distinct values a click moves one place forward, and from the last value back to the first. */
  lemma {:induction false} AdvanceAt(order: seq<string>, j: nat)
    requires Distinct(order) && j < |order|
    ensures j + 1 < |order| ==> Advance(order, order[j]) == order[j + 1]
    ensures j + 1 == |order| ==> Advance(order, order[j]) == order[0]
  {
    var idx := IndexOf(order, order[j]);
    assert idx == j;
  }

  /** `k` applications of `step` in a row. */
  function Iterate(step: string -> string, s: string, k: nat): string {
    if k == 0 then s else step(Iterate(step, s, k - 1))
  }

  /** `step` moves each value of `order` to the next one, and the last back to the first. */
  ghost predicate CyclesThrough(step: string -> string, order: seq<string>) {
    && (forall j :: 0 <= j < |order| - 1 ==> step(order[j]) == order[j + 1])
    && (|order| > 0 ==> step(order[|order| - 1]) == order[0])
  }

  lemma {:induction false} IterateAdd(step: string -> string, s: string, a: nat, b: nat)
    ensures Iterate(step, s, a + b) == Iterate(step, Iterate(step, s, a), b)
  {
    if b > 0 {
      IterateAdd(step, s, a, b - 1);
    }
  }

  /** Steps that do not pass the end move forward one place each. */
  lemma {:induction false} IterateForward(step: string -> string, order: seq<string>, i: nat, k: nat)
    requires CyclesThrough(step, order) && i + k < |order|
    ensures Iterate(step, order[i], k) == order[i + k]
  {
    if k > 0 {
      IterateForward(step, order, i, k - 1);
    }
  }

  /** Going once round a cycle returns to the start, whatever the start. */
  lemma {:induction false} CycleReturns(step: string -> string, order: seq<string>, i: nat)
    requires CyclesThrough(step, order) && i < |order|
    ensures Iterate(step, order[i], |order|) == order[i]
  {
    var n := |order|;
    var m := n - 1 - i;
    IterateForward(step, order, i, m);
    IterateAdd(step, order[i], m, 1 + i);
    assert m + (1 + i) == n;
    IterateAdd(step, order[n - 1], 1, i);
    IterateForward(step, order, 0, i);
  }

  /** One click on a status of `order`; an empty order leaves every value as it is. */
  function Click(order: seq<string>): string -> string {
    s => if order == [] then s else Advance(order, s)
  }

  /** Over distinct values the status click is such a cycle. */
  lemma ClickCycles(order: seq<string>)
    requires Distinct(order)
    ensures CyclesThrough(Click(order), order)
  {
    forall j | 0 <= j < |order| ensures Click(order)(order[j]) == if j + 1 < |order| then order[j + 1] else order[0] {
      AdvanceAt(order, j);
    }
  }

  const TaskOrder: seq<string> := ["Not Started", "In Progress", "Done"]
  const ProjectOrder: seq<string> := ["Planned", "In Progress", "Completed"]

  /** `cycleTaskStatus`'s new status. */
  function NextTaskStatus(s: string): (r: string)
    ensures s == "Not Started" ==> r == "In Progress"
    ensures s == "In Progress" ==> r == "Done"
    ensures s == "Done" ==> r == "Not Started"
    ensures s !in TaskOrder ==> r == "In Progress"
  {
    Advance(TaskOrder, s)
  }

  /** `cycleProjectStatus`'s new status. */
  function NextProjectStatus(s: string): (r: string)
    ensures s == "Planned" ==> r == "In Progress"
    ensures s == "In Progress" ==> r == "Completed"
    ensures s == "Completed" ==> r == "Planned"
    ensures s !in ProjectOrder ==> r == "In Progress"
  {
    Advance(ProjectOrder, s)
  }

  /** Three clicks from a known task status come back to it. */
  lemma TaskCycleOfThree(s: string)
    requires s in TaskOrder
    ensures NextTaskStatus(NextTaskStatus(NextTaskStatus(s))) == s
  {
    assert Distinct(TaskOrder);
    ClickCycles(TaskOrder);
    var i :| 0 <= i < 3 && TaskOrder[i] == s;
    CycleReturns(Click(TaskOrder), TaskOrder, i);
  }

  /** The same law for the project status cycle. */
  lemma ProjectCycleOfThree(s: string)
    requires s in ProjectOrder
    ensures NextProjectStatus(NextProjectStatus(NextProjectStatus(s))) == s
  {
    assert Distinct(ProjectOrder);
    ClickCycles(ProjectOrder);
    var i :| 0 <= i < 3 && ProjectOrder[i] == s;
    CycleReturns(Click(ProjectOrder), ProjectOrder, i);
  }

  // ---- Statistics ----

  datatype Stats = Stats(projectCount: nat, taskCount: nat, completedCount: nat, progress: nat)

  /** Every task of every project, project by project. */
  function AllTasks(ps: seq<Project>): seq<Task> {
    if ps == [] then [] else AllTasks(ps[..|ps| - 1]) + ps[|ps| - 1].phaseTasks
  }

  lemma AllTasksStep(ps: seq<Project>, i: nat)
    requires i < |ps|
    ensures AllTasks(ps[..i + 1]) == AllTasks(ps[..i]) + ps[i].phaseTasks
  {
    assert ps[..i + 1][..i] == ps[..i];
  }

  predicate IsDone(t: Task) {
    t.status == "Done"
  }

  lemma DoneStep(tasks: seq<Task>, j: nat)
    requires j < |tasks|
    ensures |Filter(IsDone, tasks[..j + 1])| == |Filter(IsDone, tasks[..j])| + if IsDone(tasks[j]) then 1 else 0
  {
    assert tasks[..j + 1] == tasks[..j] + [tasks[j]];
    FilterSnoc(IsDone, tasks[..j], tasks[j]);
  }

  lemma DoneAcrossProjects(ps: seq<Project>, i: nat)
    requires i < |ps|
    ensures |AllTasks(ps[..i + 1])| == |AllTasks(ps[..i])| + |ps[i].phaseTasks|
    ensures |Filter(IsDone, AllTasks(ps[..i + 1]))| == |Filter(IsDone, AllTasks(ps[..i]))| + |Filter(IsDone, ps[i].phaseTasks)|
  {
    AllTasksStep(ps, i);
    FilterAppend(IsDone, AllTasks(ps[..i]), ps[i].phaseTasks);
  }

  /** `Math.round(c / t * 100)` for `0 <= c <= t`, and 0 when there are no tasks. */
  function RoundPercent(c: nat, t: nat): (r: nat)
    requires c <= t
    ensures r <= 100
    ensures t == 0 ==> r == 0
    ensures t > 0 ==> 2 * t * r <= 200 * c + t < 2 * t * (r + 1)
  {
    if t == 0 then 0
    else
      var r := (200 * c + t) / (2 * t);
      assert 200 * c + t < 2 * t * 101;
      r
  }

  function HasId(id: Option<int>): Project -> bool {
    (p: Project) => Some(p.id) == id
  }

  predicate PassesFilters(p: Project, statusFilter: string, siteFilter: string) {
    (statusFilter == "all" || p.status == statusFilter) && (siteFilter == "all" || p.site == siteFilter)
  }

  function FiltersPass(statusFilter: string, siteFilter: string): Project -> bool {
    (p: Project) => PassesFilters(p, statusFilter, siteFilter)
  }

  function OnSite(siteFilter: string): Project -> bool {
    (p: Project) => p.site == siteFilter
  }

  function ForProject(pid: int): HsWarning -> bool {
    (w: HsWarning) => w.projectId == Some(pid)
  }

  function LinksProject(pid: int): Link -> bool {
    (l: Link) => l.projectId == pid
  }

  function HasContractorId(id: int): Contractor -> bool {
    (c: Contractor) => c.contractorId == id
  }

  /** The truthiness test `!selectedProjectId`: null and 0 both count as "nothing selected". */
  predicate Selected(id: Option<int>) {
    id.Some? && id.value != 0
  }

  /** `i` is the first contractor with id `id`: what `Array.prototype.find` returns. */
  predicate FirstWithId(cs: seq<Contractor>, id: int, i: int) {
    && 0 <= i < |cs|
    && cs[i].contractorId == id
    && forall j :: 0 <= j < i ==> cs[j].contractorId != id
  }

  /** The entry carries the contractor's own fields. */
  predicate JoinedWith(e: ContractorEntry, c: Contractor) {
    && e.name == c.name && e.company == c.company && e.trade == c.trade
    && e.phone == c.phone && e.email == c.email
    && e.accreditations == c.accreditations && e.preferred == c.preferred
  }

  /** The entry of a link whose contractor is missing: empty strings and not preferred. */
  predicate Unjoined(e: ContractorEntry) {
    && e.name == "" && e.company == "" && e.trade == "" && e.phone == ""
    && e.email == "" && e.accreditations == "" && !e.preferred
  }

  /**
   * One contractor entry of a project: the link's own fields, joined with the first
   * contractor whose id matches, or empty strings and `preferred = false` if none does.
   */
  function EntryFor(link: Link, cs: seq<Contractor>): (e: ContractorEntry)
    ensures e.linkId == link.linkId && e.projectId == link.projectId
    ensures e.role == link.role && e.notes == link.notes && e.contractorId == link.contractorId
    ensures (forall c :: c in cs ==> c.contractorId != link.contractorId) ==> Unjoined(e)
    ensures forall i :: FirstWithId(cs, link.contractorId, i) ==> JoinedWith(e, cs[i])
  {
    match FindIndex(cs, HasContractorId(link.contractorId))
    case None =>
      ContractorEntry(link.linkId, link.projectId, link.role, link.notes, link.contractorId,
        "", "", "", "", "", "", false)
    case Some(i) =>
      var c := cs[i];
      ContractorEntry(link.linkId, link.projectId, link.role, link.notes, c.contractorId,
        c.name, c.company, c.trade, c.phone, c.email, c.accreditations, c.preferred)
  }

  class Store {
    var projects: seq<Project>
    var selectedProjectId: Option<int>
    var contractors: seq<Contractor>
    var hsWarnings: seq<HsWarning>
    var projectContractorLinks: seq<Link>

    /** The state before anything is loaded. */
    constructor ()
      ensures projects == [] && selectedProjectId.None?
      ensures contractors == [] && hsWarnings == [] && projectContractorLinks == []
    {
      projects := [];
      selectedProjectId := None;
      contractors := [];
      hsWarnings := [];
      projectContractorLinks := [];
    }

    /** Replaces the projects; selects the first one only when nothing is selected yet. */
    method SetProjects(newProjects: seq<Project>)
      modifies this
      ensures projects == newProjects
      ensures |newProjects| > 0 && !Selected(old(selectedProjectId)) ==> selectedProjectId == Some(newProjects[0].id)
      ensures |newProjects| == 0 || Selected(old(selectedProjectId)) ==> selectedProjectId == old(selectedProjectId)
      ensures contractors == old(contractors) && hsWarnings == old(hsWarnings)
      ensures projectContractorLinks == old(projectContractorLinks)
    {
      projects := newProjects;
      if |projects| > 0 && !Selected(selectedProjectId) {
        selectedProjectId := Some(projects[0].id);
      }
    }

    /** Stores the id as given, whether or not a project has it. */
    method SetSelectedProject(id: Option<int>)
      modifies this
      ensures selectedProjectId == id
      ensures projects == old(projects) && contractors == old(contractors)
      ensures hsWarnings == old(hsWarnings) && projectContractorLinks == old(projectContractorLinks)
    {
      selectedProjectId := id;
    }

    /** The first project whose id is the selected id, if there is one. */
    function GetSelectedProject(): (r: Option<Project>)
      reads this
      ensures r.Some? ==> Some(r.value.id) == selectedProjectId
      ensures r.Some? ==> exists i :: (0 <= i < |projects| && projects[i] == r.value &&
                                      forall j :: 0 <= j < i ==> Some(projects[j].id) != selectedProjectId)
      ensures r.None? <==> forall p :: p in projects ==> Some(p.id) != selectedProjectId
    {
      match FindIndex(projects, HasId(selectedProjectId))
      case None => None
      case Some(i) => Some(projects[i])
    }

    /** The projects passing both filters, in stored order; "all" passes every value. */
    function GetFilteredProjects(statusFilter: string, siteFilter: string): (r: seq<Project>)
      reads this
      ensures SubseqOf(r, projects)
      ensures forall p :: multiset(r)[p] == if PassesFilters(p, statusFilter, siteFilter) then multiset(projects)[p] else 0
    {
      FilterKeeps(FiltersPass(statusFilter, siteFilter), projects);
      Filter(FiltersPass(statusFilter, siteFilter), projects)
    }

    /** With both filters at "all", the list is the stored one. */
    lemma FilteredAllIsEverything()
      ensures GetFilteredProjects("all", "all") == projects
    {
      FilterAllPass(FiltersPass("all", "all"), projects);
    }

    /** The programme view's site filter; "all" gives back the stored list itself. */
    function GetFilteredProjectsForProgramme(siteFilter: string): (r: seq<Project>)
      reads this
      ensures siteFilter == "all" ==> r == projects
      ensures SubseqOf(r, projects)
      ensures forall p :: multiset(r)[p] == if siteFilter == "all" || p.site == siteFilter then multiset(projects)[p] else 0
    {
      if siteFilter == "all" then
        SubseqOfSelf(projects);
        projects
      else
        FilterKeeps(OnSite(siteFilter), projects);
        Filter(OnSite(siteFilter), projects)
    }

    /** The programme filter is the project filter with the status filter at "all". */
    lemma ProgrammeFilterAgrees(siteFilter: string)
      ensures GetFilteredProjectsForProgramme(siteFilter) == GetFilteredProjects("all", siteFilter)
    {
      if siteFilter == "all" {
        FilterAllPass(FiltersPass("all", "all"), projects);
      } else {
        FilterCongruent(OnSite(siteFilter), FiltersPass("all", siteFilter), projects);
      }
    }

    /** Counts over every project and task; `progress` is the rounded percentage done. */
    method ComputeStats() returns (st: Stats)
      ensures st.projectCount == |projects|
      ensures st.taskCount == |AllTasks(projects)|
      ensures st.completedCount == |Filter(IsDone, AllTasks(projects))|
      ensures st.completedCount <= st.taskCount
      ensures st.progress == RoundPercent(st.completedCount, st.taskCount) && st.progress <= 100
    {
      var taskCount, completedCount := 0, 0;
      var i := 0;
      while i < |projects|
        invariant 0 <= i <= |projects|
        invariant taskCount == |AllTasks(projects[..i])|
        invariant completedCount == |Filter(IsDone, AllTasks(projects[..i]))|
      {
        var tasks := projects[i].phaseTasks;
        var j := 0;
        while j < |tasks|
          invariant 0 <= j <= |tasks|
          invariant taskCount == |AllTasks(projects[..i])| + j
          invariant completedCount == |Filter(IsDone, AllTasks(projects[..i]))| + |Filter(IsDone, tasks[..j])|
        {
          DoneStep(tasks, j);
          taskCount := taskCount + 1;
          if tasks[j].status == "Done" {
            completedCount := completedCount + 1;
          }
          j := j + 1;
        }
        assert tasks[..j] == tasks;
        DoneAcrossProjects(projects, i);
        i := i + 1;
      }
      assert projects[..i] == projects;
      st := Stats(|projects|, taskCount, completedCount, RoundPercent(completedCount, taskCount));
    }

    /** Advances the status of one task of one project; nothing else changes. */
    method CycleTaskStatus(pi: nat, ti: nat)
      requires pi < |projects| && ti < |projects[pi].phaseTasks|
      modifies this
      ensures |projects| == |old(projects)|
      ensures forall k :: 0 <= k < |projects| && k != pi ==> projects[k] == old(projects[k])
      ensures var p := old(projects[pi]);
        projects[pi] == p.(phaseTasks := p.phaseTasks[ti := p.phaseTasks[ti].(status := NextTaskStatus(p.phaseTasks[ti].status))])
      ensures selectedProjectId == old(selectedProjectId) && contractors == old(contractors)
      ensures hsWarnings == old(hsWarnings) && projectContractorLinks == old(projectContractorLinks)
    {
      var p := projects[pi];
      var t := p.phaseTasks[ti];
      projects := projects[pi := p.(phaseTasks := p.phaseTasks[ti := t.(status := NextTaskStatus(t.status))])];
    }

    /** Advances the status of one project; nothing else changes. */
    method CycleProjectStatus(pi: nat)
      requires pi < |projects|
      modifies this
      ensures projects == old(projects)[pi := old(projects[pi]).(status := NextProjectStatus(old(projects[pi]).status))]
      ensures selectedProjectId == old(selectedProjectId) && contractors == old(contractors)
      ensures hsWarnings == old(hsWarnings) && projectContractorLinks == old(projectContractorLinks)
    {
      projects := projects[pi := projects[pi].(status := NextProjectStatus(projects[pi].status))];
    }

    /** `contractors = newContractors || []`. */
    method SetContractors(newContractors: Option<seq<Contractor>>)
      modifies this
      ensures contractors == if newContractors.Some? then newContractors.value else []
      ensures projects == old(projects) && selectedProjectId == old(selectedProjectId)
      ensures hsWarnings == old(hsWarnings) && projectContractorLinks == old(projectContractorLinks)
    {
      contractors := if newContractors.Some? then newContractors.value else [];
    }

    /** `hsWarnings = newWarnings || []`. */
    method SetHSWarnings(newWarnings: Option<seq<HsWarning>>)
      modifies this
      ensures hsWarnings == if newWarnings.Some? then newWarnings.value else []
      ensures projects == old(projects) && selectedProjectId == old(selectedProjectId)
      ensures contractors == old(contractors) && projectContractorLinks == old(projectContractorLinks)
    {
      hsWarnings := if newWarnings.Some? then newWarnings.value else [];
    }

    /** `projectContractorLinks = newLinks || []`. */
    method SetProjectContractorLinks(newLinks: Option<seq<Link>>)
      modifies this
      ensures projectContractorLinks == if newLinks.Some? then newLinks.value else []
      ensures projects == old(projects) && selectedProjectId == old(selectedProjectId)
      ensures contractors == old(contractors) && hsWarnings == old(hsWarnings)
    {
      projectContractorLinks := if newLinks.Some? then newLinks.value else [];
    }

    /** The warnings recorded against a project id, in stored order; a NaN project id matches none. */
    function GetWarningsForProject(pid: int): (r: seq<HsWarning>)
      reads this
      ensures SubseqOf(r, hsWarnings)
      ensures forall w :: multiset(r)[w] == if w.projectId == Some(pid) then multiset(hsWarnings)[w] else 0
    {
      FilterKeeps(ForProject(pid), hsWarnings);
      Filter(ForProject(pid), hsWarnings)
    }

    /** The links of a project, in stored order. */
    function GetProjectContractorLinks(pid: int): (r: seq<Link>)
      reads this
      ensures SubseqOf(r, projectContractorLinks)
      ensures forall l :: multiset(r)[l] == if l.projectId == pid then multiset(projectContractorLinks)[l] else 0
    {
      FilterKeeps(LinksProject(pid), projectContractorLinks);
      Filter(LinksProject(pid), projectContractorLinks)
    }

    /** One entry per link of the project, in link order, each joined as `EntryFor` says. */
    function GetContractorsForProject(pid: int): (r: seq<ContractorEntry>)
      reads this
      ensures var links := GetProjectContractorLinks(pid);
        |r| == |links| && forall i :: 0 <= i < |r| ==> r[i] == EntryFor(links[i], contractors)
      ensures forall e :: e in r ==> e.projectId == pid
    {
      var links := GetProjectContractorLinks(pid);
      var cs := contractors;
      seq(|links|, i requires 0 <= i < |links| => EntryFor(links[i], cs))
    }
  }
}

=== FILE: text.dfy ===
/**
 * The string operations the normaliser and the views use: `toLowerCase`, `trim`,
 * `String(n)` for integers and the decimal-integer part of `Number(s)`.
 */
module Text {
  import opened Wrappers

  function LowerChar(c: char): char {
    if 'A' <= c <= 'Z' then (c as int + 32) as char else c
  }

  /** `String.prototype.toLowerCase`, restricted to the ASCII letters. */
  function ToLower(s: string): (r: string)
    ensures |r| == |s|
    ensures forall i :: 0 <= i < |s| ==> r[i] == LowerChar(s[i])
  {
    seq(|s|, i requires 0 <= i < |s| => LowerChar(s[i]))
  }

  /** The WhiteSpace and LineTerminator code points of ECMA-262 (sections 12.2 and 12.3). */
  predicate IsSpace(c: char) {
    var n := c as int;
    n == 0x09 || n == 0x0A || n == 0x0B || n == 0x0C || n == 0x0D || n == 0x20
    || n == 0xA0 || n == 0x1680 || (0x2000 <= n <= 0x200A) || n == 0x2028 || n == 0x2029
    || n == 0x202F || n == 0x205F || n == 0x3000 || n == 0xFEFF
  }

  /** No white space at either end. */
  predicate Trimmed(s: string) {
    s == [] || (!IsSpace(s[0]) && !IsSpace(s[|s| - 1]))
  }

  function LeadingSpaces(s: string): (n: nat)
    ensures n <= |s|
    ensures forall i :: 0 <= i < n ==> IsSpace(s[i])
    ensures n < |s| ==> !IsSpace(s[n])
  {
    if s == [] || !IsSpace(s[0]) then 0 else 1 + LeadingSpaces(s[1..])
  }

  function TrailingSpaces(s: string): (n: nat)
    ensures n <= |s|
    ensures forall i :: |s| - n <= i < |s| ==> IsSpace(s[i])
    ensures n < |s| ==> !IsSpace(s[|s| - 1 - n])
  {
    if s == [] || !IsSpace(s[|s| - 1]) then 0 else 1 + TrailingSpaces(s[..|s| - 1])
  }

  /**
   * `String.prototype.trim`: the slice `s[a..b]` that remains once every white-space
   * character before the first and after the last other character is removed.
   */
  function Trim(s: string): (r: string)
    ensures Trimmed(r)
    ensures exists a, b :: 0 <= a <= b <= |s| && r == s[a..b] &&
              (forall j :: 0 <= j < a ==> IsSpace(s[j])) && (forall j :: b <= j < |s| ==> IsSpace(s[j]))
  {
    var a := LeadingSpaces(s);
    var t := s[a..];
    var b := |t| - TrailingSpaces(t);
    assert t[..b] == s[a..a + b];
    t[..b]
  }

  /** A string without white space at its ends is left as it is by `trim`. */
  lemma TrimKeepsTrimmed(s: string)
    requires Trimmed(s)
    ensures Trim(s) == s
  {
  }

  predicate IsDigit(c: char) {
    '0' <= c <= '9'
  }

  predicate AllDigits(s: string) {
    forall i :: 0 <= i < |s| ==> IsDigit(s[i])
  }

  function DigitChar(d: nat): (c: char)
    requires d < 10
    ensures IsDigit(c)
  {
    ('0' as int + d) as char
  }

  /** `String(n)` for a non-negative integer. */
  function NatToString(n: nat): (r: string)
    ensures |r| > 0 && AllDigits(r)
  {
    if n < 10 then [DigitChar(n)] else NatToString(n / 10) + [DigitChar(n % 10)]
  }

  /** `String(i)` for an integer, as in the template literal that builds a task id. */
  function IntToString(i: int): (r: string)
    ensures |r| > 0
  {
    if i < 0 then "-" + NatToString(-i) else NatToString(i)
  }

  function DigitsValue(s: string): nat
    requires AllDigits(s)
  {
    if s == [] then 0
    else 10 * DigitsValue(s[..|s| - 1]) + (s[|s| - 1] as int - '0' as int)
  }

  /**
   * The decimal-integer forms of ECMA-262's StringNumericLiteral: an optional sign
   * followed by one or more decimal digits. Every other string is NaN (`None`) here.
   */
  function ParseIntLiteral(s: string): Option<int> {
    if |s| > 0 && (s[0] == '+' || s[0] == '-') then
      var digits := s[1..];
      if |digits| > 0 && AllDigits(digits) then
        Some(if s[0] == '-' then 0 - DigitsValue(digits) else DigitsValue(digits) as int)
      else None
    else if |s| > 0 && AllDigits(s) then Some(DigitsValue(s))
    else None
  }

  lemma {:induction false} NatRoundTrip(n: nat)
    ensures DigitsValue(NatToString(n)) == n
  {
    if n >= 10 {
      NatRoundTrip(n / 10);
      var r := NatToString(n);
      assert r[..|r| - 1] == NatToString(n / 10);
    }
  }

  /** Reading back the decimal text of an integer gives the integer: `Number(String(i)) === i`. */
  lemma {:induction false} IntRoundTrip(i: int)
    ensures ParseIntLiteral(IntToString(i)) == Some(i)
  {
    if i < 0 {
      NatRoundTrip(-i);
      var r := IntToString(i);
      assert r[1..] == NatToString(-i);
    } else {
      NatRoundTrip(i);
    }
  }

  /** The decimal text of an integer has no white space around it. */
  lemma IntToStringTrimmed(i: int)
    ensures Trimmed(IntToString(i))
  {
    var r := IntToString(i);
    if i < 0 {
      assert r[|r| - 1] == NatToString(-i)[|NatToString(-i)| - 1];
    }
  }
}

=== FILE: wrappers.dfy ===
/** Option and Result values, standing for JavaScript's null/undefined/NaN and thrown errors. */
module Wrappers {

  datatype Option<+T> = None | Some(value: T)

  /** `Err` is a thrown exception; `:-` propagates it as `throw` does. */
  datatype Result<+R, +E> = Ok(value: R) | Err(error: E) {
    predicate IsFailure() {
      Err?
    }

    function PropagateFailure<U>(): Result<U, E>
      requires Err?
    {
      Err(error)
    }

    function Extract(): R
      requires Ok?
    {
      value
    }
  }
}
